=== FILE: README.md ===
# Prime Backend API: a verified model of its services

This project models the core of the Prime backend, a Play/MongoDB service in Java. It has
users, roles, dashboards arranged in a tree, and dashboard content of four kinds (email,
image, line chart, text). The model covers these parts:

- **Access control.** Every record carries a `readACL` and a `writeACL`. A user reads with
  their *access ids*: their own id, their roles and the wildcard `"*"`. A record whose two
  lists are both empty is public.
- **Collections.** MongoDB's collections are held in memory: the `Store.Database` class has
  one sequence per collection, with a unique index on `_id`. The `Query` module gives the
  meaning of each driver call the services make (`find`, `skip`/`limit`, `first`,
  `replaceOne`, `deleteOne`, `deleteMany`).
- **Services.** The three CRUD services (dashboards, dashboard content, users) are methods
  that change that database. The listings are functions over its collections.
- **Hierarchy listings.** These use `graphLookup`, then the in-place tree builder
  `recursiveHierarchy`. The source also has a second builder, `buildHierarchyTree`, which
  nothing calls. It is modelled alongside and proved to agree (`Hierarchy.BuildersAgree`).
  Both builders work on an array of child lists (module `Hierarchy`).
- **Login.** `authenticate` issues a token that expires one day after issue, computed in
  Java `long` arithmetic.
- **Authenticated action.** The chain `extractIdFrom` → `getUserFrom` → `verifyTokenFor`
  recovers the user from a token. It follows Java's `String.split` and the basic Base64
  decoder.
- **Bean-validation constraints.** The report `HibernateValidator` renders from them.
- **Content.** The tagged union, with its JSON (`type` property) and BSON (discriminator)
  mappings.

The cryptography, the password hash, the clock, JSON parsing of the token payload and the
server configuration are not modelled. They are parameters of the functions that use them,
each with the contract the proofs rely on.

Conventions:

- A Java reference that may be null is an `Option`.
- A service outcome is a `Result`: a value, or the HTTP status of the `RequestException`
  the service throws.
- The authentication chain uses `Attempt`. Its failures also record exceptions that no
  handler turns into a status.

## Model

| member | source | states |
|---|---|---|
| Acl.ContainElementsInCommon | app/io/exercise/api/utils/ServiceUtils.java:78-80 | true exactly when some entry of the first list occurs in the second |
| Acl.CommonSymmetric | app/io/exercise/api/utils/ServiceUtils.java:78-80 | which list is streamed and which is hashed does not change the answer |
| Acl.CommonWithEmpty | app/io/exercise/api/utils/ServiceUtils.java:78-80 | nothing is in common with an empty list, on either side |
| Acl.ReadMatch | app/io/exercise/api/utils/ServiceUtils.java:82-91 | the read filter admits every public record; with no access ids it admits exactly the public records |
| Acl.ReadMatchMeaning | app/io/exercise/api/utils/ServiceUtils.java:82-91 | the read filter admits a record iff an entry of `readACL` or of `writeACL` is an access id, or both lists are empty |
| Acl.ReadMatchMonotone | app/io/exercise/api/utils/ServiceUtils.java:82-91 | adding access ids never hides a record the filter admitted before |
| Acl.Appended | app/io/exercise/api/services/DashboardService.java:351-352 | `addAll` of the stored access entries: the incoming entries then the stored ones, both kept whole and in order |
| Common.ParseObjectId | app/io/exercise/api/services/DashboardContentService.java:52 | `new ObjectId(s)` succeeds iff `s` is 24 hex digits; the result is the canonical lower-case form: it agrees with `s` wherever `s` is already lower case, and each upper-case digit A-F becomes its lower-case counterpart |
| Common.CanonicalIdRoundTrip | app/io/exercise/api/services/UserService.java:202 | parsing the text of an id gives back the same id |
| Users.AccessIds | app/io/exercise/api/models/User.java:45-49 | the user's id first, then the roles in order, then `"*"`; membership is exactly those |
| Users.PublicRecordWritable | app/io/exercise/api/models/User.java:36-41 | a record with both lists empty is writable by every user |
| Users.ReadOnlyRecordRefused | app/io/exercise/api/models/User.java:36-41 | an empty `writeACL` with a non-empty `readACL` is writable by nobody |
| Users.WriteRuleByAccessIds | app/io/exercise/api/models/User.java:36-49 | write access holds iff the record is public or its `writeACL` meets the access ids |
| Users.HasReadWriteAccessFor | app/io/exercise/api/models/User.java:36-41 | the user's own id, the wildcard or one of their roles in `writeACL` grants write access; with an empty `writeACL` only a public record is writable |
| Users.WriteAccessSurvivesGrowth | app/io/exercise/api/models/User.java:36-41 | for a non-public record, a `writeACL` that keeps every old entry never revokes write access |
| Users.WriteImpliesRead | app/io/exercise/api/models/User.java:36-49 | whatever a user may write passes the read filter built from their access ids |
| Users.ReadFilterIsPerRecordRule | app/io/exercise/api/utils/ServiceUtils.java:82-91 | the query filter selects exactly the records that are public or have an entry naming the user, one of their roles, or `"*"` |
| Users.UserValidity | app/io/exercise/api/models/User.java:24-30 | a user is valid iff username and password are both present with at least 5 UTF-16 code units |
| Users.SupplementaryUsernameAccepted | app/io/exercise/api/models/User.java:24-30 | a username of three characters above U+FFFF is six code units long and passes the 5-character minimum |
| Roles.RoleValidity | app/io/exercise/api/models/Role.java:11-13 | a role is valid iff its name is present with at least 5 UTF-16 code units |
| Roles.ShortRoleNameRefused | app/io/exercise/api/models/Role.java:11-13 | a name of 2 to 4 UTF-16 code units is refused with only the size message, which speaks of 2 characters |
| Roles.MissingRoleName | app/io/exercise/api/models/Role.java:11-13 | a null name draws only the emptiness message; an empty name draws both messages |
| Requests.AuthUserRequestValidity | app/io/exercise/api/models/requests/AuthUserRequest.java:15-21 | a login request is valid iff both fields are present with at least 5 UTF-16 code units |
| Requests.AuthUserRequestMessages | app/io/exercise/api/models/requests/AuthUserRequest.java:15-17 | a null username draws only "Username cannot be empty!"; a short one only the size message |
| Requests.AuthUserRequestPasswordMessages | app/io/exercise/api/models/requests/AuthUserRequest.java:19-21 | the same for the password, with the password messages |
| Requests.FiveCharactersAccepted | app/io/exercise/api/models/requests/AuthUserRequest.java:15-21 | five characters in each field is accepted |
| Validation.NotEmpty | app/io/exercise/api/models/User.java:24 | `@NotEmpty` on a string or a list fails exactly on null and the empty value, with the declared message only |
| Validation.MinSize | app/io/exercise/api/models/User.java:25 | `@Size(min)` accepts null and fails exactly on strings of fewer than `min` UTF-16 code units, the unit `CharSequence.length()` counts |
| Validation.Utf16Length | app/io/exercise/api/models/User.java:25 | the length `@Size` measures: between the number of characters and twice it, equal to it when every character is below U+10000, twice it when every one is above U+FFFF |
| Validation.Utf16LengthAppend | app/io/exercise/api/models/User.java:25 | the code units of a concatenation are the sum of its parts' |
| Validation.Capitalize | app/io/exercise/api/models/validators/HibernateValidator.java:28 | same length; a lower-case first letter becomes upper case; the rest is unchanged |
| Validation.Render | app/io/exercise/api/models/validators/HibernateValidator.java:28 | an entry is the capitalised path, one space, then the message |
| Validation.Join | app/io/exercise/api/models/validators/HibernateValidator.java:29 | joining no entries gives ""; otherwise the result begins with the first entry |
| Validation.JoinSnoc | app/io/exercise/api/models/validators/HibernateValidator.java:29 | joining one more entry appends the separator and that entry |
| Validation.JoinLength | app/io/exercise/api/models/validators/HibernateValidator.java:29 | joining k entries adds exactly k-1 separators |
| Validation.Entries | app/io/exercise/api/models/validators/HibernateValidator.java:27-28 | one rendered entry per violation, in order |
| Validation.FormatErrors | app/io/exercise/api/models/validators/HibernateValidator.java:26-30 | a report of n violations is at least 3n-2 characters long, begins with the first rendered entry, and is exactly that entry when n is 1 |
| Validation.FormatErrorsSnoc | app/io/exercise/api/models/validators/HibernateValidator.java:26-30 | a further violation extends the report by ", " and its rendered entry, so every report is the rendered entries joined with ", " |
| Validation.EntriesLength | app/io/exercise/api/models/validators/HibernateValidator.java:28 | every rendered entry is at least one character long |
| Validation.ValidateOne | app/io/exercise/api/models/validators/HibernateValidator.java:13-30 | one violation is reported as "Path message", with no separator |
| Validation.Validate | app/io/exercise/api/models/validators/HibernateValidator.java:13-19 | the report is empty iff there is no violation |
| Contents.TypeName | app/io/exercise/api/models/dashboard/Content.java:24-30 | each type constant's name is 4 or 5 characters long |
| Contents.TypeNameInjective | app/io/exercise/api/models/dashboard/Content.java:24-30 | distinct type constants have distinct names |
| Contents.GetType | app/io/exercise/api/models/dashboard/EmailContent.java:28-31 | the base class reports its `type` field; every variant reports a type other than NONE |
| Contents.GetTypeIgnoresField | app/io/exercise/api/models/dashboard/TextContent.java:22-25 | a variant's reported type does not depend on the inherited field |
| Contents.DiscriminatorIsTypeName | app/io/exercise/api/models/dashboard/ImageContent.java:16-25 | each class stores as discriminator the name of the type it reports (the base class, that of the default) |
| Contents.JsonSubtype | app/io/exercise/api/models/dashboard/Content.java:23-29 | exactly the tags EMAIL, IMAGE, LINE, TEXT select a subclass, whose type has that name |
| Contents.JsonSubtypeOfNames | app/io/exercise/api/models/dashboard/Content.java:23-29 | each type's name selects that type, except NONE, which selects nothing |
| Contents.ToJson | app/io/exercise/api/models/dashboard/Content.java:23-29 | the JSON `type` property is the name of the reported type; every other field is the one the BSON document carries |
| Contents.FromJson | app/io/exercise/api/models/dashboard/Content.java:23-29 | decoding succeeds iff the tag is a known subtype; it yields that variant, with the visible `type` field equal to its reported type |
| Contents.JsonRoundTrip | app/io/exercise/api/models/dashboard/Content.java:23-39 | every variant survives encode-then-decode, with its `type` field then agreeing with its class |
| Contents.BaseNotJsonDecodable | app/io/exercise/api/models/dashboard/Content.java:23-30 | a base-class object never comes back from JSON as itself |
| Contents.ToBson | app/io/exercise/api/models/dashboard/Content.java:30-39 | the stored discriminator is the class's, and the id, access lists and parent are written unchanged |
| Contents.FromBson | app/io/exercise/api/models/dashboard/Content.java:30-39 | loading succeeds iff the discriminator is absent, "NONE" or a known subtype; the `type` field comes back at its default |
| Contents.BsonRoundTrip | app/io/exercise/api/models/dashboard/LineContent.java:18-27 | store-then-load gives the same object but for the unstored `type` field, so every variant reports the same type |
| Contents.ContentValidity | app/io/exercise/api/models/dashboard/EmailContent.java:19-26 | an item is valid iff every field its variant declares is present and non-empty |
| Dashboards.DashboardValidity | app/io/exercise/api/models/dashboard/Dashboard.java:26-32 | valid iff the name has 2 or more UTF-16 code units and the description 4 or more |
| Dashboards.OneLetterNameRefused | app/io/exercise/api/models/dashboard/Dashboard.java:26-28 | a one-letter name gives the report "Name should have at least 3 characters" |
| Dashboards.CapitalizeName | app/io/exercise/api/models/validators/HibernateValidator.java:28 | the property path "name" is reported as "Name" |
| Dashboards.TwoLetterNameAccepted | app/io/exercise/api/models/dashboard/Dashboard.java:26-28 | a two-letter name passes, although the message speaks of 3 characters |
| Dashboards.StepMonotone | app/io/exercise/api/services/DashboardService.java:132-140 | one round of the search is monotone in the ids already taken |
| Dashboards.Reach | app/io/exercise/api/services/DashboardService.java:132-140 | repeating the search rounds reaches a fixpoint that contains the start set |
| Dashboards.ReachLeast | app/io/exercise/api/services/DashboardService.java:132-140 | that fixpoint lies inside every closed set containing the start |
| Dashboards.ReachedIds | app/io/exercise/api/services/DashboardService.java:132-140 | the ids `graphLookup` collects are closed under one more round |
| Dashboards.GraphLookup | app/io/exercise/api/services/DashboardService.java:132-140 | a document is returned iff it passes the restriction and its parent is the start or a returned document; unique ids stay unique |
| Dashboards.GraphLookupLeast | app/io/exercise/api/services/DashboardService.java:132-140 | the returned documents lie in every closed set of ids: nothing is taken that does not hang from the start |
| Dashboards.RoundOf | app/io/exercise/api/services/DashboardService.java:132-140 | the rounds of the search still to come when an id is taken, never more than the rounds left |
| Dashboards.TakenAfterParent | app/io/exercise/api/services/DashboardService.java:132-140 | under unique ids, a document is taken in a strictly later round than its parent |
| Dashboards.GraphLookupRanked | app/io/exercise/api/services/DashboardService.java:132-140 | whatever cycles the collection holds elsewhere, the documents `graphLookup` returns rank strictly below their parents by search round, and none has the start's id, provided no stored document with that id has a parent |
| Dashboards.GraphLookupBelowStart | app/io/exercise/api/services/DashboardService.java:132-140 | in an acyclic collection every returned document ranks strictly below the start, so the start is never returned |
| Dashboards.ItemsFor | app/io/exercise/api/services/DashboardService.java:71-85 | null iff no readable item is attached; otherwise exactly the readable attached items, never empty |
| Dashboards.GroupOfQuery | app/io/exercise/api/services/DashboardService.java:160-176 | grouping the content query by `dashboardId` and taking one dashboard's group gives exactly its readable items |
| Hierarchy.ChildIndices | app/io/exercise/api/services/DashboardService.java:270-279 | the slots whose `parentId` is the given id, in increasing list order |
| Hierarchy.RecursedAppends | app/io/exercise/api/services/DashboardService.java:287-297 | `recursiveHierarchy` appends to each slot its own children once for each invocation the recursion makes on that slot |
| Hierarchy.Recursed | app/io/exercise/api/services/DashboardService.java:287-297 | the child lists after `recursiveHierarchy` from a slot: one list per slot |
| Hierarchy.RecursiveHierarchy | app/io/exercise/api/services/DashboardService.java:287-297 | the in-place child lists after the method are those the recursion's specification gives |
| Hierarchy.BuiltReplaces | app/io/exercise/api/services/DashboardService.java:268-280 | `buildHierarchyTree` sets every slot it visits to exactly its own children and leaves the others alone |
| Hierarchy.Built | app/io/exercise/api/services/DashboardService.java:268-280 | the child lists after `buildHierarchyTree` from a slot: one list per slot |
| Hierarchy.BuildHierarchyTree | app/io/exercise/api/services/DashboardService.java:268-280 | the in-place child lists after the method are those the builder's specification gives |
| Hierarchy.NoChildren | app/io/exercise/api/models/dashboard/Dashboard.java:38-40 | one empty children list per object |
| Hierarchy.VisitedOnce | app/io/exercise/api/services/DashboardService.java:287-297 | on a `graphLookup` result with unique ids, starting at the root visits every object exactly once |
| Hierarchy.RecursedFromRoot | app/io/exercise/api/services/DashboardService.java:287-297 | from the root with empty lists, `recursiveHierarchy` gives every object exactly its own children, in list order |
| Hierarchy.BuiltFromRoot | app/io/exercise/api/services/DashboardService.java:268-280 | from the root with empty lists, `buildHierarchyTree` gives every object exactly its own children, in list order |
| Hierarchy.BuildersAgree | app/io/exercise/api/services/DashboardService.java:268-297 | from the root with empty lists, the two builders produce the same lists: each object gets exactly the objects whose parent it is, in list order |
| Hierarchy.HierarchyFromRoot | app/io/exercise/api/services/DashboardService.java:190-198 | cloning the root, then `recursiveHierarchy` from it, gives every object exactly its own children |
| Query.Select | app/io/exercise/api/services/UserService.java:79-81 | `find(filter)` returns the matching documents, and no more than the collection holds |
| Query.SelectAppend | app/io/exercise/api/services/UserService.java:79-81 | filtering keeps the relative order of the documents |
| Query.SelectEverything | app/io/exercise/api/services/UserService.java:79-81 | a filter every document passes returns the collection unchanged |
| Query.SelectCongruent | app/io/exercise/api/services/UserService.java:79-81 | filters that agree on the collection select the same documents |
| Query.SelectNone | app/io/exercise/api/services/UserService.java:79-81 | a filter no document passes selects nothing |
| Query.SelectSelect | app/io/exercise/api/services/DashboardContentService.java:51-54 | `and` of two filters is filtering twice |
| Query.Positions | app/io/exercise/api/services/DashboardService.java:128 | the positions of the matching documents, in increasing order |
| Query.SelectPositions | app/io/exercise/api/services/DashboardService.java:128 | `find(filter)` takes its k-th document from the k-th matching position, so it keeps collection order |
| Query.KeyDetermines | app/io/exercise/api/services/UserService.java:146-147 | under the unique index, two documents with the same `_id` are the same document |
| Query.UniqueAppend | app/io/exercise/api/services/DashboardService.java:315 | inserting a document whose `_id` is new keeps the index unique |
| Query.UniqueSelect | app/io/exercise/api/services/DashboardService.java:435-440 | deleting by filter keeps the index unique |
| Query.SelectKeys | app/io/exercise/api/services/DashboardService.java:435-440 | the keys of a filtered collection are keys of the collection |
| Query.Page | app/io/exercise/api/services/UserService.java:82-83 | `skip` then `limit` (0 meaning no limit): the documents from position `skip` on, in order, at most `limit` of them |
| Query.PageBound | app/io/exercise/api/services/UserService.java:82-83 | a page never holds more than a positive `limit` |
| Query.PageWindow | app/io/exercise/api/services/UserService.java:82-83 | every document inside the window from `skip` to `skip + limit` is on the page, at its offset from `skip` |
| Query.First | app/io/exercise/api/services/UserService.java:146-147 | null iff nothing matches; otherwise the earliest matching document |
| Query.ReplaceFirst | app/io/exercise/api/services/UserService.java:157 | same length; only a matching position may change, and only to the replacement; nothing changes when nothing matches |
| Query.RemoveFirst | app/io/exercise/api/services/UserService.java:202 | one matching document goes when one exists; every non-matching one stays; nothing new appears |
| Query.UniqueTail | app/io/exercise/api/services/UserService.java:146-147 | a suffix of a uniquely keyed collection is uniquely keyed, and lacks its head's key |
| Query.ReplaceByKey | app/io/exercise/api/services/DashboardService.java:351-353 | under the unique index, replacing by `_id` puts the new document exactly where the old one was and keeps the index unique |
| Query.RemoveByKey | app/io/exercise/api/services/DashboardContentService.java:184 | under the unique index, `deleteOne(eq(_id, k))` is exactly "keep the documents whose `_id` is not k", in order |
| Query.FindByKey | app/io/exercise/api/services/UserService.java:146-150 | a lookup by `_id` finds a document iff one has that `_id`, and the one found has it |
| Store.Database.constructor | app/io/exercise/api/services/UserService.java:48-49 | an empty database whose collections all satisfy the unique index |
| Store.FindWritable | app/io/exercise/api/services/DashboardContentService.java:175-183 | NOT_FOUND iff no document has the id; FORBIDDEN otherwise when it may not be written; success gives that stored, writable document |
| Store.MissingBeforeForbidden | app/io/exercise/api/services/DashboardService.java:383-391 | NOT_FOUND is decided before, and regardless of, the permission check |
| DashboardService.Ids | app/io/exercise/api/services/DashboardService.java:74-77 | the ids of a page of dashboards, position by position |
| DashboardService.All | app/io/exercise/api/services/DashboardService.java:49-94 | the page of readable dashboards in collection order, each carrying exactly its readable content items (null when none) |
| DashboardService.AllReadable | app/io/exercise/api/services/DashboardService.java:49-94 | everything listed is stored and readable by the user, and so is every item attached to it |
| DashboardService.PageRoots | app/io/exercise/api/services/DashboardService.java:110-131 | the hierarchy roots are stored, parentless and readable; every parentless dashboard of the readable page is among them; at most `limit` of them |
| DashboardService.PageRootsInPageOrder | app/io/exercise/api/services/DashboardService.java:110-131 | the roots are the page's parentless dashboards in the order the page holds them |
| DashboardService.PageOfChildrenHasNoRoots | app/io/exercise/api/services/DashboardService.java:110-131 | paging comes before the root match: a page window holding only children gives an empty listing, however many roots lie outside it |
| DashboardService.Family | app/io/exercise/api/services/DashboardService.java:132-140 | a hierarchy is the documents `graphLookup` hangs below the root, each stored and with a parent, followed by the root's clone |
| DashboardService.FamilyUnfiltered | app/io/exercise/api/services/DashboardService.java:132-140 | every stored dashboard whose parent is in a hierarchy belongs to it, whatever its access lists say |
| DashboardService.Assemble | app/io/exercise/api/services/DashboardService.java:187-198 | the objects of one hierarchy, each with exactly the objects whose parent it is as children |
| DashboardService.FamilyIsArena | app/io/exercise/api/services/DashboardService.java:132-140 | with unique ids and a root no stored document re-enters, a hierarchy's objects rank below its root by search round, hang from one another, and have distinct ids, whatever cycles lie elsewhere |
| DashboardService.RootsAreTopmost | app/io/exercise/api/services/DashboardService.java:105-140 | a root of the page is the only stored document with its id, so the search never returns to it |
| DashboardService.CycleAwayFromRoot | app/io/exercise/api/services/DashboardService.java:132-140 | a store holding a two-dashboard `parentId` cycle admits no ranking at all, yet meets the listings' preconditions, and the root's family is the root alone |
| DashboardService.FamilyGrounded | app/io/exercise/api/services/DashboardService.java:132-140 | every object of a hierarchy but the root has its parent in the hierarchy |
| DashboardService.Descendants | app/io/exercise/api/services/DashboardService.java:154-158 | the flattened descendants include everything `graphLookup` hangs under each root |
| DashboardService.FlatIds | app/io/exercise/api/services/DashboardService.java:154-169 | the id list of the content query holds the id of every object of every hierarchy on the page |
| DashboardService.FlatItems | app/io/exercise/api/services/DashboardService.java:160-176 | each object of a hierarchy finds exactly its own readable items in the group for its id |
| DashboardService.AssembleWithItems | app/io/exercise/api/services/DashboardService.java:187-198 | one hierarchy: children exactly its own, items exactly its readable content |
| DashboardService.ListHierarchy | app/io/exercise/api/services/DashboardService.java:105-210 | fails with INTERNAL_SERVER_ERROR iff limit is 0; otherwise one hierarchy per root of the page, in order, with the shape and items above |
| DashboardService.ListHierarchy2 | app/io/exercise/api/services/DashboardService.java:212-261 | as the above, with roots from "dashboardsSmall" and no items attached |
| DashboardService.WithCreator | app/io/exercise/api/services/DashboardService.java:313-314 | only the access lists change; each gains the creator at its end, so the creator may write and read the saved dashboard |
| DashboardService.Save | app/io/exercise/api/services/DashboardService.java:307-326 | a duplicate `_id` fails with INTERNAL_SERVER_ERROR and writes nothing; otherwise the dashboard with its creator is appended; other collections unchanged |
| DashboardService.Merged | app/io/exercise/api/services/DashboardService.java:351-352 | only the access lists change: the incoming entries, then the stored ones, with nothing lost |
| DashboardService.UpdateKeepsWriter | app/io/exercise/api/services/DashboardService.java:345-353 | updating a non-public record never takes write access from the user who updated it |
| DashboardService.UpdateCanLockPublicRecord | app/io/exercise/api/services/DashboardService.java:345-353 | an update of a public record that brings only a `readACL` leaves it writable by nobody, the updater included |
| DashboardService.Update | app/io/exercise/api/services/DashboardService.java:336-367 | NOT_FOUND, then FORBIDDEN, with nothing written; otherwise the merged dashboard replaces the stored one in place |
| DashboardService.UpdateReplacesInPlace | app/io/exercise/api/services/DashboardService.java:353 | the update puts the merged record where the stored one was and leaves every other dashboard alone |
| DashboardService.CascadeIds | app/io/exercise/api/services/DashboardService.java:405-430 | the cascade ids are the target and every dashboard reached below it through dashboards whose `readACL` names none of the user's access ids |
| DashboardService.Delete | app/io/exercise/api/services/DashboardService.java:377-454 | NOT_FOUND, then FORBIDDEN, with nothing deleted; otherwise the content attached to a cascade id goes, as do the target and every dashboard whose parent is a cascade id |
| DashboardService.CascadeOrphansGrandchild | app/io/exercise/api/services/DashboardService.java:405-440 | a child whose `readACL` names the user stops the cascade: the child goes, its own child is left orphaned, and the child's content stays |
| ContentService.All | app/io/exercise/api/services/DashboardContentService.java:46-66 | an id that is not an ObjectId gives INTERNAL_SERVER_ERROR; otherwise the page of readable items attached to that dashboard |
| ContentService.AllListsReadableChildren | app/io/exercise/api/services/DashboardContentService.java:49-57 | every item listed is stored, attached to the requested dashboard and readable; at most `limit` of them |
| ContentService.Attached | app/io/exercise/api/services/DashboardContentService.java:92-94 | only the parent and the access lists change; each list gains the creator at its end |
| ContentService.CreatorOwnsAttached | app/io/exercise/api/services/DashboardContentService.java:92-95 | the creator may write the saved item, and it is listed to them under its dashboard |
| ContentService.Stored | app/io/exercise/api/services/DashboardContentService.java:95 | what a stored item loads back as, with the same reported type for every variant |
| ContentService.Save | app/io/exercise/api/services/DashboardContentService.java:78-106 | INTERNAL_SERVER_ERROR iff the id is invalid, no dashboard's "id" holds it, or the `_id` is taken, with nothing written; otherwise the attached item is appended |
| ContentService.Merged | app/io/exercise/api/services/DashboardContentService.java:131-143 | only the parent and the access lists change; the lists hold the incoming entries, then the stored ones |
| ContentService.UpdateKeepsWriter | app/io/exercise/api/services/DashboardContentService.java:139-143 | updating a non-public item never takes write access from its updater |
| ContentService.Update | app/io/exercise/api/services/DashboardContentService.java:118-158 | invalid id: INTERNAL_SERVER_ERROR; no dashboard: BAD_REQUEST; then NOT_FOUND or FORBIDDEN; a failure writes nothing; otherwise the merged item replaces the stored one in place |
| ContentService.Delete | app/io/exercise/api/services/DashboardContentService.java:169-198 | NOT_FOUND, then FORBIDDEN, with nothing written; otherwise the item with that `_id` alone goes |
| ContentService.DeleteRemovesExactlyTarget | app/io/exercise/api/services/DashboardContentService.java:184 | after the delete no item has that `_id`, and every other item is still there |
| UserService.AsStored | app/io/exercise/api/models/User.java:22-30 | a stored user loses the undeclared `email` field and keeps every other field |
| UserService.HasKeyOfPrefix | app/io/exercise/api/services/UserService.java:52-57 | an id present before the seeding loop goes on is present after |
| UserService.Seeded | app/io/exercise/api/services/UserService.java:45-68 | seeding never shrinks the collection and adds at most one user per given user |
| UserService.SeededExtends | app/io/exercise/api/services/UserService.java:45-68 | seeding keeps every stored user in place; afterwards every given id is stored, and only given users were added |
| UserService.SeededNoop | app/io/exercise/api/services/UserService.java:52-57 | when every given id is already stored, seeding writes nothing |
| UserService.SeedingIdempotent | app/io/exercise/api/services/UserService.java:45-68 | seeding twice is seeding once |
| UserService.SeededUnique | app/io/exercise/api/services/UserService.java:52-57 | seeding keeps the `_id` index unique, even with repeated ids in the input |
| UserService.Setup | app/io/exercise/api/services/UserService.java:45-68 | returns its input; the users collection is then the seeded one; other collections unchanged |
| UserService.All | app/io/exercise/api/services/UserService.java:76-93 | exactly as many users as the readable page holds, each the readable user at its position from `skip` on; at most `limit` of them |
| UserService.AllWindow | app/io/exercise/api/services/UserService.java:76-93 | every readable user inside the window from `skip` to `skip + limit` is listed, at its offset from `skip` |
| UserService.AllReadable | app/io/exercise/api/services/UserService.java:76-93 | every listed user is stored and readable by the caller |
| UserService.Save | app/io/exercise/api/services/UserService.java:102-125 | INTERNAL_SERVER_ERROR iff the password hash throws or the `_id` is taken, with nothing written; otherwise the user with its hashed password is appended |
| UserService.SavedWithoutAclIsPublic | app/io/exercise/api/services/UserService.java:108-111 | a user saved without access lists is readable and writable by every user |
| UserService.Checked | app/io/exercise/api/services/UserService.java:142-154 | NOT_FOUND for an invalid path id or an unknown payload `_id`; otherwise success iff the caller may write the incoming object, giving the stored user with that `_id` |
| UserService.WildcardPayloadPassesCheck | app/io/exercise/api/services/UserService.java:152-154 | an incoming object whose `writeACL` holds "*" passes the check for any caller |
| UserService.Merged | app/io/exercise/api/services/UserService.java:155-156 | only the access lists change: the incoming entries, then the stored ones |
| UserService.Update | app/io/exercise/api/services/UserService.java:136-172 | a failed check gives its status with nothing written; a path id of another stored user is refused by the immutable `_id` (INTERNAL_SERVER_ERROR); otherwise the merged user replaces the one with the path id |
| UserService.UpdateOfUnknownPathWritesNothing | app/io/exercise/api/services/UserService.java:157 | replacing under a path id nobody holds writes nothing |
| UserService.Delete | app/io/exercise/api/services/UserService.java:183-216 | a failed check gives its status with nothing written; otherwise exactly the user with the path id is removed |
| UserService.DeleteCanRemoveAnotherUser | app/io/exercise/api/services/UserService.java:189-202 | a caller allowed on the payload deletes the user named by the path, a different one, and the payload's own user stays |
| Tokens.SplitOn | app/io/exercise/api/utils/ServiceUtils.java:34 | at least one segment; no segment contains the separator |
| Tokens.SplitJoin | app/io/exercise/api/utils/ServiceUtils.java:34 | joining the segments with the separator gives back the string |
| Tokens.SplitAfterFirst | app/io/exercise/api/utils/ServiceUtils.java:34 | the text before the first separator is the first segment |
| Tokens.SplitWithout | app/io/exercise/api/utils/ServiceUtils.java:34 | a string without the separator is one segment |
| Tokens.DropTrailingEmpty | app/io/exercise/api/utils/ServiceUtils.java:34 | a prefix whose last segment is non-empty; only empty segments are dropped |
| Tokens.JavaSplit | app/io/exercise/api/utils/ServiceUtils.java:34 | `split("\\.")`: the string itself when it has no '.', otherwise a prefix of the '.'-segments whose last element is non-empty and beyond which only empty segments lie, so exactly the segments with trailing empty ones dropped |
| Tokens.TrailingDotDropped | app/io/exercise/api/utils/ServiceUtils.java:34 | "a." has the segments "a" and "", and `split` keeps only "a" |
| Tokens.ThreeSegments | app/io/exercise/api/utils/ServiceUtils.java:34 | a header.payload.signature token splits into exactly its three parts |
| Tokens.Unpadded | app/io/exercise/api/utils/ServiceUtils.java:34 | strips at most two trailing '=' characters |
| Tokens.IsBasicBase64 | app/io/exercise/api/utils/ServiceUtils.java:34 | a segment the basic decoder accepts holds only alphabet characters and '=', and its length is never 1 more than a multiple of 4 |
| Tokens.UrlSafeRefused | app/io/exercise/api/utils/ServiceUtils.java:34 | the basic decoder refuses any segment containing '-' or '_' |
| Tokens.WholeUnitsAccepted | app/io/exercise/api/utils/ServiceUtils.java:34 | whole 4-character units of the alphabet are accepted |
| Tokens.ExtractIdFrom | app/io/exercise/api/utils/ServiceUtils.java:32-38 | null token, a missing second segment, refused Base64 and a missing issuer each fail unhandled; once the second segment passes the decoder, success iff the payload names an issuer, and then that issuer |
| Tokens.ExtractReadsOnlyPayload | app/io/exercise/api/utils/ServiceUtils.java:32-38 | the extracted id does not depend on the header or the signature |
| Tokens.UrlSafePayloadRefused | app/io/exercise/api/utils/ServiceUtils.java:32-38 | a payload in URL-safe Base64 ('-' or '_') fails |
| Tokens.GetUserFrom | app/io/exercise/api/utils/ServiceUtils.java:40-52 | an invalid id fails unhandled; NOT_FOUND iff no user has it; success is the stored user with that id |
| Tokens.GetUserFromFindsOwner | app/io/exercise/api/utils/ServiceUtils.java:40-52 | a stored user's own id finds exactly that user |
| Tokens.VerifyTokenFor | app/io/exercise/api/utils/ServiceUtils.java:54-72 | success iff the verifier accepts the token with the user's id as issuer, and then it is that user; otherwise an unhandled signature failure |
| Tokens.Authenticated | app/io/exercise/api/actions/AuthenticatedAction.java:27-51 | a user is admitted only when the token names a stored user as issuer and the verifier accepts it; an extraction failure and a `getUserFrom` failure are passed on as they are; once the user is found, the token is admitted as that user iff the verifier accepts it, else it fails unhandled |
| Tokens.StoredVerifiedTokenAdmitted | app/io/exercise/api/actions/AuthenticatedAction.java:27-51 | a token whose issuer is a stored user, and which the verifier accepts for that user, admits exactly that user |
| Tokens.RefusedTokenIsNotBadRequest | app/io/exercise/api/actions/AuthenticatedAction.java:41-46 | no token is answered with BAD_REQUEST: a refused signature ends as an unhandled failure |
| Tokens.ForgedTokenAdmitsNobody | app/io/exercise/api/actions/AuthenticatedAction.java:27-51 | a token the verifier refuses for every stored user admits nobody |
| Authentication.WrapLong | app/io/exercise/api/services/AuthenticateService.java:72 | Java `long` arithmetic: in range, congruent modulo 2^64, and the identity on values already in range |
| Authentication.IssuedClaims | app/io/exercise/api/services/AuthenticateService.java:68-73 | issuer is the user's id; expiry is issue time plus 86,400,000 ms, or earlier than issue time when the `long` sum overflows |
| Authentication.Authenticate | app/io/exercise/api/services/AuthenticateService.java:49-88 | NOT_FOUND iff no user has the username as username or email; on the first match, UNAUTHORIZED iff the password check answers false and INTERNAL_SERVER_ERROR iff it throws; after a passed check, BAD_REQUEST iff signing fails; success is the token signed over that user's claims; FORBIDDEN never occurs |
| Authentication.LoginIssuesOneDayToken | app/io/exercise/api/services/AuthenticateService.java:38-73 | a successful login names a stored user matching the username whose password passed, and the token expires one day after issue |
| Authentication.EmailLogsIn | app/io/exercise/api/services/AuthenticateService.java:55-58 | the email logs in as well as the username does |
| Authentication.MissingUsernameMatchesUserWithoutEmail | app/io/exercise/api/services/AuthenticateService.java:55-58 | a request without a username matches a user without an email (null equality matches a missing field) |
| Authentication.IssuedTokenAuthenticates | app/io/exercise/api/services/AuthenticateService.java:68-73 | a token login issues lets its holder through the authenticated action as the same stored user, given a signer and verifier that agree |

## Left out

- Asynchrony: every service runs inside `CompletableFuture.supplyAsync`. The model runs each call to completion, in order, with no interleaving between calls.
- Hierarchy.RecursiveHierarchy, Hierarchy.HierarchyFromRoot, DashboardService.ListHierarchy, DashboardService.ListHierarchy2: `recursiveHierarchy` (DashboardService.java:287-297) runs each level in a `CompletableFuture.supplyAsync` that is never joined. So `hierarchy` and `hierarchy2` can return, and serialise, roots whose `children` lists are still empty or only partly filled, while pool threads go on appending to those plain ArrayLists. The model finishes the whole recursion, sequentially, before the listing returns. Its exact-children results describe the lists once every task has finished; the race and the partial lists are not modelled.
- UserService.Save: Hash.createPassword is a parameter that receives the password, null included. Its `None` result stands for a hash that throws, which the catch-all handler turns into INTERNAL_SERVER_ERROR. A hash that returns null is not modelled: Hash is not part of this model.
- MongoDB's own failures (`MongoException`, lost connections) are not modelled. The duplicate `_id` on insert, and the altered `_id` on a user replace, are the only driver errors modelled, as INTERNAL_SERVER_ERROR.
- Hash.createPassword, Hash.checkPassword, JWT signing and verification, and the system clock are function parameters. JSON parsing of the token payload and decoding of its Base64 bytes are one parameter as well, `issuerOf`. Its contract only requires the segment to pass the basic Base64 alphabet-and-padding check.
- Server configuration is not modelled: the secret key, `Algorithm.HMAC256` and its UnsupportedEncodingException. Signing failures are the signer returning nothing.
- getTokenFrom: reading the "token" header becomes the `Option` token parameter of `Tokens.Authenticated`.
- BaseModel is not part of this model. Id generation and `createdAt`/`updatedAt` timestamps are left out: ids come with the objects. The value under a dashboard's "id" document key is the record field `idKey`.
- Dashboard.clone shares the `children` and `items` lists with the original. The model gives the root clone a fresh list, and so does not model that aliasing.
- `recursiveHierarchy` and `buildHierarchyTree` recurse without bound on a cycle of `parentId`s. The `Hierarchy` builders, which work on any list, take a ranking of ids that decreases from parent to child as a precondition. The listings need no such assumption: `Dashboards.GraphLookupRanked` derives the ranking of each family from the search rounds. They require only unique ids and that no stored document with a root's id has a parent. Otherwise the recursion reaches the root's id again and the source does not terminate. For `hierarchy` this follows from unique ids (`DashboardService.RootsAreTopmost`); for `hierarchy2`, whose roots come from "dashboardsSmall", it is a precondition.
- The hierarchy listings, and DashboardService.CascadeIds, DashboardService.Delete and DashboardService.CascadeOrphansGrandchild, read `children` from the `graphLookup` stage, which the model assumes fills them, although the field is marked `@BsonIgnore` (Dashboard.java:38-40). The delete cascade is built from `dashboards.get(0).getChildren()` (DashboardService.java:425-430). Were the field not decoded, the program would delete only the target, its direct children and the target's content, and the model does not capture that outcome.
- Dashboard.parentId of null throws a NullPointerException inside `recursiveHierarchy` when a scanned dashboard has no parent. The model requires every scanned dashboard to have a parent: `graphLookup` only returns those.
- Negative `skip` or `limit` are not modelled (they are `nat`). Neither is the controllers' order of passing them.
- The order of violations in a report follows declaration order. Hibernate returns them as a Set, whose iteration order is unspecified.
- `Strings.capitalize` is modelled on ASCII letters only. Unicode case mapping and the platform charset of `new String(bytes)` are not modelled.
- `graphLookup`'s result order is modelled as collection order. MongoDB does not promise an order.
- DashboardContentType is not part of this model. Its constants are read from the variants' `getType` overrides and Content.java:39.
- LineContent's CategoryValueData points are kept as opaque values: their fields are not part of this model.
- Controllers, ValidationAction, ChatRoomService, the actors and MongoDriver are outside the core and not modelled.
- AuthenticateService wraps its own CompletionException a second time (`new CompletionException(ex)`). The model keeps only the status the innermost RequestException carries.
- UserService.Update and UserService.Delete do not model a payload with a null `_id`. Ids are always present in the model.
- `User.email` is not a declared field of User.java. The model keeps it on the stored document, because the login lookup filters on it, and drops it when a user is saved (`UserService.AsStored`).
- Authentication.Authenticate: a null password in the request is passed to the password check as `None`. The check answers `Some(true)`, `Some(false)` or `None` for a throw, which the catch-all handler turns into INTERNAL_SERVER_ERROR. Other throws inside the handler's scope (a missing `play.http.secret.key`, a failing `HMAC256`) are not modelled; signing failures are all taken to be `JWTCreationException`.

=== FILE: acl.dfy ===
/**
 * The access-list primitives of ServiceUtils: list intersection and the
 * read filter that the services push into every listing query.
 */
module Acl {

  /** `containElementsInCommon(a, b)`: some entry of `a` occurs in `b`. */
  function ContainElementsInCommon(a: seq<string>, b: seq<string>): (r: bool)
    ensures r <==> exists x :: x in a && x in b
  {
    if a == [] then false else a[0] in b || ContainElementsInCommon(a[1..], b)
  }

  /** Intersection does not depend on which list is streamed and which is hashed. */
  lemma CommonSymmetric(a: seq<string>, b: seq<string>)
    ensures ContainElementsInCommon(a, b) == ContainElementsInCommon(b, a)
  {
  }

  /** Nothing is in common with an empty list. */
  lemma CommonWithEmpty(a: seq<string>)
    ensures !ContainElementsInCommon(a, []) && !ContainElementsInCommon([], a)
  {
  }

  /**
   * `getReadAccessFilterFor(ids)` read as a predicate on one record:
   * `readACL` meets `ids`, or `writeACL` meets `ids`, or both lists are
   * empty (a public record).
   */
  predicate ReadMatch(ids: seq<string>, readACL: seq<string>, writeACL: seq<string>)
    ensures readACL == [] && writeACL == [] ==> ReadMatch(ids, readACL, writeACL)
    ensures ids == [] ==> (ReadMatch(ids, readACL, writeACL) <==> readACL == [] && writeACL == [])
  {
    || ContainElementsInCommon(readACL, ids)
    || ContainElementsInCommon(writeACL, ids)
    || (readACL == [] && writeACL == [])
  }

  /** An access list after an update: the incoming entries, then the stored ones. */
  function Appended(incoming: seq<string>, stored: seq<string>): (r: seq<string>)
    ensures forall x :: x in r <==> x in incoming || x in stored
    ensures |r| == |incoming| + |stored|
    ensures r[..|incoming|] == incoming && r[|incoming|..] == stored
  {
    var r := incoming + stored;
    assert r[..|incoming|] == incoming && r[|incoming|..] == stored;
    r
  }

  /** Which records the read filter lets through, stated with plain membership. */
  lemma ReadMatchMeaning(ids: seq<string>, readACL: seq<string>, writeACL: seq<string>)
    ensures ReadMatch(ids, readACL, writeACL) <==>
      || (exists x :: x in readACL && x in ids)
      || (exists x :: x in writeACL && x in ids)
      || (readACL == [] && writeACL == [])
  {
  }

  /** Enlarging the id list never hides a record the filter let through before. */
  lemma ReadMatchMonotone(ids: seq<string>, more: seq<string>, readACL: seq<string>, writeACL: seq<string>)
    requires forall x :: x in ids ==> x in more
    requires ReadMatch(ids, readACL, writeACL)
    ensures ReadMatch(more, readACL, writeACL)
  {
  }
}

=== FILE: authenticate.dfy ===
/**
 * AuthenticateService: login by username or email, the password check,
 * and the claims of the issued token.  The password check
 * (`Hash.checkPassword`), the signer (`JWT.create()...sign`) and the clock
 * (`System.currentTimeMillis`) are parameters.
 */
module Authentication {
  import opened Common
  import opened Query
  import opened Users
  import opened Requests
  import opened Tokens

  /** `1000L * 60 * 60 * 24`. */
  const ONE_DAY_IN_MILLIS: int := 1000 * 60 * 60 * 24

  const LONG_MIN: int := -0x8000_0000_0000_0000
  const LONG_MAX: int := 0x7fff_ffff_ffff_ffff

  /** A value of Java's `long`. */
  predicate IsLong(x: int)
  {
    LONG_MIN <= x <= LONG_MAX
  }

  /** Java `long` arithmetic: the result reduced modulo 2^64 into the `long` range. */
  function WrapLong(x: int): (r: int)
    ensures IsLong(r)
    ensures (x - r) % 0x1_0000_0000_0000_0000 == 0
    ensures IsLong(x) ==> r == x
  {
    (x - LONG_MIN) % 0x1_0000_0000_0000_0000 + LONG_MIN
  }

  /** The claims a token carries: the issuer and the expiry instant in milliseconds. */
  datatype Claims = Claims(issuer: string, expiresAt: int)

  /** `or(eq("username", name), eq("email", name))`; a null name matches a missing field. */
  function LoginFilter(name: Option<string>): User -> bool
  {
    (u: User) => u.username == name || u.email == name
  }

  /** The claims issued to `user` at instant `now`. */
  function IssuedClaims(user: User, now: int): (c: Claims)
    requires IsLong(now)
    ensures c.issuer == user.id && IsLong(c.expiresAt)
    ensures now <= LONG_MAX - ONE_DAY_IN_MILLIS ==> c.expiresAt == now + 86400000
    ensures now > LONG_MAX - ONE_DAY_IN_MILLIS ==> c.expiresAt < now
  {
    Claims(user.id, WrapLong(now + ONE_DAY_IN_MILLIS))
  }

  /**
   * `authenticate(request)`: the first stored user whose username or
   * email is the request's username, NOT_FOUND when there is none; then
   * UNAUTHORIZED when the password check answers false, and
   * INTERNAL_SERVER_ERROR (the catch-all handler) when it throws, which the
   * parameter answers with `None`; then the token signed over its claims,
   * BAD_REQUEST when signing fails.
   */
  function Authenticate(users: seq<User>, request: AuthUserRequest, now: int,
                        checkPassword: (Option<string>, Option<string>) -> Option<bool>,
                        sign: Claims -> Option<string>): (r: Result<string>)
    requires IsLong(now)
    ensures r == Failure(NotFound) <==> forall u :: u in users ==> !LoginFilter(request.username)(u)
    ensures r.Failure? ==> r.status in {NotFound, Unauthorized, InternalServerError, BadRequest}
    ensures var found := First(users, LoginFilter(request.username));
      && (found.Some? ==> (r == Failure(InternalServerError) <==> checkPassword(request.password, found.value.password).None?))
      && (found.Some? ==> (r == Failure(Unauthorized) <==> checkPassword(request.password, found.value.password) == Some(false)))
      && (found.Some? && checkPassword(request.password, found.value.password) == Some(true) ==>
            (r == Failure(BadRequest) <==> sign(IssuedClaims(found.value, now)).None?))
      && (r.Success? ==> found.Some? && checkPassword(request.password, found.value.password) == Some(true)
                         && sign(IssuedClaims(found.value, now)) == Some(r.value))
  {
    match First(users, LoginFilter(request.username))
    case None => Failure(NotFound)
    case Some(user) =>
      match checkPassword(request.password, user.password)
      case None => Failure(InternalServerError)
      case Some(false) => Failure(Unauthorized)
      case Some(true) =>
        match sign(IssuedClaims(user, now))
        case None => Failure(BadRequest)
        case Some(token) => Success(token)
  }

  /**
   * A successful login names a stored user whose username or email is the
   * request's username and whose password passed the check, and its
   * token expires one day (86,400,000 ms) after issue unless the `long`
   * addition overflows.
   */
  lemma LoginIssuesOneDayToken(users: seq<User>, request: AuthUserRequest, now: int,
                               checkPassword: (Option<string>, Option<string>) -> Option<bool>,
                               sign: Claims -> Option<string>)
    requires IsLong(now) && now <= LONG_MAX - ONE_DAY_IN_MILLIS
    requires Authenticate(users, request, now, checkPassword, sign).Success?
    ensures ONE_DAY_IN_MILLIS == 86400000
    ensures exists u ::
      && u in users
      && (u.username == request.username || u.email == request.username)
      && checkPassword(request.password, u.password) == Some(true)
      && sign(Claims(u.id, now + 86400000)) == Some(Authenticate(users, request, now, checkPassword, sign).value)
  {
    var u := First(users, LoginFilter(request.username)).value;
    assert LoginFilter(request.username)(u);
    assert IssuedClaims(u, now) == Claims(u.id, now + 86400000);
  }

  /** The email key logs in as well as the username does. */
  lemma EmailLogsIn(u: User, request: AuthUserRequest, now: int,
                    checkPassword: (Option<string>, Option<string>) -> Option<bool>,
                    sign: Claims -> Option<string>)
    requires IsLong(now) && u.email == request.username && u.username != request.username
    ensures Authenticate([u], request, now, checkPassword, sign) != Failure(NotFound)
  {
    assert LoginFilter(request.username)(u);
  }

  /**
   * A request without a username matches a stored user without an email,
   * since `eq` with null also matches a missing field.
   */
  lemma MissingUsernameMatchesUserWithoutEmail(u: User, request: AuthUserRequest, now: int,
                                               checkPassword: (Option<string>, Option<string>) -> Option<bool>,
                                               sign: Claims -> Option<string>)
    requires IsLong(now) && request.username.None? && u.email.None?
    ensures Authenticate([u], request, now, checkPassword, sign) != Failure(NotFound)
  {
    assert LoginFilter(request.username)(u);
  }

  /**
   * A token `authenticate` issues lets its holder through the
   * authenticated action, as the same stored user, provided the signer
   * writes the issuer into a payload segment the basic decoder reads and
   * the verifier accepts what the signer signed.
   */
  lemma IssuedTokenAuthenticates(users: seq<User>, request: AuthUserRequest, now: int,
                                 checkPassword: (Option<string>, Option<string>) -> Option<bool>,
                                 sign: Claims -> Option<string>,
                                 issuerOf: string -> Option<string>, verify: (string, string) -> bool)
    requires IsLong(now) && UniqueBy(users, UserKey)
    requires forall u :: u in users ==> IsCanonicalId(u.id)
    requires forall c, t :: sign(c) == Some(t) ==>
      && |JavaSplit(t)| >= 2
      && IsBasicBase64(JavaSplit(t)[1])
      && issuerOf(JavaSplit(t)[1]) == Some(c.issuer)
      && verify(c.issuer, t)
    requires Authenticate(users, request, now, checkPassword, sign).Success?
    ensures var token := Authenticate(users, request, now, checkPassword, sign).value;
      Authenticated(Some(token), users, issuerOf, verify) == Ok(First(users, LoginFilter(request.username)).value)
  {
    var token := Authenticate(users, request, now, checkPassword, sign).value;
    var u := First(users, LoginFilter(request.username)).value;
    var c := IssuedClaims(u, now);
    assert sign(c) == Some(token);
    var parts := JavaSplit(token);
    assert |parts| >= 2 && IsBasicBase64(parts[1]) && issuerOf(parts[1]) == Some(u.id) && verify(u.id, token);
    assert ExtractIdFrom(Some(token), issuerOf) == Ok(u.id);
    GetUserFromFindsOwner(users, u);
    assert VerifyTokenFor(u, token, verify) == Ok(u);
  }
}

=== FILE: common.dfy ===
/**
 * Vocabulary shared by every part of the model: optional (nullable) values,
 * the HTTP statuses with which the services fail, service results, and the
 * textual form of MongoDB ObjectIds.
 */
module Common {

  /** A Java reference that may be null. */
  datatype Option<+T> = None | Some(value: T)

  /** The statuses the services put into their RequestExceptions. */
  datatype Status = BadRequest | Unauthorized | Forbidden | NotFound | InternalServerError

  /** The outcome of a service call: its value, or the status of the first failure. */
  datatype Result<+T> = Success(value: T) | Failure(status: Status)

  /**
   * An ObjectId, written as the 24 lower-case hexadecimal digits that
   * `ObjectId.toString()` yields.  Ids are otherwise opaque.
   */
  type Id = string

  predicate IsHexDigit(c: char) {
    ('0' <= c <= '9') || ('a' <= c <= 'f') || ('A' <= c <= 'F')
  }

  predicate IsLowerHexDigit(c: char) {
    ('0' <= c <= '9') || ('a' <= c <= 'f')
  }

  /** `ObjectId.isValid`: exactly 24 hexadecimal digits, either case. */
  predicate IsValidObjectId(s: string) {
    |s| == 24 && forall i :: 0 <= i < |s| ==> IsHexDigit(s[i])
  }

  /** The text `toString` gives back for an ObjectId. */
  predicate IsCanonicalId(s: string) {
    |s| == 24 && forall i :: 0 <= i < |s| ==> IsLowerHexDigit(s[i])
  }

  function LowerHexDigit(c: char): (r: char)
    requires IsHexDigit(c)
    ensures IsLowerHexDigit(r)
    ensures IsLowerHexDigit(c) ==> r == c
    ensures 'A' <= c <= 'F' ==> r as int == c as int + 32
  {
    if 'A' <= c <= 'F' then (c as int - 'A' as int + 'a' as int) as char else c
  }

  /**
   * `new ObjectId(s)` read back through `toString`: the lower-cased digits
   * when `s` is valid; `None` where the constructor throws
   * IllegalArgumentException.
   */
  function ParseObjectId(s: string): (r: Option<Id>)
    ensures r.Some? <==> IsValidObjectId(s)
    ensures r.Some? ==> IsCanonicalId(r.value)
    ensures r.Some? ==> forall i :: 0 <= i < |s| ==> IsLowerHexDigit(s[i]) ==> r.value[i] == s[i]
    ensures r.Some? ==> forall i :: 0 <= i < |s| ==> 'A' <= s[i] <= 'F' ==> r.value[i] as int == s[i] as int + 32
  {
    if IsValidObjectId(s) then Some(seq(|s|, i requires 0 <= i < |s| => LowerHexDigit(s[i]))) else None
  }

  /** Parsing the text of an ObjectId gives that same ObjectId back. */
  lemma CanonicalIdRoundTrip(id: Id)
    requires IsCanonicalId(id)
    ensures ParseObjectId(id) == Some(id)
  {
    var r := ParseObjectId(id);
    assert r.Some?;
    assert r.value == id;
  }
}

=== FILE: content_service.dfy ===
/**
 * DashboardContentService: listing the content of one dashboard, and
 * saving, updating and deleting content items.  The dashboard is named by
 * the text of an ObjectId in the request path; text that is not an
 * ObjectId makes `new ObjectId(id)` throw, which every operation reports
 * as INTERNAL_SERVER_ERROR.
 */
module ContentService {
  import opened Common
  import opened Query
  import opened Acl
  import opened Users
  import opened Contents
  import opened Dashboards
  import opened Store

  /** `and(eq("dashboardId", parent), getReadAccessFilterFor(user.getAccessIds()))`. */
  function Listable(user: User, parent: Id): Content -> bool
  {
    (c: Content) => c.dashboardId == Some(parent) && ReadMatch(AccessIds(user), c.readACL, c.writeACL)
  }

  /** `hasReadWriteAccessFor` as a filter on content items. */
  function WritableBy(user: User): Content -> bool
  {
    (c: Content) => HasReadWriteAccessFor(user, c.readACL, c.writeACL)
  }

  /**
   * `all(skip, limit, user, id)`: the readable items attached to dashboard
   * `id`, in collection order, `skip` then `limit` (0 for no limit).
   */
  function All(contents: seq<Content>, skip: nat, limit: nat, user: User, id: string): (r: Result<seq<Content>>)
    ensures r.Failure? <==> !IsValidObjectId(id)
    ensures r.Failure? ==> r.status == InternalServerError
    ensures r.Success? ==> r.value == Page(Select(contents, Listable(user, ParseObjectId(id).value)), skip, limit)
  {
    match ParseObjectId(id)
    case None => Failure(InternalServerError)
    case Some(parent) => Success(Page(Select(contents, Listable(user, parent)), skip, limit))
  }

  /**
   * Everything `all` lists is stored, hangs from the dashboard named in
   * the path (whatever case its hexadecimal digits were written in), and
   * may be read by the user; a limit bounds the page.
   */
  lemma AllListsReadableChildren(contents: seq<Content>, skip: nat, limit: nat, user: User, id: string)
    requires IsValidObjectId(id)
    ensures var r := All(contents, skip, limit, user, id).value;
      && (forall c :: c in r ==>
            && c in contents
            && c.dashboardId == ParseObjectId(id)
            && CanRead(user, c.readACL, c.writeACL))
      && (limit > 0 ==> |r| <= limit)
  {
    var parent := ParseObjectId(id).value;
    var found := Select(contents, Listable(user, parent));
    var r := All(contents, skip, limit, user, id).value;
    forall c | c in r
      ensures c in contents && c.dashboardId == ParseObjectId(id) && CanRead(user, c.readACL, c.writeACL)
    {
      var k :| 0 <= k < |r| && r[k] == c;
      assert found[skip + k] in found;
      ReadFilterIsPerRecordRule(user, c.readACL, c.writeACL);
    }
    if limit > 0 {
      PageBound(found, skip, limit);
    }
  }

  /** `eq("id", parent)` on "dashboards": the dashboard whose "id" key holds `parent`. */
  function IdKeyIs(parent: Id): Dashboard -> bool
  {
    (d: Dashboard) => d.idKey == Some(parent)
  }

  /**
   * The item `save` inserts: attached to `parent`, with the saving user
   * appended to both access lists.  Nothing else of the item changes.
   */
  function Attached(c: Content, parent: Id, user: User): (r: Content)
    ensures r.(dashboardId := c.dashboardId, readACL := c.readACL, writeACL := c.writeACL) == c
    ensures r.dashboardId == Some(parent)
    ensures |r.readACL| == |c.readACL| + 1 && r.readACL[..|c.readACL|] == c.readACL && r.readACL[|c.readACL|] == user.id
    ensures |r.writeACL| == |c.writeACL| + 1 && r.writeACL[..|c.writeACL|] == c.writeACL && r.writeACL[|c.writeACL|] == user.id
  {
    var r := c.(dashboardId := Some(parent), readACL := c.readACL + [user.id], writeACL := c.writeACL + [user.id]);
    assert r.readACL[..|c.readACL|] == c.readACL && r.writeACL[..|c.writeACL|] == c.writeACL;
    r
  }

  /** The creator of an item may write it, and the listing of its dashboard shows it to them. */
  lemma CreatorOwnsAttached(c: Content, parent: Id, user: User)
    ensures HasReadWriteAccessFor(user, Attached(c, parent, user).readACL, Attached(c, parent, user).writeACL)
    ensures Listable(user, parent)(Stored(Attached(c, parent, user)))
  {
    var a := Attached(c, parent, user);
    assert user.id in a.writeACL;
    assert a.writeACL != [];
    WriteImpliesRead(user, a.readACL, a.writeACL);
  }

  /**
   * What a load of a stored item gives back: the object as it was, but
   * with the unstored `type` field at its default.
   */
  function Stored(c: Content): (r: Content)
    ensures Some(r) == FromBson(ToBson(c))
    ensures !c.variant.Base? ==> GetType(r) == GetType(c)
  {
    BsonRoundTrip(c);
    c.(typeField := DefaultType)
  }

  /**
   * `save(user, content, id)`: INTERNAL_SERVER_ERROR when `id` is not an
   * ObjectId, when no dashboard's "id" key holds it (the BAD_REQUEST
   * thrown for that case is caught by the generic handler), and when the
   * item's `_id` is already stored; otherwise the attached item is
   * inserted and returned.  A failure writes nothing.
   */
  method Save(db: Database, user: User, c: Content, id: string) returns (r: Result<Content>)
    requires db.Valid()
    modifies db
    ensures db.Valid()
    ensures r.Failure? <==>
      || !IsValidObjectId(id)
      || First(old(db.dashboards), IdKeyIs(ParseObjectId(id).value)).None?
      || HasKey(old(db.contents), ContentKey, c.id)
    ensures r.Failure? ==> r.status == InternalServerError && db.contents == old(db.contents)
    ensures r.Success? ==>
      && r.value == Attached(c, ParseObjectId(id).value, user)
      && db.contents == old(db.contents) + [Stored(r.value)]
    ensures db.dashboards == old(db.dashboards) && db.dashboardsSmall == old(db.dashboardsSmall) && db.users == old(db.users)
  {
    var parsed := ParseObjectId(id);
    if parsed.None? {
      return Failure(InternalServerError);
    }
    var parent := parsed.value;
    if First(db.dashboards, IdKeyIs(parent)).None? {
      return Failure(InternalServerError);
    }
    var saved := Attached(c, parent, user);
    FindByKey(db.contents, ContentKey, c.id);
    if First(db.contents, KeyIs(ContentKey, c.id)).Some? {
      return Failure(InternalServerError);
    }
    UniqueAppend(db.contents, ContentKey, Stored(saved));
    db.contents := db.contents + [Stored(saved)];
    return Success(saved);
  }

  /** What `update` writes: the incoming item, attached to `parent`, with the stored access entries appended to its own. */
  function Merged(c: Content, parent: Id, stored: Content): (r: Content)
    ensures r.(dashboardId := c.dashboardId, readACL := c.readACL, writeACL := c.writeACL) == c
    ensures r.dashboardId == Some(parent)
    ensures forall x :: x in r.readACL <==> x in c.readACL || x in stored.readACL
    ensures forall x :: x in r.writeACL <==> x in c.writeACL || x in stored.writeACL
    ensures |r.readACL| == |c.readACL| + |stored.readACL| && |r.writeACL| == |c.writeACL| + |stored.writeACL|
    ensures r.readACL[..|c.readACL|] == c.readACL && r.writeACL[..|c.writeACL|] == c.writeACL
  {
    c.(dashboardId := Some(parent), readACL := Appended(c.readACL, stored.readACL), writeACL := Appended(c.writeACL, stored.writeACL))
  }

  /** An updater of an item that is not public keeps write access to it. */
  lemma UpdateKeepsWriter(user: User, c: Content, parent: Id, stored: Content)
    requires !(stored.readACL == [] && stored.writeACL == [])
    requires HasReadWriteAccessFor(user, stored.readACL, stored.writeACL)
    ensures HasReadWriteAccessFor(user, Merged(c, parent, stored).readACL, Merged(c, parent, stored).writeACL)
  {
    var m := Merged(c, parent, stored);
    WriteAccessSurvivesGrowth(user, stored.readACL, stored.writeACL, m.readACL, m.writeACL);
  }

  /**
   * `update(user, content, id)`: INTERNAL_SERVER_ERROR when `id` is not an
   * ObjectId; BAD_REQUEST when no dashboard's "id" key holds it; then
   * NOT_FOUND or FORBIDDEN as the stored item with the incoming `_id`
   * dictates; otherwise the merged item replaces the stored one in place.
   * The item may move to another dashboard.  A failure writes nothing.
   */
  method Update(db: Database, user: User, c: Content, id: string) returns (r: Result<Content>)
    requires db.Valid()
    modifies db
    ensures db.Valid()
    ensures !IsValidObjectId(id) ==> r == Failure(InternalServerError)
    ensures IsValidObjectId(id) && First(old(db.dashboards), IdKeyIs(ParseObjectId(id).value)).None? ==> r == Failure(BadRequest)
    ensures IsValidObjectId(id) && First(old(db.dashboards), IdKeyIs(ParseObjectId(id).value)).Some? ==>
      var check := FindWritable(old(db.contents), ContentKey, c.id, WritableBy(user));
      && (check.Failure? ==> r == Failure(check.status))
      && (check.Success? ==>
            && r == Success(Merged(c, ParseObjectId(id).value, check.value))
            && db.contents == ReplaceFirst(old(db.contents), KeyIs(ContentKey, c.id), Stored(r.value)))
    ensures r.Failure? ==> db.contents == old(db.contents)
    ensures db.dashboards == old(db.dashboards) && db.dashboardsSmall == old(db.dashboardsSmall) && db.users == old(db.users)
  {
    var parsed := ParseObjectId(id);
    if parsed.None? {
      return Failure(InternalServerError);
    }
    var parent := parsed.value;
    if First(db.dashboards, IdKeyIs(parent)).None? {
      return Failure(BadRequest);
    }
    var check := FindWritable(db.contents, ContentKey, c.id, WritableBy(user));
    if check.Failure? {
      return Failure(check.status);
    }
    var updated := Merged(c, parent, check.value);
    ReplaceByKey(db.contents, ContentKey, Stored(updated));
    db.contents := ReplaceFirst(db.contents, KeyIs(ContentKey, c.id), Stored(updated));
    return Success(updated);
  }

  /**
   * `delete(user, content)`: NOT_FOUND or FORBIDDEN as the stored item
   * with the incoming `_id` dictates; otherwise that item alone goes and
   * the incoming object is returned.  No dashboard is consulted.
   */
  method Delete(db: Database, user: User, c: Content) returns (r: Result<Content>)
    requires db.Valid()
    modifies db
    ensures db.Valid()
    ensures var check := FindWritable(old(db.contents), ContentKey, c.id, WritableBy(user));
      && (check.Failure? ==> r == Failure(check.status) && db.contents == old(db.contents))
      && (check.Success? ==>
            && r == Success(c)
            && db.contents == RemoveFirst(old(db.contents), KeyIs(ContentKey, c.id))
            && db.contents == Select(old(db.contents), KeyIsNot(ContentKey, c.id)))
    ensures db.dashboards == old(db.dashboards) && db.dashboardsSmall == old(db.dashboardsSmall) && db.users == old(db.users)
  {
    var check := FindWritable(db.contents, ContentKey, c.id, WritableBy(user));
    if check.Failure? {
      return Failure(check.status);
    }
    RemoveByKey(db.contents, ContentKey, c.id);
    UniqueSelect(db.contents, ContentKey, KeyIsNot(ContentKey, c.id));
    db.contents := RemoveFirst(db.contents, KeyIs(ContentKey, c.id));
    return Success(c);
  }

  /**
   * After a delete, no item with that `_id` is left and every other item
   * is still there: the delete removes exactly its target.
   */
  lemma DeleteRemovesExactlyTarget(contents: seq<Content>, id: Id)
    requires UniqueBy(contents, ContentKey)
    ensures var after := RemoveFirst(contents, KeyIs(ContentKey, id));
      && !HasKey(after, ContentKey, id)
      && forall x :: x in contents && x.id != id <==> x in after
  {
    RemoveByKey(contents, ContentKey, id);
  }
}

=== FILE: contents.dfy ===
/**
 * Dashboard content: a base record with four variants (EMAIL, IMAGE, LINE,
 * TEXT), the `type` tag the JSON mapping reads and writes, the discriminator
 * the BSON mapping stores, and the constraints on each variant.
 */
module Contents {
  import opened Common
  import opened Validation

  /** `DashboardContentType`. */
  datatype ContentType = NONE | EMAIL | IMAGE | LINE | TEXT

  /** The enum constant's name. */
  function TypeName(t: ContentType): (r: string)
    ensures |r| == 4 || |r| == 5
  {
    match t
    case NONE => "NONE"
    case EMAIL => "EMAIL"
    case IMAGE => "IMAGE"
    case LINE => "LINE"
    case TEXT => "TEXT"
  }

  /** Distinct constants have distinct names. */
  lemma TypeNameInjective(a: ContentType, b: ContentType)
    ensures TypeName(a) == TypeName(b) <==> a == b
  {
  }

  /** One point of a line chart, kept as its JSON text: its fields are not part of this model. */
  datatype CategoryValueData = CategoryValueData(json: string)

  /** Which class an object is, with the fields that class adds. */
  datatype Variant =
    | Base
    | Email(text: Option<string>, subject: Option<string>, email: Option<string>)
    | Image(url: Option<string>)
    | Line(data: Option<seq<CategoryValueData>>)
    | Text(text: Option<string>)

  /**
   * A content object.  `typeField` is the inherited `type` field, which
   * is never stored and which only the base class reports.
   */
  datatype Content = Content(
    id: Id,
    readACL: seq<string>,
    writeACL: seq<string>,
    dashboardId: Option<Id>,
    typeField: ContentType,
    variant: Variant)

  /** The `_id` of a content object, the key of its collection. */
  function ContentKey(c: Content): string
  {
    c.id
  }

  /** The initial value of the `type` field. */
  const DefaultType: ContentType := NONE

  /** `getType()`: the field for the base class; each variant overrides it with its own constant. */
  function GetType(c: Content): (r: ContentType)
    ensures c.variant.Base? ==> r == c.typeField
    ensures !c.variant.Base? ==> r != NONE
  {
    match c.variant
    case Base => c.typeField
    case Email(_, _, _) => EMAIL
    case Image(_) => IMAGE
    case Line(_) => LINE
    case Text(_) => TEXT
  }

  /** A variant reports its own type whatever the inherited field holds. */
  lemma GetTypeIgnoresField(c: Content, t: ContentType)
    requires !c.variant.Base?
    ensures GetType(c.(typeField := t)) == GetType(c)
  {
  }

  /** `@BsonDiscriminator` value of each class. */
  function Discriminator(v: Variant): string
  {
    match v
    case Base => "NONE"
    case Email(_, _, _) => "EMAIL"
    case Image(_) => "IMAGE"
    case Line(_) => "LINE"
    case Text(_) => "TEXT"
  }

  /** Each variant stores the name of the type it reports; the base class stores that of the default. */
  lemma DiscriminatorIsTypeName(c: Content)
    ensures !c.variant.Base? ==> Discriminator(c.variant) == TypeName(GetType(c))
    ensures c.variant.Base? && c.typeField == DefaultType ==> Discriminator(c.variant) == TypeName(GetType(c))
  {
  }

  /** `@JsonSubTypes`: the tags that name a subclass. */
  function JsonSubtype(tag: string): (r: Option<ContentType>)
    ensures r.Some? <==> tag == "EMAIL" || tag == "IMAGE" || tag == "LINE" || tag == "TEXT"
    ensures r.Some? ==> r.value != NONE && TypeName(r.value) == tag
  {
    if tag == "EMAIL" then Some(EMAIL)
    else if tag == "IMAGE" then Some(IMAGE)
    else if tag == "LINE" then Some(LINE)
    else if tag == "TEXT" then Some(TEXT)
    else None
  }

  /** The name of every type but NONE selects that type's subclass, and no tag selects the base class. */
  lemma JsonSubtypeOfNames(t: ContentType)
    ensures JsonSubtype(TypeName(t)) == if t == NONE then None else Some(t)
  {
  }

  /**
   * A content object as a flat document: JSON body or stored BSON.  `tag`
   * is the JSON `type` property or the BSON discriminator; absent fields
   * are `None`.
   */
  datatype Document = Document(
    id: Id,
    readACL: seq<string>,
    writeACL: seq<string>,
    dashboardId: Option<Id>,
    tag: Option<string>,
    text: Option<string>,
    subject: Option<string>,
    email: Option<string>,
    url: Option<string>,
    data: Option<seq<CategoryValueData>>)

  /** The document holding `c`'s own fields, under the given tag. */
  function Flatten(c: Content, tag: Option<string>): Document
  {
    var d := Document(c.id, c.readACL, c.writeACL, c.dashboardId, tag, None, None, None, None, None);
    match c.variant
    case Base => d
    case Email(text, subject, email) => d.(text := text, subject := subject, email := email)
    case Image(url) => d.(url := url)
    case Line(data) => d.(data := data)
    case Text(text) => d.(text := text)
  }

  /** The variant of type `t` built from a document's fields. */
  function VariantOf(t: ContentType, d: Document): (r: Variant)
    ensures t == NONE <==> r.Base?
  {
    match t
    case NONE => Base
    case EMAIL => Email(d.text, d.subject, d.email)
    case IMAGE => Image(d.url)
    case LINE => Line(d.data)
    case TEXT => Text(d.text)
  }

  /** Serialisation to JSON: `type` is written from `getType()`. */
  function ToJson(c: Content): (r: Document)
    ensures r.tag == Some(TypeName(GetType(c)))
    ensures r.(tag := None) == ToBson(c).(tag := None)
  {
    Flatten(c, Some(TypeName(GetType(c))))
  }

  /**
   * Deserialisation from JSON: the `type` tag picks the subclass (a
   * missing or unknown tag fails) and, being visible, is also set on the
   * `type` field.
   */
  function FromJson(d: Document): (r: Option<Content>)
    ensures r.Some? <==> d.tag.Some? && JsonSubtype(d.tag.value).Some?
    ensures r.Some? ==> !r.value.variant.Base? && Some(GetType(r.value)) == JsonSubtype(d.tag.value)
    ensures r.Some? ==> r.value.typeField == GetType(r.value)
  {
    if d.tag.None? then None
    else match JsonSubtype(d.tag.value)
      case None => None
      case Some(t) => Some(Content(d.id, d.readACL, d.writeACL, d.dashboardId, t, VariantOf(t, d)))
  }

  /** Every variant survives a JSON round trip, its `type` field then agreeing with its class. */
  lemma JsonRoundTrip(c: Content)
    requires !c.variant.Base?
    ensures FromJson(ToJson(c)) == Some(c.(typeField := GetType(c)))
  {
  }

  /** A base-class object never comes back from JSON as itself. */
  lemma BaseNotJsonDecodable(c: Content)
    requires c.variant.Base?
    ensures FromJson(ToJson(c)) != Some(c)
  {
  }

  /** Storing: the class's discriminator is written under "type"; the `type` field is not. */
  function ToBson(c: Content): (r: Document)
    ensures r.tag == Some(Discriminator(c.variant))
    ensures r.id == c.id && r.readACL == c.readACL && r.writeACL == c.writeACL && r.dashboardId == c.dashboardId
  {
    Flatten(c, Some(Discriminator(c.variant)))
  }

  /**
   * Loading: the discriminator picks the class (none at all means the base
   * class; an unknown one fails); the `type` field keeps its default.
   */
  function FromBson(d: Document): (r: Option<Content>)
    ensures r.Some? ==> r.value.typeField == DefaultType
    ensures r.Some? <==> d.tag.None? || d.tag.value == "NONE" || JsonSubtype(d.tag.value).Some?
  {
    if d.tag.None? || d.tag.value == "NONE" then
      Some(Content(d.id, d.readACL, d.writeACL, d.dashboardId, DefaultType, Base))
    else match JsonSubtype(d.tag.value)
      case None => None
      case Some(t) => Some(Content(d.id, d.readACL, d.writeACL, d.dashboardId, DefaultType, VariantOf(t, d)))
  }

  /**
   * A stored object loads back as the same class with the same fields; only
   * the unstored `type` field returns to its default, so `getType()` is
   * unchanged for every variant.
   */
  lemma BsonRoundTrip(c: Content)
    ensures FromBson(ToBson(c)) == Some(c.(typeField := DefaultType))
    ensures !c.variant.Base? ==> GetType(FromBson(ToBson(c)).value) == GetType(c)
  {
  }

  /** The `@NotEmpty` constraints of each variant; the base class has none. */
  function ContentViolations(c: Content): seq<Violation>
  {
    match c.variant
    case Base => []
    case Email(text, subject, email) =>
      NotEmpty("text", text, "cannot be empty")
      + NotEmpty("subject", subject, "cannot be empty")
      + NotEmpty("email", email, "cannot be empty")
    case Image(url) => NotEmpty("url", url, "cannot be empty")
    case Line(data) => NotEmpty("data", data, "cannot be empty")
    case Text(text) => NotEmpty("text", text, "cannot be empty")
  }

  predicate Present(s: Option<string>)
  {
    s.Some? && s.value != []
  }

  /** A content object is valid exactly when every field its variant declares is present and non-empty. */
  lemma ContentValidity(c: Content)
    ensures ContentViolations(c) == [] <==>
      match c.variant
      case Base => true
      case Email(text, subject, email) => Present(text) && Present(subject) && Present(email)
      case Image(url) => Present(url)
      case Line(data) => data.Some? && data.value != []
      case Text(text) => Present(text)
  {
  }
}

=== FILE: dashboard_service.dfy ===
/**
 * DashboardService: the paged listing with content items, the two
 * hierarchy listings, and save, update and the cascading delete.
 */
module DashboardService {
  import opened Common
  import opened Query
  import opened Acl
  import opened Users
  import opened Contents
  import opened Dashboards
  import opened Hierarchy
  import opened Store

  /** `getReadAccessFilterFor(user.getAccessIds())` as a filter on dashboards. */
  function Readable(user: User): Dashboard -> bool
  {
    (d: Dashboard) => ReadMatch(AccessIds(user), d.readACL, d.writeACL)
  }

  /** `hasReadWriteAccessFor` as a filter on dashboards. */
  function WritableBy(user: User): Dashboard -> bool
  {
    (d: Dashboard) => HasReadWriteAccessFor(user, d.readACL, d.writeACL)
  }

  /** The `_id`s of a list of dashboards, in order. */
  function Ids(ds: seq<Dashboard>): (r: seq<Id>)
    ensures |r| == |ds| && forall k :: 0 <= k < |ds| ==> r[k] == ds[k].id
  {
    seq(|ds|, k requires 0 <= k < |ds| => ds[k].id)
  }

  /** A dashboard as a listing returns it, with the `items` the listing set on it. */
  datatype Listed = Listed(dashboard: Dashboard, items: Option<seq<Content>>)

  /**
   * `all(skip, limit, user)`: the readable dashboards in collection order,
   * `skip` then `limit`, each with its readable content items (`None`
   * when it has none).
   */
  function All(dashboards: seq<Dashboard>, contents: seq<Content>, skip: nat, limit: nat, user: User): (r: seq<Listed>)
    ensures |r| == |Page(Select(dashboards, Readable(user)), skip, limit)|
    ensures forall k :: 0 <= k < |r| ==>
      && skip + k < |Select(dashboards, Readable(user))|
      && r[k].dashboard == Select(dashboards, Readable(user))[skip + k]
      && r[k].items == ItemsFor(contents, AccessIds(user), r[k].dashboard.id)
  {
    var page := Page(Select(dashboards, Readable(user)), skip, limit);
    var ids := Ids(page);
    var found := ItemsQuery(contents, AccessIds(user), ids);
    assert forall k :: 0 <= k < |page| ==> Group(found, page[k].id) == ItemsFor(contents, AccessIds(user), page[k].id) by {
      forall k | 0 <= k < |page|
        ensures Group(found, page[k].id) == ItemsFor(contents, AccessIds(user), page[k].id)
      {
        assert ids[k] == page[k].id;
        GroupOfQuery(contents, AccessIds(user), ids, page[k].id);
      }
    }
    seq(|page|, k requires 0 <= k < |page| => Listed(page[k], Group(found, page[k].id)))
  }

  /** Everything `all` lists is stored and readable by the user, and so is every item attached to it. */
  lemma AllReadable(dashboards: seq<Dashboard>, contents: seq<Content>, skip: nat, limit: nat, user: User)
    ensures forall l :: l in All(dashboards, contents, skip, limit, user) ==>
      && l.dashboard in dashboards
      && CanRead(user, l.dashboard.readACL, l.dashboard.writeACL)
      && (l.items.Some? ==> forall c :: c in l.items.value ==> c in contents && CanRead(user, c.readACL, c.writeACL))
  {
    var r := All(dashboards, contents, skip, limit, user);
    var readable := Select(dashboards, Readable(user));
    forall l | l in r
      ensures l.dashboard in dashboards && CanRead(user, l.dashboard.readACL, l.dashboard.writeACL)
      ensures l.items.Some? ==> forall c :: c in l.items.value ==> c in contents && CanRead(user, c.readACL, c.writeACL)
    {
      var k :| 0 <= k < |r| && r[k] == l;
      assert readable[skip + k] in readable;
      ReadFilterIsPerRecordRule(user, l.dashboard.readACL, l.dashboard.writeACL);
      if l.items.Some? {
        forall c | c in l.items.value
          ensures c in contents && CanRead(user, c.readACL, c.writeACL)
        {
          ReadFilterIsPerRecordRule(user, c.readACL, c.writeACL);
        }
      }
    }
  }

  /** `eq("parentId", null)` as a filter. */
  function RootFilter(): Dashboard -> bool
  {
    (d: Dashboard) => IsRoot(d)
  }

  /**
   * The roots the hierarchy listings start from: the read filter, then
   * `skip` and `limit`, and only then `parentId == null`.
   */
  function PageRoots(store: seq<Dashboard>, skip: nat, limit: nat, user: User): (r: seq<Dashboard>)
    ensures forall d :: d in r ==> d in store && IsRoot(d) && ReadMatch(AccessIds(user), d.readACL, d.writeACL)
    ensures forall d :: d in Page(Select(store, Readable(user)), skip, limit) && IsRoot(d) ==> d in r
    ensures limit > 0 ==> |r| <= limit
  {
    var page := Page(Select(store, Readable(user)), skip, limit);
    assert forall d :: d in page ==> d in Select(store, Readable(user)) by {
      forall d | d in page ensures d in Select(store, Readable(user)) {
        var k :| 0 <= k < |page| && page[k] == d;
      }
    }
    Select(page, RootFilter())
  }

  /**
   * The roots come out in the order the page holds them: the `k`-th root
   * listed is the page's document at the `k`-th root position, and those
   * positions increase.
   */
  lemma PageRootsInPageOrder(store: seq<Dashboard>, skip: nat, limit: nat, user: User)
    ensures var page := Page(Select(store, Readable(user)), skip, limit);
      var at := Positions(page, RootFilter(), 0);
      && |at| == |PageRoots(store, skip, limit, user)|
      && forall k :: 0 <= k < |at| ==> at[k] < |page| && PageRoots(store, skip, limit, user)[k] == page[at[k]]
  {
    var page := Page(Select(store, Readable(user)), skip, limit);
    SelectPositions(page, RootFilter(), 0);
    assert page[0..] == page;
  }

  /**
   * Paging comes before the root filter: when the page window holds only
   * child dashboards, the listing is empty, however many readable roots
   * lie outside the window.
   */
  lemma PageOfChildrenHasNoRoots(store: seq<Dashboard>, skip: nat, limit: nat, user: User)
    requires forall d :: d in Page(Select(store, Readable(user)), skip, limit) ==> !IsRoot(d)
    ensures PageRoots(store, skip, limit, user) == []
  {
    SelectNone(Page(Select(store, Readable(user)), skip, limit), RootFilter());
  }

  /** `graphLookup` without `restrictSearchWithMatch`: every document may be taken. */
  predicate Unrestricted(d: Dashboard)
  {
    true
  }

  /** The objects of one hierarchy: what `graphLookup` hangs under `root`, in collection order, then the root's clone. */
  function Family(lookupIn: seq<Dashboard>, root: Dashboard): (r: seq<Dashboard>)
    ensures |r| >= 1 && r[|r| - 1] == root
    ensures forall d :: d in r[..|r| - 1] ==> d in lookupIn && d.parentId.Some?
  {
    var found := GraphLookup(lookupIn, root.id, Unrestricted);
    assert (found + [root])[..|found|] == found;
    found + [root]
  }

  /** Any stored dashboard whose parent is in a family belongs to it, whatever its access lists say. */
  lemma FamilyUnfiltered(lookupIn: seq<Dashboard>, root: Dashboard, x: Dashboard, y: Dashboard)
    requires x in lookupIn && y in Family(lookupIn, root) && x.parentId == Some(y.id)
    ensures x in Family(lookupIn, root)
  {
    var found := GraphLookup(lookupIn, root.id, Unrestricted);
    if y !in found {
      assert y == root;
    }
  }

  /**
   * One assembled hierarchy: `nodes` is the family (root last),
   * `children[s]` the children list of the object in slot `s`, and
   * `items[s]` its items.
   */
  datatype Tree = Tree(nodes: seq<Dashboard>, children: seq<seq<nat>>, items: seq<Option<seq<Content>>>)

  /** `t` is the family of `root` with every object's children exactly the objects whose parent it is, in list order. */
  predicate Shaped(t: Tree, lookupIn: seq<Dashboard>, root: Dashboard)
  {
    && t.nodes == Family(lookupIn, root)
    && |t.children| == |t.nodes| && |t.items| == |t.nodes|
    && forall s :: 0 <= s < |t.nodes| ==> t.children[s] == Kids(t.nodes, s)
  }

  /** Every object of `t` carries exactly its readable content items, `None` when it has none. */
  predicate Itemized(t: Tree, contents: seq<Content>, user: User)
  {
    |t.items| == |t.nodes| &&
    forall s :: 0 <= s < |t.nodes| ==> t.items[s] == ItemsFor(contents, AccessIds(user), t.nodes[s].id)
  }

  /** Every object of `t` keeps its initial empty `items` list. */
  predicate Unitemized(t: Tree)
  {
    forall s :: 0 <= s < |t.items| ==> t.items[s] == Some([])
  }


  /**
   * The family of `root`, and the children lists `recursiveHierarchy`
   * builds on it from the root's fresh list: every object gets exactly
   * the objects whose `parentId` is its id, in list order.
   */
  method Assemble(lookupIn: seq<Dashboard>, root: Dashboard) returns (nodes: seq<Dashboard>, children: seq<seq<nat>>)
    requires UniqueBy(lookupIn, DashboardKey) && TopmostIn(lookupIn, root)
    ensures nodes == Family(lookupIn, root)
    ensures |children| == |nodes|
    ensures forall s :: 0 <= s < |nodes| ==> children[s] == Kids(nodes, s)
  {
    nodes := GraphLookup(lookupIn, root.id, Unrestricted) + [root];
    FamilyIsArena(lookupIn, root);
    children := HierarchyFromRoot(nodes, SearchHeight(lookupIn, root.id, Unrestricted));
  }

  /** No stored document with the root's id hangs from a parent, so the search never comes back to the root. */
  predicate TopmostIn(lookupIn: seq<Dashboard>, root: Dashboard)
  {
    forall x :: x in lookupIn && x.id == root.id ==> IsRoot(x)
  }

  /**
   * A family is an arena for the tree builders, whatever cycles the rest
   * of the collection holds: ranked below its root by the search rounds,
   * every object but the root hanging from another object of the family,
   * and no id twice.
   */
  lemma FamilyIsArena(lookupIn: seq<Dashboard>, root: Dashboard)
    requires UniqueBy(lookupIn, DashboardKey) && TopmostIn(lookupIn, root)
    ensures Arena(Family(lookupIn, root), SearchHeight(lookupIn, root.id, Unrestricted))
    ensures Grounded(Family(lookupIn, root))
    ensures UniqueSlots(Family(lookupIn, root))
  {
    var found := GraphLookup(lookupIn, root.id, Unrestricted);
    var nodes := found + [root];
    var height := SearchHeight(lookupIn, root.id, Unrestricted);
    GraphLookupRanked(lookupIn, root.id, Unrestricted);
    forall i | 0 <= i < |nodes| - 1 && nodes[i].parentId.Some?
      ensures height(nodes[i].id) < height(nodes[i].parentId.value)
    {
      assert nodes[i] in found;
    }
    FamilyGrounded(lookupIn, root);
    forall a, b | 0 <= a < b < |nodes|
      ensures DashboardKey(nodes[a]) != DashboardKey(nodes[b])
    {
      if b == |nodes| - 1 {
        assert nodes[a] in found;
      } else {
        assert nodes[a] == found[a] && nodes[b] == found[b];
      }
    }
  }

  /**
   * A `parentId` cycle that no root reaches does not keep the listings
   * from running: the collection below has no ranking at all, yet the
   * root's family holds the root and nothing else.
   */
  lemma CycleAwayFromRoot(r: Dashboard, a: Dashboard, b: Dashboard)
    requires IsRoot(r) && a.parentId == Some(b.id) && b.parentId == Some(a.id)
    requires r.id != a.id && r.id != b.id && a.id != b.id
    ensures UniqueBy([r, a, b], DashboardKey) && TopmostIn([r, a, b], r)
    ensures forall height :: !RankedBy([r, a, b], height)
    ensures forall x :: x in Family([r, a, b], r) <==> x == r
  {
    var store := [r, a, b];
    forall height: Id -> nat
      ensures !RankedBy(store, height)
    {
      assert a in store && b in store;
    }
    GraphLookupLeast(store, r.id, Unrestricted, {});
  }

  /** Every object of a family but the root has its parent in the family. */
  lemma FamilyGrounded(lookupIn: seq<Dashboard>, root: Dashboard)
    ensures Grounded(Family(lookupIn, root))
  {
    var nodes := Family(lookupIn, root);
    forall i | 0 <= i < |nodes| - 1
      ensures nodes[i].parentId.Some? && exists j :: 0 <= j < |nodes| && nodes[j].id == nodes[i].parentId.value
    {
      FamilyMemberGrounded(lookupIn, root, i);
    }
  }

  /** The object in slot `i` of a family, other than the root, has its parent at some slot `j`. */
  lemma FamilyMemberGrounded(lookupIn: seq<Dashboard>, root: Dashboard, i: nat)
    requires i < |Family(lookupIn, root)| - 1
    ensures Family(lookupIn, root)[i].parentId.Some?
    ensures exists j :: 0 <= j < |Family(lookupIn, root)| && Family(lookupIn, root)[j].id == Family(lookupIn, root)[i].parentId.value
  {
    var found := GraphLookup(lookupIn, root.id, Unrestricted);
    var nodes := found + [root];
    assert nodes == Family(lookupIn, root);
    var x := found[i];
    assert nodes[i] == x && x in found;
    var parent := x.parentId.value;
    if parent == root.id {
      assert nodes[|found|] == root;
    } else {
      var y :| y in found && y.id == parent;
      var j :| 0 <= j < |found| && found[j] == y;
      assert nodes[j] == y;
    }
  }

  /** The dashboards hung under the given roots, root after root. */
  function Descendants(lookupIn: seq<Dashboard>, roots: seq<Dashboard>): (r: seq<Dashboard>)
    ensures forall i, x :: 0 <= i < |roots| && x in GraphLookup(lookupIn, roots[i].id, Unrestricted) ==> x in r
  {
    if roots == [] then []
    else
      var init := roots[..|roots| - 1];
      var r := Descendants(lookupIn, init) + GraphLookup(lookupIn, roots[|roots| - 1].id, Unrestricted);
      assert forall i :: 0 <= i < |roots| - 1 ==> roots[i] == init[i];
      r
  }

  /** The ids of `dashboardFlat`: every descendant, then the roots. */
  function FlatIds(lookupIn: seq<Dashboard>, roots: seq<Dashboard>): (r: seq<Id>)
    ensures forall i, x :: 0 <= i < |roots| && x in Family(lookupIn, roots[i]) ==> x.id in r
  {
    var below := Descendants(lookupIn, roots);
    var flat := below + roots;
    var r := Ids(flat);
    assert forall x :: x in flat ==> x.id in r by {
      forall x | x in flat ensures x.id in r {
        var k :| 0 <= k < |flat| && flat[k] == x;
        assert r[k] == x.id;
      }
    }
    assert forall i, x :: 0 <= i < |roots| && x in Family(lookupIn, roots[i]) ==> x in flat by {
      forall i, x | 0 <= i < |roots| && x in Family(lookupIn, roots[i])
        ensures x in flat
      {
        if x == roots[i] {
          assert flat[|below| + i] == roots[i];
        } else {
          assert x in GraphLookup(lookupIn, roots[i].id, Unrestricted);
          assert x in below;
        }
      }
    }
    r
  }

  /** Every object of a family finds its own readable items in the group the flat query gives for its id. */
  lemma FlatItems(lookupIn: seq<Dashboard>, contents: seq<Content>, user: User, roots: seq<Dashboard>, k: nat, nodes: seq<Dashboard>)
    requires k < |roots| && nodes == Family(lookupIn, roots[k])
    ensures forall s :: 0 <= s < |nodes| ==>
      Group(ItemsQuery(contents, AccessIds(user), FlatIds(lookupIn, roots)), nodes[s].id) == ItemsFor(contents, AccessIds(user), nodes[s].id)
  {
    var flat := FlatIds(lookupIn, roots);
    forall s | 0 <= s < |nodes|
      ensures Group(ItemsQuery(contents, AccessIds(user), flat), nodes[s].id) == ItemsFor(contents, AccessIds(user), nodes[s].id)
    {
      assert nodes[s] in Family(lookupIn, roots[k]);
      GroupOfQuery(contents, AccessIds(user), flat, nodes[s].id);
    }
  }

  /** A root of the page is the only stored document with its id, so nothing with that id hangs from a parent. */
  lemma RootsAreTopmost(dashboards: seq<Dashboard>, skip: nat, limit: nat, user: User, k: nat)
    requires UniqueBy(dashboards, DashboardKey) && k < |PageRoots(dashboards, skip, limit, user)|
    ensures TopmostIn(dashboards, PageRoots(dashboards, skip, limit, user)[k])
  {
    var root := PageRoots(dashboards, skip, limit, user)[k];
    assert root in PageRoots(dashboards, skip, limit, user);
    forall x | x in dashboards && x.id == root.id
      ensures IsRoot(x)
    {
      KeyDetermines(dashboards, DashboardKey, x, root);
    }
  }

  /**
   * One hierarchy of `hierarchy`: the family of `roots[k]` with its
   * children lists, each object given the group of its id in the content
   * query over the ids of every family of the page.
   */
  method AssembleWithItems(lookupIn: seq<Dashboard>, contents: seq<Content>, user: User, roots: seq<Dashboard>, k: nat)
    returns (t: Tree)
    requires UniqueBy(lookupIn, DashboardKey) && k < |roots| && TopmostIn(lookupIn, roots[k])
    ensures Shaped(t, lookupIn, roots[k]) && Itemized(t, contents, user)
  {
    var found := ItemsQuery(contents, AccessIds(user), FlatIds(lookupIn, roots));
    var nodes, children := Assemble(lookupIn, roots[k]);
    var items := seq(|nodes|, s requires 0 <= s < |nodes| => Group(found, nodes[s].id));
    FlatItems(lookupIn, contents, user, roots, k, nodes);
    t := Tree(nodes, children, items);
  }

  /**
   * `hierarchy(skip, limit, user)`.  A `limit` of 0 is refused by the
   * aggregation.  Otherwise one hierarchy per root of the page, in page
   * order: the root with every dashboard `graphLookup` hangs under it
   * (no access filtering below the root), each object's children exactly
   * its own, and each object's items exactly its readable content (`None`
   * when it has none).
   */
  method ListHierarchy(dashboards: seq<Dashboard>, contents: seq<Content>, skip: nat, limit: nat, user: User)
    returns (r: Result<seq<Tree>>)
    requires UniqueBy(dashboards, DashboardKey)
    ensures r.Failure? <==> limit == 0
    ensures r.Failure? ==> r.status == InternalServerError
    ensures r.Success? ==> |r.value| == |PageRoots(dashboards, skip, limit, user)|
    ensures r.Success? ==> forall k :: 0 <= k < |r.value| ==>
      Shaped(r.value[k], dashboards, PageRoots(dashboards, skip, limit, user)[k]) && Itemized(r.value[k], contents, user)
  {
    if limit == 0 {
      return Failure(InternalServerError);
    }
    var roots := PageRoots(dashboards, skip, limit, user);
    ghost var ok := (t: Tree, root: Dashboard) => Shaped(t, dashboards, root) && Itemized(t, contents, user);
    var trees: seq<Tree> := [];
    var k := 0;
    while k < |roots|
      invariant 0 <= k <= |roots| && |trees| == k
      invariant forall j :: 0 <= j < k ==> ok(trees[j], roots[j])
    {
      RootsAreTopmost(dashboards, skip, limit, user, k);
      var t := AssembleWithItems(dashboards, contents, user, roots, k);
      PairwiseSnoc(trees, t, roots, ok);
      trees := trees + [t];
      k := k + 1;
    }
    return Success(trees);
  }

  /**
   * `hierarchy2(skip, limit, user)`: as `hierarchy`, but the roots come
   * from "dashboardsSmall" while their families come from "dashboards",
   * and no items are attached, so every object keeps its empty list.
   */
  method ListHierarchy2(dashboards: seq<Dashboard>, dashboardsSmall: seq<Dashboard>, skip: nat, limit: nat, user: User)
    returns (r: Result<seq<Tree>>)
    requires UniqueBy(dashboards, DashboardKey)
    requires forall d :: d in dashboardsSmall && IsRoot(d) ==> TopmostIn(dashboards, d)
    ensures r.Failure? <==> limit == 0
    ensures r.Failure? ==> r.status == InternalServerError
    ensures r.Success? ==> |r.value| == |PageRoots(dashboardsSmall, skip, limit, user)|
    ensures r.Success? ==> forall k :: 0 <= k < |r.value| ==>
      Shaped(r.value[k], dashboards, PageRoots(dashboardsSmall, skip, limit, user)[k]) && Unitemized(r.value[k])
  {
    if limit == 0 {
      return Failure(InternalServerError);
    }
    var roots := PageRoots(dashboardsSmall, skip, limit, user);
    ghost var ok := (t: Tree, root: Dashboard) => Shaped(t, dashboards, root) && Unitemized(t);
    var trees: seq<Tree> := [];
    var k := 0;
    while k < |roots|
      invariant 0 <= k <= |roots| && |trees| == k
      invariant forall j :: 0 <= j < k ==> ok(trees[j], roots[j])
    {
      var nodes, children := Assemble(dashboards, roots[k]);
      var items := seq(|nodes|, s => Some([]));
      var t := Tree(nodes, children, items);
      assert Shaped(t, dashboards, roots[k]) && Unitemized(t);
      PairwiseSnoc(trees, t, roots, ok);
      trees := trees + [t];
      k := k + 1;
    }
    return Success(trees);
  }

  /** A list whose every entry suits its partner keeps that property when the next suitable entry is appended. */
  lemma PairwiseSnoc<A, B>(xs: seq<A>, x: A, ys: seq<B>, ok: (A, B) -> bool)
    requires |xs| < |ys|
    requires forall j :: 0 <= j < |xs| ==> ok(xs[j], ys[j])
    requires ok(x, ys[|xs|])
    ensures forall j :: 0 <= j < |xs| + 1 ==> ok((xs + [x])[j], ys[j])
  {
  }

  /** What `save` stores: the dashboard with the saving user's id appended to both access lists. */
  function WithCreator(d: Dashboard, user: User): (r: Dashboard)
    ensures r.(readACL := d.readACL, writeACL := d.writeACL) == d
    ensures |r.readACL| == |d.readACL| + 1 && r.readACL[..|d.readACL|] == d.readACL
    ensures |r.writeACL| == |d.writeACL| + 1 && r.writeACL[..|d.writeACL|] == d.writeACL
    ensures HasReadWriteAccessFor(user, r.readACL, r.writeACL)
    ensures ReadMatch(AccessIds(user), r.readACL, r.writeACL)
  {
    var r := d.(readACL := d.readACL + [user.id], writeACL := d.writeACL + [user.id]);
    assert r.readACL[..|d.readACL|] == d.readACL && r.writeACL[..|d.writeACL|] == d.writeACL;
    WriteImpliesRead(user, r.readACL, r.writeACL);
    r
  }

  /**
   * `save(user, dashboard)`: insert the dashboard with the user added to
   * both access lists; an `_id` already stored violates the unique index
   * (INTERNAL_SERVER_ERROR) and nothing is written.
   */
  method Save(db: Database, user: User, d: Dashboard) returns (r: Result<Dashboard>)
    requires db.Valid()
    modifies db
    ensures db.Valid()
    ensures HasKey(old(db.dashboards), DashboardKey, d.id) ==>
      r == Failure(InternalServerError) && db.dashboards == old(db.dashboards)
    ensures !HasKey(old(db.dashboards), DashboardKey, d.id) ==>
      r == Success(WithCreator(d, user)) && db.dashboards == old(db.dashboards) + [WithCreator(d, user)]
    ensures db.dashboardsSmall == old(db.dashboardsSmall) && db.contents == old(db.contents) && db.users == old(db.users)
  {
    FindByKey(db.dashboards, DashboardKey, d.id);
    if First(db.dashboards, KeyIs(DashboardKey, d.id)).Some? {
      return Failure(InternalServerError);
    }
    var saved := WithCreator(d, user);
    UniqueAppend(db.dashboards, DashboardKey, saved);
    db.dashboards := db.dashboards + [saved];
    return Success(saved);
  }

  /** What `update` writes: the incoming dashboard with the stored access entries appended to its own. */
  function Merged(d: Dashboard, stored: Dashboard): (r: Dashboard)
    ensures r.(readACL := d.readACL, writeACL := d.writeACL) == d
    ensures forall x :: x in r.readACL <==> x in d.readACL || x in stored.readACL
    ensures forall x :: x in r.writeACL <==> x in d.writeACL || x in stored.writeACL
    ensures |r.readACL| == |d.readACL| + |stored.readACL| && |r.writeACL| == |d.writeACL| + |stored.writeACL|
    ensures r.readACL[..|d.readACL|] == d.readACL && r.writeACL[..|d.writeACL|] == d.writeACL
  {
    d.(readACL := Appended(d.readACL, stored.readACL), writeACL := Appended(d.writeACL, stored.writeACL))
  }

  /**
   * Updating a record that is not public never takes write access away
   * from the user who was allowed to update it, whatever lists the
   * incoming dashboard carries.
   */
  lemma UpdateKeepsWriter(user: User, d: Dashboard, stored: Dashboard)
    requires !(stored.readACL == [] && stored.writeACL == [])
    requires HasReadWriteAccessFor(user, stored.readACL, stored.writeACL)
    ensures HasReadWriteAccessFor(user, Merged(d, stored).readACL, Merged(d, stored).writeACL)
  {
    var m := Merged(d, stored);
    WriteAccessSurvivesGrowth(user, stored.readACL, stored.writeACL, m.readACL, m.writeACL);
  }

  /**
   * A public record (both lists empty) is writable by anyone, and an
   * update that brings a `readACL` but no `writeACL` leaves it writable by
   * nobody, the updater included.
   */
  lemma UpdateCanLockPublicRecord(user: User, d: Dashboard, stored: Dashboard)
    requires stored.readACL == [] && stored.writeACL == []
    requires d.readACL != [] && d.writeACL == []
    ensures HasReadWriteAccessFor(user, stored.readACL, stored.writeACL)
    ensures !HasReadWriteAccessFor(user, Merged(d, stored).readACL, Merged(d, stored).writeACL)
  {
  }

  /**
   * `update(user, dashboard)`: NOT_FOUND when no dashboard has the
   * incoming `_id`, FORBIDDEN when the user may not write the stored
   * one; otherwise the merged dashboard replaces the stored one in place.
   * A failure writes nothing.
   */
  method Update(db: Database, user: User, d: Dashboard) returns (r: Result<Dashboard>)
    requires db.Valid()
    modifies db
    ensures db.Valid()
    ensures var check := FindWritable(old(db.dashboards), DashboardKey, d.id, WritableBy(user));
      && (check.Failure? ==> r == Failure(check.status) && db.dashboards == old(db.dashboards))
      && (check.Success? ==>
            && r == Success(Merged(d, check.value))
            && db.dashboards == ReplaceFirst(old(db.dashboards), KeyIs(DashboardKey, d.id), r.value))
    ensures db.dashboardsSmall == old(db.dashboardsSmall) && db.contents == old(db.contents) && db.users == old(db.users)
  {
    var check := FindWritable(db.dashboards, DashboardKey, d.id, WritableBy(user));
    if check.Failure? {
      return Failure(check.status);
    }
    var updated := Merged(d, check.value);
    ReplaceByKey(db.dashboards, DashboardKey, updated);
    db.dashboards := ReplaceFirst(db.dashboards, KeyIs(DashboardKey, d.id), updated);
    return Success(updated);
  }

  /** An update puts the merged record where the stored one was and leaves every other dashboard alone. */
  lemma UpdateReplacesInPlace(store: seq<Dashboard>, d: Dashboard, stored: Dashboard)
    requires UniqueBy(store, DashboardKey) && stored in store && stored.id == d.id
    ensures var after := ReplaceFirst(store, KeyIs(DashboardKey, d.id), Merged(d, stored));
      && |after| == |store|
      && forall i :: 0 <= i < |store| ==> after[i] == if store[i] == stored then Merged(d, stored) else store[i]
  {
    ReplaceByKey(store, DashboardKey, Merged(d, stored));
    forall i | 0 <= i < |store| && store[i].id == d.id
      ensures store[i] == stored
    {
      KeyDetermines(store, DashboardKey, store[i], stored);
    }
  }

  /** `nin("readACL", user.getAccessIds())`: the restriction of the cascade's search. */
  function ReadAclAvoids(user: User): Dashboard -> bool
  {
    (d: Dashboard) => !ContainElementsInCommon(d.readACL, AccessIds(user))
  }

  /**
   * The ids the cascade deletes under: the dashboards `graphLookup`
   * reaches below `id` through dashboards whose `readACL` names none of
   * the user's access ids, then `id` itself.
   */
  function CascadeIds(store: seq<Dashboard>, user: User, id: Id): (r: seq<Id>)
    ensures forall k :: k in r <==> k == id || exists x :: x in GraphLookup(store, id, ReadAclAvoids(user)) && x.id == k
  {
    var found := GraphLookup(store, id, ReadAclAvoids(user));
    var r := Ids(found) + [id];
    assert forall x :: x in found ==> x.id in r by {
      forall x | x in found ensures x.id in r {
        var k :| 0 <= k < |found| && found[k] == x;
        assert r[k] == x.id;
      }
    }
    r
  }

  /** `in("dashboardId", ids)` negated: the content a cascade keeps. */
  function NotAttached(ids: seq<Id>): Content -> bool
  {
    (c: Content) => !(c.dashboardId.Some? && c.dashboardId.value in ids)
  }

  /** `or(eq("_id", id), in("parentId", ids))` negated: the dashboards a cascade keeps. */
  function Spared(id: Id, ids: seq<Id>): Dashboard -> bool
  {
    (x: Dashboard) => !(x.id == id || (x.parentId.Some? && x.parentId.value in ids))
  }

  /**
   * `delete(user, dashboard)`, over "dashboardsSmall": NOT_FOUND, then
   * FORBIDDEN, before anything is deleted; then every content item
   * attached to a cascade id goes, and so does the dashboard itself and
   * every dashboard whose parent is a cascade id.  "dashboards" is not
   * touched.
   */
  method Delete(db: Database, user: User, d: Dashboard) returns (r: Result<Dashboard>)
    requires db.Valid()
    modifies db
    ensures db.Valid()
    ensures var check := FindWritable(old(db.dashboardsSmall), DashboardKey, d.id, WritableBy(user));
      && (check.Failure? ==> r == Failure(check.status) && db.contents == old(db.contents) && db.dashboardsSmall == old(db.dashboardsSmall))
      && (check.Success? ==> r == Success(d))
    ensures r.Success? ==>
      var ids := CascadeIds(old(db.dashboardsSmall), user, d.id);
      && db.contents == Select(old(db.contents), NotAttached(ids))
      && db.dashboardsSmall == Select(old(db.dashboardsSmall), Spared(d.id, ids))
    ensures db.dashboards == old(db.dashboards) && db.users == old(db.users)
  {
    var check := FindWritable(db.dashboardsSmall, DashboardKey, d.id, WritableBy(user));
    if check.Failure? {
      return Failure(check.status);
    }
    var ids := CascadeIds(db.dashboardsSmall, user, d.id);
    UniqueSelect(db.contents, ContentKey, NotAttached(ids));
    UniqueSelect(db.dashboardsSmall, DashboardKey, Spared(d.id, ids));
    db.contents := Select(db.contents, NotAttached(ids));
    db.dashboardsSmall := Select(db.dashboardsSmall, Spared(d.id, ids));
    return Success(d);
  }

  /**
   * The cascade stops at a dashboard whose `readACL` names the user: with
   * `c` under `root` and `g` under `c`, deleting `root` deletes `c`
   * (its parent is `root`) but leaves `g` with a parent that no longer
   * exists, and leaves the content of `c` behind.
   */
  lemma CascadeOrphansGrandchild(user: User, root: Dashboard, c: Dashboard, g: Dashboard, item: Content)
    requires root.parentId.None? && c.parentId == Some(root.id) && g.parentId == Some(c.id)
    requires root.id != c.id && c.id != g.id && root.id != g.id
    requires ContainElementsInCommon(c.readACL, AccessIds(user))
    requires item.dashboardId == Some(c.id)
    ensures forall k :: k in CascadeIds([root, c, g], user, root.id) <==> k == root.id
    ensures Select([root, c, g], Spared(root.id, CascadeIds([root, c, g], user, root.id))) == [g]
    ensures NotAttached(CascadeIds([root, c, g], user, root.id))(item)
  {
    var store := [root, c, g];
    var found := GraphLookup(store, root.id, ReadAclAvoids(user));
    assert c !in found;
    assert forall y :: y in found ==> y.id != c.id;
    assert forall x :: x in found ==> x == g by {
      forall x | x in found ensures x == g {
        assert x in store;
      }
    }
    assert g !in found;
    var ids := CascadeIds(store, user, root.id);
    assert forall k :: k in ids <==> k == root.id;
    var spared := Spared(root.id, ids);
    assert !spared(root) && !spared(c) && spared(g);
    assert store[1..] == [c, g] && store[1..][1..] == [g];
    assert Select([g], spared) == [g];
  }

}

=== FILE: dashboards.dfy ===
/**
 * The Dashboard record, its constraints, and the two queries the dashboard
 * pipelines are built from: the `graphLookup` stage that collects a
 * dashboard's descendants through `parentId`, and the grouping of content
 * items by `dashboardId`.
 */
module Dashboards {
  import opened Common
  import opened Query
  import opened Acl
  import opened Validation
  import opened Contents

  /**
   * A stored dashboard.  `idKey` is the value under the document key "id"
   * (distinct from `_id`), which the content service filters on.  The
   * transient `children` and `items` lists are not part of the record; the
   * hierarchy builds them separately.
   */
  datatype Dashboard = Dashboard(
    id: Id,
    idKey: Option<Id>,
    readACL: seq<string>,
    writeACL: seq<string>,
    name: Option<string>,
    description: Option<string>,
    parentId: Option<Id>)

  /** The `_id` of a dashboard, the key of its collection. */
  function DashboardKey(d: Dashboard): string
  {
    d.id
  }

  /** A dashboard without a parent is a root. */
  predicate IsRoot(d: Dashboard)
  {
    d.parentId.None?
  }

  /** The constraints on `name` and `description`, with their messages as declared. */
  function DashboardViolations(d: Dashboard): seq<Violation>
  {
    NotEmpty("name", d.name, "cannot be empty")
    + MinSize("name", d.name, 2, "should have at least 3 characters")
    + NotEmpty("description", d.description, "cannot be empty")
    + MinSize("description", d.description, 4, "should have at least 4 characters")
  }

  /** A dashboard is valid exactly when its name has 2 UTF-16 code units or more and its description 4 or more. */
  lemma DashboardValidity(d: Dashboard)
    ensures DashboardViolations(d) == [] <==>
      d.name.Some? && Utf16Length(d.name.value) >= 2 && d.description.Some? && Utf16Length(d.description.value) >= 4
  {
  }

  /** A one-letter name is refused, with the report "Name should have at least 3 characters". */
  lemma OneLetterNameRefused(d: Dashboard)
    requires d.name.Some? && Utf16Length(d.name.value) == 1
    requires d.description.Some? && Utf16Length(d.description.value) >= 4
    ensures DashboardViolations(d) == [Violation("name", "should have at least 3 characters")]
    ensures Validate(DashboardViolations(d)) == "Name should have at least 3 characters"
  {
    var v := Violation("name", "should have at least 3 characters");
    assert NotEmpty("name", d.name, "cannot be empty") == [];
    assert MinSize("name", d.name, 2, v.message) == [v];
    assert NotEmpty("description", d.description, "cannot be empty") == [];
    assert MinSize("description", d.description, 4, "should have at least 4 characters") == [];
    assert DashboardViolations(d) == [v];
    ValidateOne(v);
    NameReport();
  }

  /** The report entry of the `name` size violation. */
  lemma NameReport()
    ensures Capitalize("name") + " " + "should have at least 3 characters" == "Name should have at least 3 characters"
  {
    CapitalizeName();
  }

  lemma CapitalizeName()
    ensures Capitalize("name") == "Name"
  {
    var s := "name";
    assert s[0] == 'n' && s[1..] == "ame";
    assert Capitalize(s) == ['N'] + "ame";
  }

  /** A two-letter name passes, although the message speaks of 3 characters. */
  lemma TwoLetterNameAccepted(d: Dashboard)
    requires d.name.Some? && Utf16Length(d.name.value) == 2
    requires d.description.Some? && Utf16Length(d.description.value) >= 4
    ensures DashboardViolations(d) == []
  {
  }

  /** Every `_id` in a collection. */
  function IdsOf(store: seq<Dashboard>): set<Id>
  {
    set x | x in store :: x.id
  }

  /**
   * Whether `graphLookup` takes document `x`: it passes the restriction
   * and its `parentId` is the start value or the `_id` of a document
   * already taken.
   */
  predicate Linked(x: Dashboard, start: Id, keep: Dashboard -> bool, taken: set<Id>)
  {
    keep(x) && x.parentId.Some? && (x.parentId.value == start || x.parentId.value in taken)
  }

  /** One round of the search: the ids of the documents linked to `taken`. */
  function Step(store: seq<Dashboard>, start: Id, keep: Dashboard -> bool, taken: set<Id>): set<Id>
  {
    set x | x in store && Linked(x, start, keep, taken) :: x.id
  }

  /** Adding ids to `taken` never loses a linked document. */
  lemma StepMonotone(store: seq<Dashboard>, start: Id, keep: Dashboard -> bool, a: set<Id>, b: set<Id>)
    requires a <= b
    ensures Step(store, start, keep, a) <= Step(store, start, keep, b)
  {
  }

  /** Rounds of the search until nothing new is linked. */
  function Reach(store: seq<Dashboard>, start: Id, keep: Dashboard -> bool, taken: set<Id>): (r: set<Id>)
    requires taken <= IdsOf(store)
    requires taken <= Step(store, start, keep, taken)
    ensures taken <= r
    ensures r == Step(store, start, keep, r)
    decreases IdsOf(store) - taken
  {
    var next := Step(store, start, keep, taken);
    if next <= taken then taken
    else
      StepMonotone(store, start, keep, taken, taken + next);
      Reach(store, start, keep, taken + next)
  }

  /** The search stops inside every set of ids that is closed under a round. */
  lemma ReachLeast(store: seq<Dashboard>, start: Id, keep: Dashboard -> bool, taken: set<Id>, closed: set<Id>)
    requires taken <= IdsOf(store)
    requires taken <= Step(store, start, keep, taken)
    requires taken <= closed
    requires Step(store, start, keep, closed) <= closed
    ensures Reach(store, start, keep, taken) <= closed
    decreases IdsOf(store) - taken
  {
    var next := Step(store, start, keep, taken);
    if !(next <= taken) {
      StepMonotone(store, start, keep, taken, closed);
      StepMonotone(store, start, keep, taken, taken + next);
      ReachLeast(store, start, keep, taken + next, closed);
    }
  }

  /** The ids `graphLookup` collects from `start`. */
  function ReachedIds(store: seq<Dashboard>, start: Id, keep: Dashboard -> bool): (r: set<Id>)
    ensures r == Step(store, start, keep, r)
  {
    Reach(store, start, keep, {})
  }

  /**
   * `graphLookup(from: store, startWith: start, connectFromField: "_id",
   * connectToField: "parentId", restrictSearchWithMatch: keep)`: the
   * documents that pass `keep` and hang from `start` through a chain of
   * such documents, in collection order.  The result is closed both ways:
   * a document is in it exactly when it passes `keep` and its parent is
   * `start` or in the result.  Taken from a collection with unique ids,
   * it holds each document once.
   */
  function GraphLookup(store: seq<Dashboard>, start: Id, keep: Dashboard -> bool): (r: seq<Dashboard>)
    ensures forall x :: x in r <==>
      x in store && keep(x) && x.parentId.Some? &&
      (x.parentId.value == start || exists y :: y in r && y.id == x.parentId.value)
    ensures UniqueBy(store, DashboardKey) ==> UniqueBy(r, DashboardKey)
  {
    var taken := ReachedIds(store, start, keep);
    var p := (x: Dashboard) => Linked(x, start, keep, taken);
    var r := Select(store, p);
    assert forall k :: k in taken <==> exists y :: y in r && y.id == k;
    assert UniqueBy(store, DashboardKey) ==> UniqueBy(r, DashboardKey) by {
      if UniqueBy(store, DashboardKey) {
        UniqueSelect(store, DashboardKey, p);
      }
    }
    r
  }

  /** The search takes no more than it must: its ids lie in every closed set. */
  lemma GraphLookupLeast(store: seq<Dashboard>, start: Id, keep: Dashboard -> bool, closed: set<Id>)
    requires Step(store, start, keep, closed) <= closed
    ensures forall x :: x in GraphLookup(store, start, keep) ==> x.id in closed
  {
    ReachLeast(store, start, keep, {}, closed);
    var taken := ReachedIds(store, start, keep);
    forall x | x in GraphLookup(store, start, keep)
      ensures x.id in closed
    {
      assert x in store && Linked(x, start, keep, taken);
      assert x.id in Step(store, start, keep, taken);
    }
  }

  /** `height` strictly decreases from a parent to each child of a collection. */
  predicate RankedBy(store: seq<Dashboard>, height: Id -> nat)
  {
    forall x :: x in store && x.parentId.Some? ==> height(x.id) < height(x.parentId.value)
  }

  /** In an acyclic collection every descendant sits strictly below the start, so none has the start's id. */
  lemma GraphLookupBelowStart(store: seq<Dashboard>, start: Id, keep: Dashboard -> bool, height: Id -> nat)
    requires RankedBy(store, height)
    ensures forall x :: x in GraphLookup(store, start, keep) ==> height(x.id) < height(start) && x.id != start
  {
    var below := set x | x in store && height(x.id) < height(start) :: x.id;
    forall k | k in Step(store, start, keep, below)
      ensures k in below
    {
      var x :| x in store && Linked(x, start, keep, below) && x.id == k;
      if x.parentId.value != start {
        var y :| y in store && height(y.id) < height(start) && y.id == x.parentId.value;
      }
    }
    GraphLookupLeast(store, start, keep, below);
    forall x | x in GraphLookup(store, start, keep)
      ensures height(x.id) < height(start)
    {
      assert x.id in below;
      var y :| y in store && height(y.id) < height(start) && y.id == x.id;
    }
  }

  /** The rounds the search still runs from `taken` before nothing new is linked. */
  function RoundsLeft(store: seq<Dashboard>, start: Id, keep: Dashboard -> bool, taken: set<Id>): nat
    requires taken <= IdsOf(store)
    requires taken <= Step(store, start, keep, taken)
    decreases IdsOf(store) - taken
  {
    var next := Step(store, start, keep, taken);
    if next <= taken then 0
    else
      StepMonotone(store, start, keep, taken, taken + next);
      1 + RoundsLeft(store, start, keep, taken + next)
  }

  /**
   * The rounds still to come when the search takes `k`: an id taken in an
   * earlier round gets a larger value.
   */
  function RoundOf(store: seq<Dashboard>, start: Id, keep: Dashboard -> bool, taken: set<Id>, k: Id): (r: nat)
    requires taken <= IdsOf(store)
    requires taken <= Step(store, start, keep, taken)
    ensures r <= RoundsLeft(store, start, keep, taken)
    decreases IdsOf(store) - taken
  {
    var next := Step(store, start, keep, taken);
    if next <= taken || k in taken then RoundsLeft(store, start, keep, taken)
    else
      StepMonotone(store, start, keep, taken, taken + next);
      RoundOf(store, start, keep, taken + next, k)
  }

  /**
   * Under unique ids, a document whose parent the search has reached but
   * not yet taken is taken in a later round than its parent.
   */
  lemma {:induction false} TakenAfterParent(store: seq<Dashboard>, start: Id, keep: Dashboard -> bool, taken: set<Id>, x: Dashboard)
    requires taken <= IdsOf(store)
    requires taken <= Step(store, start, keep, taken)
    requires UniqueBy(store, DashboardKey)
    requires x in store && keep(x) && x.parentId.Some? && x.parentId.value != start
    requires x.parentId.value in Reach(store, start, keep, taken)
    requires x.id !in taken
    ensures RoundOf(store, start, keep, taken, x.id) < RoundOf(store, start, keep, taken, x.parentId.value)
    decreases IdsOf(store) - taken
  {
    var next := Step(store, start, keep, taken);
    StepMonotone(store, start, keep, taken, taken + next);
    if x.parentId.value in taken {
      assert Linked(x, start, keep, taken);
      assert x.id in next;
    } else {
      assert !(next <= taken);
      forall y | y in store && Linked(y, start, keep, taken)
        ensures y.id != x.id
      {
        var i :| 0 <= i < |store| && store[i] == y;
        var j :| 0 <= j < |store| && store[j] == x;
        assert i != j;
      }
      assert x.id !in next;
      TakenAfterParent(store, start, keep, taken + next, x);
    }
  }

  /** A ranking read off the search: the start above everything, each other id by the rounds still to come when it was taken. */
  function SearchHeight(store: seq<Dashboard>, start: Id, keep: Dashboard -> bool): Id -> nat
  {
    (k: Id) => if k == start then RoundsLeft(store, start, keep, {}) + 1 else RoundOf(store, start, keep, {}, k)
  }

  /**
   * Whatever else the collection holds, `parentId` cycles included, the
   * documents `graphLookup` takes are acyclic: under unique ids, and with
   * no stored document carrying the start's id and a parent, each ranks
   * strictly below its parent by its search round.
   */
  lemma GraphLookupRanked(store: seq<Dashboard>, start: Id, keep: Dashboard -> bool)
    requires UniqueBy(store, DashboardKey)
    requires forall x :: x in store && x.id == start ==> x.parentId.None?
    ensures forall x :: x in GraphLookup(store, start, keep) ==>
      x.id != start && SearchHeight(store, start, keep)(x.id) < SearchHeight(store, start, keep)(x.parentId.value)
  {
    var taken := ReachedIds(store, start, keep);
    var found := GraphLookup(store, start, keep);
    var h := SearchHeight(store, start, keep);
    forall x | x in found
      ensures x.id != start && h(x.id) < h(x.parentId.value)
    {
      if x.parentId.value != start {
        var y :| y in found && y.id == x.parentId.value;
        assert Linked(y, start, keep, taken);
        assert y.id in Step(store, start, keep, taken);
        TakenAfterParent(store, start, keep, {}, x);
      }
    }
  }

  /** The readable content items attached to one dashboard, or `None` when there are none. */
  function ItemsFor(contents: seq<Content>, accessIds: seq<string>, dashboardId: Id): (r: Option<seq<Content>>)
    ensures r.None? <==> forall c :: c in contents ==>
      !(ReadMatch(accessIds, c.readACL, c.writeACL) && c.dashboardId == Some(dashboardId))
    ensures r.Some? ==> r.value != [] && forall c :: c in r.value <==>
      c in contents && ReadMatch(accessIds, c.readACL, c.writeACL) && c.dashboardId == Some(dashboardId)
  {
    var p := (c: Content) => ReadMatch(accessIds, c.readACL, c.writeACL) && c.dashboardId == Some(dashboardId);
    var xs := Select(contents, p);
    if xs == [] then None
    else
      assert xs[0] in xs;
      Some(xs)
  }

  /**
   * The content query of the listing pipelines: readable items whose
   * `dashboardId` is one of `ids`, in collection order.
   */
  function ItemsQuery(contents: seq<Content>, accessIds: seq<string>, ids: seq<Id>): seq<Content>
  {
    Select(contents, (c: Content) => ReadMatch(accessIds, c.readACL, c.writeACL) && c.dashboardId.Some? && c.dashboardId.value in ids)
  }

  /** `groupingBy(Content::getDashboardId).get(key)`: the group of `key`, or null when it has none. */
  function Group(found: seq<Content>, key: Id): Option<seq<Content>>
  {
    var xs := Select(found, (c: Content) => c.dashboardId == Some(key));
    if xs == [] then None else Some(xs)
  }

  /**
   * Grouping the query result and taking a dashboard's group gives exactly
   * that dashboard's readable items, in collection order.
   */
  lemma GroupOfQuery(contents: seq<Content>, accessIds: seq<string>, ids: seq<Id>, key: Id)
    requires key in ids
    ensures Group(ItemsQuery(contents, accessIds, ids), key) == ItemsFor(contents, accessIds, key)
  {
    var p := (c: Content) => ReadMatch(accessIds, c.readACL, c.writeACL) && c.dashboardId.Some? && c.dashboardId.value in ids;
    var q := (c: Content) => c.dashboardId == Some(key);
    var pq := (c: Content) => p(c) && q(c);
    var direct := (c: Content) => ReadMatch(accessIds, c.readACL, c.writeACL) && c.dashboardId == Some(key);
    SelectSelect(contents, p, q, pq);
    SelectCongruent(contents, pq, direct);
  }
}

=== FILE: hierarchy.dfy ===
/**
 * The two tree builders of the dashboard service, `buildHierarchyTree` and
 * `recursiveHierarchy`, over an arena of dashboard objects.
 *
 * Slots `0 .. |slots| - 2` hold the list both builders scan (the
 * descendants `graphLookup` returned); the last slot holds the root.
 * `kids[s]` is the `children` list of the object in slot `s`, held as slot
 * numbers, so that the in-place updates of the Java objects become updates
 * of the array.  The builders recurse along `parentId`; `height` is a
 * ranking of ids that strictly decreases from parent to child, which is
 * what makes the recursion finite.
 */
module Hierarchy {
  import opened Common
  import opened Query
  import opened Dashboards

  /** A root slot, and a `height` that decreases from each scanned dashboard to its parent's id. */
  predicate Arena(slots: seq<Dashboard>, height: Id -> nat)
  {
    && |slots| >= 1
    && forall i :: 0 <= i < |slots| - 1 && slots[i].parentId.Some? ==>
         height(slots[i].id) < height(slots[i].parentId.value)
  }

  /** The slot of the root. */
  function Root(slots: seq<Dashboard>): nat
    requires |slots| >= 1
  {
    |slots| - 1
  }

  /** The slots below `k` whose `parentId` is `id`, in increasing order. */
  function ChildIndices(slots: seq<Dashboard>, id: Id, k: nat): (r: seq<nat>)
    requires k <= |slots|
    ensures forall j :: j in r <==> 0 <= j < k && slots[j].parentId == Some(id)
    ensures forall a, b :: 0 <= a < b < |r| ==> r[a] < r[b]
  {
    if k == 0 then []
    else
      var init := ChildIndices(slots, id, k - 1);
      assert forall a :: 0 <= a < |init| ==> init[a] in init;
      init + (if slots[k - 1].parentId == Some(id) then [k - 1] else [])
  }

  /** The scanned dashboards whose parent is slot `p`, in list order. */
  function Kids(slots: seq<Dashboard>, p: nat): seq<nat>
    requires |slots| >= 1 && p < |slots|
  {
    ChildIndices(slots, slots[p].id, |slots| - 1)
  }

  /** Each slot of `cs` is a scanned one whose height is below `bound`. */
  predicate Below(slots: seq<Dashboard>, height: Id -> nat, cs: seq<nat>, bound: nat)
  {
    forall c :: c in cs ==> c < |slots| - 1 && height(slots[c].id) < bound
  }

  /** Every member of a prefix is a member of the whole. */
  lemma PrefixMembers(cs: seq<nat>, k: nat)
    requires k <= |cs|
    ensures forall x :: x in cs[..k] ==> x in cs
  {
    forall x | x in cs[..k]
      ensures x in cs
    {
      var i :| 0 <= i < k && cs[..k][i] == x;
      assert cs[i] == x;
    }
  }

  lemma BelowPrefix(slots: seq<Dashboard>, height: Id -> nat, cs: seq<nat>, bound: nat, k: nat)
    requires Below(slots, height, cs, bound) && k <= |cs|
    ensures Below(slots, height, cs[..k], bound)
  {
    PrefixMembers(cs, k);
  }

  /** The children found so far sit below their parent. */
  lemma ChildIndicesBelow(slots: seq<Dashboard>, height: Id -> nat, p: nat, k: nat)
    requires Arena(slots, height) && p < |slots| && k <= |slots| - 1
    ensures Below(slots, height, ChildIndices(slots, slots[p].id, k), height(slots[p].id))
  {
  }

  /** A child sits strictly below its parent. */
  lemma KidBelow(slots: seq<Dashboard>, height: Id -> nat, p: nat, c: nat)
    requires Arena(slots, height) && p < |slots|
    requires c in Kids(slots, p)
    ensures c < |slots| - 1 && height(slots[c].id) < height(slots[p].id)
  {
  }

  /** All the children of a slot sit below it. */
  lemma KidsBelow(slots: seq<Dashboard>, height: Id -> nat, p: nat)
    requires Arena(slots, height) && p < |slots|
    ensures Below(slots, height, Kids(slots, p), height(slots[p].id))
  {
  }

  /**
   * How many times a builder started at slot `p` is invoked on slot `s`:
   * once for `p` itself, plus the invocations made from each child.
   */
  ghost function Visits(slots: seq<Dashboard>, height: Id -> nat, p: nat, s: nat): nat
    requires Arena(slots, height) && p < |slots|
    decreases height(slots[p].id), 1, 0
  {
    (if p == s then 1 else 0) + VisitsAll(slots, height, Kids(slots, p), s, height(slots[p].id))
  }

  /**
   * The invocations on `s` made from a list of slots.  Only slots below
   * `bound` count; every child list of a slot meets that bound.
   */
  ghost function VisitsAll(slots: seq<Dashboard>, height: Id -> nat, cs: seq<nat>, s: nat, bound: nat): nat
    requires Arena(slots, height)
    decreases bound, 0, |cs|
  {
    if cs == [] then 0
    else
      var c := cs[|cs| - 1];
      VisitsAll(slots, height, cs[..|cs| - 1], s, bound)
      + (if c < |slots| - 1 && height(slots[c].id) < bound then Visits(slots, height, c, s) else 0)
  }

  lemma VisitsAllSnoc(slots: seq<Dashboard>, height: Id -> nat, cs: seq<nat>, c: nat, s: nat, bound: nat)
    requires Arena(slots, height)
    requires Below(slots, height, cs, bound)
    requires c < |slots| - 1 && height(slots[c].id) < bound
    ensures Below(slots, height, cs + [c], bound)
    ensures VisitsAll(slots, height, cs + [c], s, bound) == VisitsAll(slots, height, cs, s, bound) + Visits(slots, height, c, s)
  {
    assert (cs + [c])[..|cs|] == cs;
  }

  /** A list accounts for at least the invocations of each of its members. */
  lemma {:induction false} VisitsAllAtLeast(slots: seq<Dashboard>, height: Id -> nat, cs: seq<nat>, s: nat, bound: nat, c: nat)
    requires Arena(slots, height)
    requires Below(slots, height, cs, bound)
    requires c in cs
    ensures VisitsAll(slots, height, cs, s, bound) >= Visits(slots, height, c, s)
  {
    if c != cs[|cs| - 1] {
      assert c in cs[..|cs| - 1] by {
        var k :| 0 <= k < |cs| && cs[k] == c;
        assert cs[..|cs| - 1][k] == c;
      }
      BelowPrefix(slots, height, cs, bound, |cs| - 1);
      VisitsAllAtLeast(slots, height, cs[..|cs| - 1], s, bound, c);
    }
  }

  /** A list invokes the builder on `s` exactly when one of its members does. */
  lemma {:induction false} VisitsAllPositive(slots: seq<Dashboard>, height: Id -> nat, cs: seq<nat>, s: nat, bound: nat)
    requires Arena(slots, height)
    requires Below(slots, height, cs, bound)
    ensures VisitsAll(slots, height, cs, s, bound) > 0 <==> exists c :: c in cs && Visits(slots, height, c, s) > 0
  {
    if cs != [] {
      var last := cs[|cs| - 1];
      assert last in cs;
      BelowPrefix(slots, height, cs, bound, |cs| - 1);
      PrefixMembers(cs, |cs| - 1);
      VisitsAllPositive(slots, height, cs[..|cs| - 1], s, bound);
      if Visits(slots, height, last, s) == 0 {
        forall c | c in cs && Visits(slots, height, c, s) > 0
          ensures c in cs[..|cs| - 1]
        {
          var k :| 0 <= k < |cs| && cs[k] == c;
          assert cs[..|cs| - 1][k] == c;
        }
      }
    }
  }

  /** Every slot the builder reaches from `p` is `p` or sits strictly below it. */
  lemma VisitsBelow(slots: seq<Dashboard>, height: Id -> nat, p: nat, s: nat)
    requires Arena(slots, height) && p < |slots|
    requires Visits(slots, height, p, s) > 0
    ensures s == p || (s < |slots| && height(slots[s].id) < height(slots[p].id))
    decreases height(slots[p].id)
  {
    if s != p {
      var hp := height(slots[p].id);
      VisitsAllPositive(slots, height, Kids(slots, p), s, hp);
      var c :| c in Kids(slots, p) && Visits(slots, height, c, s) > 0;
      KidBelow(slots, height, p, c);
      VisitsBelow(slots, height, c, s);
    }
  }

  /** The builder started at `p` is invoked on `p` exactly once: no child leads back to it. */
  lemma VisitsSelf(slots: seq<Dashboard>, height: Id -> nat, p: nat)
    requires Arena(slots, height) && p < |slots|
    ensures Visits(slots, height, p, p) == 1
  {
    var hp := height(slots[p].id);
    forall c | c in Kids(slots, p)
      ensures Visits(slots, height, c, p) == 0
    {
      KidBelow(slots, height, p, c);
      if Visits(slots, height, c, p) > 0 {
        VisitsBelow(slots, height, c, p);
      }
    }
    VisitsAllPositive(slots, height, Kids(slots, p), p, hp);
  }

  /** Reaching a slot means reaching each of its children. */
  lemma VisitsChild(slots: seq<Dashboard>, height: Id -> nat, p: nat, q: nat, s: nat)
    requires Arena(slots, height) && p < |slots| && q < |slots|
    requires Visits(slots, height, p, q) > 0
    requires s in Kids(slots, q)
    ensures Visits(slots, height, p, s) > 0
    decreases height(slots[p].id)
  {
    var hp := height(slots[p].id);
    KidBelow(slots, height, q, s);
    if p == q {
      VisitsSelf(slots, height, s);
      VisitsAllAtLeast(slots, height, Kids(slots, p), s, hp, s);
    } else {
      VisitsAllPositive(slots, height, Kids(slots, p), q, hp);
      var c :| c in Kids(slots, p) && Visits(slots, height, c, q) > 0;
      KidBelow(slots, height, p, c);
      VisitsChild(slots, height, c, q, s);
      VisitsAllAtLeast(slots, height, Kids(slots, p), s, hp, c);
    }
  }

  /** A slot other than `p` is reached only through a reached parent. */
  lemma VisitsLastStep(slots: seq<Dashboard>, height: Id -> nat, p: nat, s: nat) returns (q: nat)
    requires Arena(slots, height) && p < |slots|
    requires Visits(slots, height, p, s) > 0 && s != p
    ensures q < |slots| && s in Kids(slots, q) && Visits(slots, height, p, q) > 0
    decreases height(slots[p].id)
  {
    var hp := height(slots[p].id);
    VisitsAllPositive(slots, height, Kids(slots, p), s, hp);
    var c :| c in Kids(slots, p) && Visits(slots, height, c, s) > 0;
    KidBelow(slots, height, p, c);
    if c == s {
      q := p;
    } else {
      q := VisitsLastStep(slots, height, c, s);
      VisitsAllAtLeast(slots, height, Kids(slots, p), q, hp, c);
    }
  }

  /** The largest height of any slot. */
  function MaxHeight(slots: seq<Dashboard>, height: Id -> nat, k: nat): (r: nat)
    requires k <= |slots|
    ensures forall i :: 0 <= i < k ==> height(slots[i].id) <= r
  {
    if k == 0 then 0
    else
      var m := MaxHeight(slots, height, k - 1);
      var h := height(slots[k - 1].id);
      if h > m then h else m
  }

  /** Every scanned dashboard has a parent, found among the slots. */
  predicate Grounded(slots: seq<Dashboard>)
  {
    forall i :: 0 <= i < |slots| - 1 ==>
      slots[i].parentId.Some? && exists j :: 0 <= j < |slots| && slots[j].id == slots[i].parentId.value
  }

  /** No two slots carry the same id. */
  predicate UniqueSlots(slots: seq<Dashboard>)
  {
    UniqueBy(slots, DashboardKey)
  }

  /** When every scanned dashboard hangs from a slot, the builder started at the root reaches every slot. */
  lemma RootReachesAll(slots: seq<Dashboard>, height: Id -> nat, s: nat)
    requires Arena(slots, height) && Grounded(slots) && s < |slots|
    ensures Visits(slots, height, Root(slots), s) > 0
    decreases MaxHeight(slots, height, |slots|) - height(slots[s].id)
  {
    if s == Root(slots) {
      VisitsSelf(slots, height, s);
    } else {
      var j :| 0 <= j < |slots| && slots[j].id == slots[s].parentId.value;
      RootReachesAll(slots, height, j);
      assert s in Kids(slots, j);
      VisitsChild(slots, height, Root(slots), j, s);
    }
  }

  /** With unique ids, a slot has at most one parent slot. */
  lemma OneParent(slots: seq<Dashboard>, q1: nat, q2: nat, s: nat)
    requires |slots| >= 1 && UniqueSlots(slots) && q1 < |slots| && q2 < |slots|
    requires s in Kids(slots, q1) && s in Kids(slots, q2)
    ensures q1 == q2
  {
  }

  /** With unique ids, two slots that both reach `s` lie on one line of descent. */
  lemma Comparable(slots: seq<Dashboard>, height: Id -> nat, a: nat, b: nat, s: nat)
    requires Arena(slots, height) && UniqueSlots(slots) && a < |slots| && b < |slots|
    requires Visits(slots, height, a, s) > 0 && Visits(slots, height, b, s) > 0
    ensures Visits(slots, height, a, b) > 0 || Visits(slots, height, b, a) > 0
    decreases height(slots[a].id) - (if s < |slots| then height(slots[s].id) else 0)
  {
    VisitsBelow(slots, height, a, s);
    if s != a && s != b {
      var qa := VisitsLastStep(slots, height, a, s);
      var qb := VisitsLastStep(slots, height, b, s);
      OneParent(slots, qa, qb, s);
      KidBelow(slots, height, qa, s);
      VisitsBelow(slots, height, a, qa);
      if qa != a {
        Comparable(slots, height, a, b, qa);
      }
    }
  }

  /** One child never leads to a sibling. */
  lemma SiblingNotReached(slots: seq<Dashboard>, height: Id -> nat, p: nat, x: nat, y: nat)
    requires Arena(slots, height) && UniqueSlots(slots) && p < |slots|
    requires x in Kids(slots, p) && y in Kids(slots, p) && x != y
    ensures Visits(slots, height, x, y) == 0
  {
    KidBelow(slots, height, p, x);
    if Visits(slots, height, x, y) > 0 {
      var q := VisitsLastStep(slots, height, x, y);
      OneParent(slots, p, q, y);
      VisitsBelow(slots, height, x, p);
    }
  }

  /** Distinct children reach disjoint sets of slots. */
  lemma SiblingsDisjoint(slots: seq<Dashboard>, height: Id -> nat, p: nat, x: nat, y: nat, s: nat)
    requires Arena(slots, height) && UniqueSlots(slots) && p < |slots|
    requires x in Kids(slots, p) && y in Kids(slots, p) && x != y
    ensures Visits(slots, height, x, s) == 0 || Visits(slots, height, y, s) == 0
  {
    KidBelow(slots, height, p, x);
    KidBelow(slots, height, p, y);
    if Visits(slots, height, x, s) > 0 && Visits(slots, height, y, s) > 0 {
      Comparable(slots, height, x, y, s);
      SiblingNotReached(slots, height, p, x, y);
      SiblingNotReached(slots, height, p, y, x);
    }
  }

  /** A sum of terms that are each at most one and never two at once is at most one. */
  lemma {:induction false} VisitsAllAtMostOne(slots: seq<Dashboard>, height: Id -> nat, cs: seq<nat>, s: nat, bound: nat)
    requires Arena(slots, height)
    requires Below(slots, height, cs, bound)
    requires forall i, j :: 0 <= i < j < |cs| ==> cs[i] < cs[j]
    requires forall c :: c in cs ==> Visits(slots, height, c, s) <= 1
    requires forall x, y :: x in cs && y in cs && x != y ==>
      Visits(slots, height, x, s) == 0 || Visits(slots, height, y, s) == 0
    ensures VisitsAll(slots, height, cs, s, bound) <= 1
  {
    if cs != [] {
      var last := cs[|cs| - 1];
      var init := cs[..|cs| - 1];
      assert last in cs;
      BelowPrefix(slots, height, cs, bound, |cs| - 1);
      PrefixMembers(cs, |cs| - 1);
      if Visits(slots, height, last, s) == 0 {
        VisitsAllAtMostOne(slots, height, init, s, bound);
      } else {
        OthersUnvisited(slots, height, cs, s);
        VisitsAllPositive(slots, height, init, s, bound);
      }
    }
  }

  /** When the last of a strictly increasing list reaches `s`, no earlier entry does. */
  lemma OthersUnvisited(slots: seq<Dashboard>, height: Id -> nat, cs: seq<nat>, s: nat)
    requires Arena(slots, height) && cs != []
    requires forall i :: 0 <= i < |cs| ==> cs[i] < |slots|
    requires forall i, j :: 0 <= i < j < |cs| ==> cs[i] < cs[j]
    requires forall x, y :: x in cs && y in cs && x != y ==>
      Visits(slots, height, x, s) == 0 || Visits(slots, height, y, s) == 0
    requires Visits(slots, height, cs[|cs| - 1], s) != 0
    ensures forall c :: c in cs[..|cs| - 1] ==> Visits(slots, height, c, s) == 0
  {
    var init := cs[..|cs| - 1];
    forall c | c in init
      ensures Visits(slots, height, c, s) == 0
    {
      var k :| 0 <= k < |init| && init[k] == c;
      assert cs[k] == c;
    }
  }

  /** With unique ids, no slot is visited twice from `p`. */
  lemma VisitsAtMostOnce(slots: seq<Dashboard>, height: Id -> nat, p: nat, s: nat)
    requires Arena(slots, height) && UniqueSlots(slots) && p < |slots|
    ensures Visits(slots, height, p, s) <= 1
    decreases height(slots[p].id)
  {
    if p == s {
      VisitsSelf(slots, height, p);
    } else {
      var kids := Kids(slots, p);
      forall c | c in kids
        ensures Visits(slots, height, c, s) <= 1
      {
        KidBelow(slots, height, p, c);
        VisitsAtMostOnce(slots, height, c, s);
      }
      forall x, y | x in kids && y in kids && x != y
        ensures Visits(slots, height, x, s) == 0 || Visits(slots, height, y, s) == 0
      {
        SiblingsDisjoint(slots, height, p, x, y, s);
      }
      VisitsAllAtMostOne(slots, height, kids, s, height(slots[p].id));
    }
  }

  /**
   * For the output of `graphLookup` under its root (every dashboard hangs
   * from a slot, ids are unique), the builders started at the root are
   * invoked exactly once on every slot.
   */
  lemma VisitedOnce(slots: seq<Dashboard>, height: Id -> nat)
    requires Arena(slots, height) && Grounded(slots) && UniqueSlots(slots)
    ensures forall s :: 0 <= s < |slots| ==> Visits(slots, height, Root(slots), s) == 1
  {
    forall s | 0 <= s < |slots|
      ensures Visits(slots, height, Root(slots), s) == 1
    {
      RootReachesAll(slots, height, s);
      VisitsAtMostOnce(slots, height, Root(slots), s);
    }
  }

  /** `n` copies of `xs`, one after the other. */
  function Repeat(xs: seq<nat>, n: nat): seq<nat>
  {
    if n == 0 then [] else Repeat(xs, n - 1) + xs
  }

  lemma {:induction false} RepeatAdd(xs: seq<nat>, a: nat, b: nat, n: nat)
    requires n == a + b
    ensures Repeat(xs, a) + Repeat(xs, b) == Repeat(xs, n)
  {
    if b > 0 {
      RepeatAdd(xs, a, b - 1, n - 1);
    }
  }

  /**
   * What `recursiveHierarchy` from `p` has appended to slot `s` once the
   * scan has passed the first `k` dashboards.
   */
  ghost function Gathered(slots: seq<Dashboard>, height: Id -> nat, p: nat, k: nat, s: nat): seq<nat>
    requires Arena(slots, height) && p < |slots| && k <= |slots| - 1 && s < |slots|
  {
    Repeat(Kids(slots, s), VisitsAll(slots, height, ChildIndices(slots, slots[p].id, k), s, height(slots[p].id)))
  }

  /** Passing a child of `p` adds what the recursion into it appends. */
  lemma GatheredChild(slots: seq<Dashboard>, height: Id -> nat, p: nat, i: nat, s: nat)
    requires Arena(slots, height) && p < |slots| && i < |slots| - 1 && s < |slots|
    requires slots[i].parentId == Some(slots[p].id)
    ensures Gathered(slots, height, p, i + 1, s) == Gathered(slots, height, p, i, s) + Repeat(Kids(slots, s), Visits(slots, height, i, s))
  {
    var hp := height(slots[p].id);
    var found := ChildIndices(slots, slots[p].id, i);
    ChildIndicesBelow(slots, height, p, i);
    ChildIndicesBelow(slots, height, p, i + 1);
    var next := ChildIndices(slots, slots[p].id, i + 1);
    assert next == found + [i];
    VisitsAllSnoc(slots, height, found, i, s, hp);
    var before := VisitsAll(slots, height, found, s, hp);
    var added := Visits(slots, height, i, s);
    var total := VisitsAll(slots, height, next, s, hp);
    assert total == before + added;
    var kids := Kids(slots, s);
    assert Gathered(slots, height, p, i + 1, s) == Repeat(kids, total);
    assert Gathered(slots, height, p, i, s) == Repeat(kids, before);
    RepeatAdd(kids, before, added, total);
  }

  /** The recursion into a child never comes back to the parent. */
  lemma ChildNeverVisitsParent(slots: seq<Dashboard>, height: Id -> nat, p: nat, i: nat)
    requires Arena(slots, height) && p < |slots| && i < |slots| - 1
    requires slots[i].parentId == Some(slots[p].id)
    ensures Visits(slots, height, i, p) == 0
  {
    if Visits(slots, height, i, p) > 0 {
      VisitsBelow(slots, height, i, p);
    }
  }

  /** Passing any other dashboard adds nothing. */
  lemma GatheredOther(slots: seq<Dashboard>, height: Id -> nat, p: nat, i: nat, s: nat)
    requires Arena(slots, height) && p < |slots| && i < |slots| - 1 && s < |slots|
    requires slots[i].parentId != Some(slots[p].id)
    ensures Gathered(slots, height, p, i + 1, s) == Gathered(slots, height, p, i, s)
    ensures ChildIndices(slots, slots[p].id, i + 1) == ChildIndices(slots, slots[p].id, i)
  {
    assert ChildIndices(slots, slots[p].id, i) + [] == ChildIndices(slots, slots[p].id, i);
  }

  /** At the end of the scan a slot other than `p` has gathered one child list per visit. */
  lemma GatheredAll(slots: seq<Dashboard>, height: Id -> nat, p: nat, s: nat)
    requires Arena(slots, height) && p < |slots| && s < |slots| && s != p
    ensures Gathered(slots, height, p, |slots| - 1, s) == Repeat(Kids(slots, s), Visits(slots, height, p, s))
  {
    assert ChildIndices(slots, slots[p].id, |slots| - 1) == Kids(slots, p);
    assert Visits(slots, height, p, s) == VisitsAll(slots, height, Kids(slots, p), s, height(slots[p].id));
  }

  /**
   * Child lists `now` are `start` with, for every slot, its own child list
   * appended once per invocation that `recursiveHierarchy` from `p` makes on it.
   */
  ghost predicate AppendedPerVisit(slots: seq<Dashboard>, height: Id -> nat, p: nat, start: seq<seq<nat>>, now: seq<seq<nat>>)
    requires Arena(slots, height) && p < |slots|
  {
    && |start| == |slots| && |now| == |slots|
    && forall s :: 0 <= s < |slots| ==> now[s] == start[s] + Repeat(Kids(slots, s), Visits(slots, height, p, s))
  }

  /** The state of `recursiveHierarchy` from `p` once the scan has passed `k` dashboards. */
  ghost predicate Scanned(slots: seq<Dashboard>, height: Id -> nat, p: nat, k: nat, start: seq<seq<nat>>, now: seq<seq<nat>>)
    requires Arena(slots, height) && p < |slots| && k <= |slots| - 1
  {
    && |start| == |slots| && |now| == |slots|
    && now[p] == start[p] + ChildIndices(slots, slots[p].id, k)
    && forall s :: 0 <= s < |slots| && s != p ==> now[s] == start[s] + Gathered(slots, height, p, k, s)
  }

  lemma ScanStart(slots: seq<Dashboard>, height: Id -> nat, p: nat, start: seq<seq<nat>>)
    requires Arena(slots, height) && p < |slots| && |start| == |slots|
    ensures Scanned(slots, height, p, 0, start, start)
  {
    forall s | 0 <= s < |slots|
      ensures start[s] == start[s] + []
    {
    }
  }

  /** One scanned child: appended to `p`, then the recursion into it. */
  lemma ScanChild(slots: seq<Dashboard>, height: Id -> nat, p: nat, i: nat,
                  start: seq<seq<nat>>, before: seq<seq<nat>>, after: seq<seq<nat>>)
    requires Arena(slots, height) && p < |slots| && i < |slots| - 1
    requires slots[i].parentId == Some(slots[p].id)
    requires Scanned(slots, height, p, i, start, before)
    requires AppendedPerVisit(slots, height, i, before[p := before[p] + [i]], after)
    ensures Scanned(slots, height, p, i + 1, start, after)
  {
    forall s | 0 <= s < |slots| && s != p
      ensures after[s] == start[s] + Gathered(slots, height, p, i + 1, s)
    {
      ScanChildAt(slots, height, p, i, s, start[s], before[s], after[s]);
    }
    ScanChildParent(slots, height, p, i, start[p], before[p], after[p]);
  }

  /** What the scan of a child does to a slot other than `p`. */
  lemma ScanChildAt(slots: seq<Dashboard>, height: Id -> nat, p: nat, i: nat, s: nat,
                    start: seq<nat>, before: seq<nat>, after: seq<nat>)
    requires Arena(slots, height) && p < |slots| && i < |slots| - 1 && s < |slots|
    requires slots[i].parentId == Some(slots[p].id)
    requires before == start + Gathered(slots, height, p, i, s)
    requires after == before + Repeat(Kids(slots, s), Visits(slots, height, i, s))
    ensures after == start + Gathered(slots, height, p, i + 1, s)
  {
    var gathered := Gathered(slots, height, p, i, s);
    var added := Repeat(Kids(slots, s), Visits(slots, height, i, s));
    GatheredChild(slots, height, p, i, s);
    AppendAssociative(start, gathered, added);
  }

  lemma AppendAssociative(a: seq<nat>, b: seq<nat>, c: seq<nat>)
    ensures (a + b) + c == a + (b + c)
  {
  }

  /** What the scan of a child does to `p` itself: the child is appended and nothing else. */
  lemma ScanChildParent(slots: seq<Dashboard>, height: Id -> nat, p: nat, i: nat,
                        start: seq<nat>, before: seq<nat>, after: seq<nat>)
    requires Arena(slots, height) && p < |slots| && i < |slots| - 1
    requires slots[i].parentId == Some(slots[p].id)
    requires before == start + ChildIndices(slots, slots[p].id, i)
    requires after == before + [i] + Repeat(Kids(slots, p), Visits(slots, height, i, p))
    ensures after == start + ChildIndices(slots, slots[p].id, i + 1)
  {
    ChildNeverVisitsParent(slots, height, p, i);
    assert after == before + [i] + [];
    assert ChildIndices(slots, slots[p].id, i + 1) == ChildIndices(slots, slots[p].id, i) + [i];
  }

  /** A dashboard that is not a child of `p` is passed over. */
  lemma ScanOther(slots: seq<Dashboard>, height: Id -> nat, p: nat, i: nat, start: seq<seq<nat>>, now: seq<seq<nat>>)
    requires Arena(slots, height) && p < |slots| && i < |slots| - 1
    requires slots[i].parentId != Some(slots[p].id)
    requires Scanned(slots, height, p, i, start, now)
    ensures Scanned(slots, height, p, i + 1, start, now)
  {
    forall s | 0 <= s < |slots|
      ensures Gathered(slots, height, p, i + 1, s) == Gathered(slots, height, p, i, s)
    {
      GatheredOther(slots, height, p, i, s);
    }
    GatheredOther(slots, height, p, i, p);
  }

  /** At the end of the scan every slot has its child list once per visit. */
  lemma ScanEnd(slots: seq<Dashboard>, height: Id -> nat, p: nat, start: seq<seq<nat>>, now: seq<seq<nat>>)
    requires Arena(slots, height) && p < |slots|
    requires Scanned(slots, height, p, |slots| - 1, start, now)
    ensures AppendedPerVisit(slots, height, p, start, now)
  {
    forall s | 0 <= s < |slots| && s != p
      ensures Gathered(slots, height, p, |slots| - 1, s) == Repeat(Kids(slots, s), Visits(slots, height, p, s))
    {
      GatheredAll(slots, height, p, s);
    }
    VisitsSelf(slots, height, p);
    assert Repeat(Kids(slots, p), 1) == [] + Kids(slots, p);
    assert ChildIndices(slots, slots[p].id, |slots| - 1) == Kids(slots, p);
  }

  /**
   * The child lists `recursiveHierarchy` from `p` leaves behind when it
   * starts from `start`: the scan of every dashboard but the root.
   */
  ghost function Recursed(slots: seq<Dashboard>, height: Id -> nat, p: nat, start: seq<seq<nat>>): (r: seq<seq<nat>>)
    requires Arena(slots, height) && p < |slots| && |start| == |slots|
    ensures |r| == |slots|
    decreases height(slots[p].id), 1, 0
  {
    ScanFrom(slots, height, p, |slots| - 1, start)
  }

  /**
   * The child lists after the scan from `p` has passed `k` dashboards:
   * a child is appended to `p`'s list, then the recursion into it runs.
   */
  ghost function ScanFrom(slots: seq<Dashboard>, height: Id -> nat, p: nat, k: nat, start: seq<seq<nat>>): (r: seq<seq<nat>>)
    requires Arena(slots, height) && p < |slots| && k <= |slots| - 1 && |start| == |slots|
    ensures |r| == |slots|
    decreases height(slots[p].id), 0, k
  {
    if k == 0 then start
    else
      var before := ScanFrom(slots, height, p, k - 1, start);
      if slots[k - 1].parentId == Some(slots[p].id) then
        Recursed(slots, height, k - 1, before[p := before[p] + [k - 1]])
      else before
  }

  /** The scan from `p` keeps the invariant `Scanned` at every step. */
  lemma {:induction false} ScanFromScanned(slots: seq<Dashboard>, height: Id -> nat, p: nat, k: nat, start: seq<seq<nat>>)
    requires Arena(slots, height) && p < |slots| && k <= |slots| - 1 && |start| == |slots|
    ensures Scanned(slots, height, p, k, start, ScanFrom(slots, height, p, k, start))
    decreases height(slots[p].id), 0, k
  {
    if k == 0 {
      ScanStart(slots, height, p, start);
    } else {
      var before := ScanFrom(slots, height, p, k - 1, start);
      ScanFromScanned(slots, height, p, k - 1, start);
      if slots[k - 1].parentId == Some(slots[p].id) {
        var mid := before[p := before[p] + [k - 1]];
        RecursedAppends(slots, height, k - 1, mid);
        ScanChild(slots, height, p, k - 1, start, before, Recursed(slots, height, k - 1, mid));
      } else {
        ScanOther(slots, height, p, k - 1, start, before);
      }
    }
  }

  /**
   * What `recursiveHierarchy` from `p` does: every slot gets its own child
   * list appended once per invocation the recursion makes on it.
   */
  lemma {:induction false} RecursedAppends(slots: seq<Dashboard>, height: Id -> nat, p: nat, start: seq<seq<nat>>)
    requires Arena(slots, height) && p < |slots| && |start| == |slots|
    ensures AppendedPerVisit(slots, height, p, start, Recursed(slots, height, p, start))
    decreases height(slots[p].id), 1, 0
  {
    ScanFromScanned(slots, height, p, |slots| - 1, start);
    ScanEnd(slots, height, p, start, Recursed(slots, height, p, start));
  }

  /**
   * `recursiveHierarchy(dashboards, parent)`: for each scanned dashboard in
   * list order whose `parentId` equals the parent's id, append it to the
   * parent's `children` and recurse into it.
   */
  method RecursiveHierarchy(slots: seq<Dashboard>, kids: array<seq<nat>>, p: nat, ghost height: Id -> nat)
    requires Arena(slots, height) && kids.Length == |slots| && p < |slots|
    requires forall i :: 0 <= i < |slots| - 1 ==> slots[i].parentId.Some?
    modifies kids
    ensures kids[..] == Recursed(slots, height, p, old(kids[..]))
    decreases height(slots[p].id)
  {
    var id := slots[p].id;
    var i := 0;
    while i < |slots| - 1
      invariant 0 <= i <= |slots| - 1
      invariant kids[..] == ScanFrom(slots, height, p, i, old(kids[..]))
    {
      if slots[i].parentId.value == id {
        ghost var before := kids[..];
        kids[p] := kids[p] + [i];
        assert kids[..] == before[p := before[p] + [i]];
        RecursiveHierarchy(slots, kids, i, height);
      }
      i := i + 1;
    }
  }

  /**
   * The child lists `buildHierarchyTree` from `p` leaves behind when it
   * starts from `start`: `p` gets its children, then each child is built.
   */
  ghost function Built(slots: seq<Dashboard>, height: Id -> nat, p: nat, start: seq<seq<nat>>): (r: seq<seq<nat>>)
    requires Arena(slots, height) && p < |slots| && |start| == |slots|
    ensures |r| == |slots|
    decreases height(slots[p].id), 1, 0
  {
    BuildFrom(slots, height, p, |Kids(slots, p)|, start[p := Kids(slots, p)])
  }

  /** The child lists once the first `k` children of `p` have been built. */
  ghost function BuildFrom(slots: seq<Dashboard>, height: Id -> nat, p: nat, k: nat, start: seq<seq<nat>>): (r: seq<seq<nat>>)
    requires Arena(slots, height) && p < |slots| && k <= |Kids(slots, p)| && |start| == |slots|
    ensures |r| == |slots|
    decreases height(slots[p].id), 0, k
  {
    if k == 0 then start
    else
      var c := Kids(slots, p)[k - 1];
      assert c in Kids(slots, p);
      Built(slots, height, c, BuildFrom(slots, height, p, k - 1, start))
  }

  /**
   * Child lists `now` are `start` with every slot that `buildHierarchyTree`
   * from `p` visits holding exactly its own children.
   */
  ghost predicate ReplacedOnVisit(slots: seq<Dashboard>, height: Id -> nat, p: nat, start: seq<seq<nat>>, now: seq<seq<nat>>)
    requires Arena(slots, height) && p < |slots|
  {
    && |start| == |slots| && |now| == |slots|
    && forall s :: 0 <= s < |slots| ==> now[s] == if Visits(slots, height, p, s) > 0 then Kids(slots, s) else start[s]
  }

  /** The state once the first `k` children of `p` have been built. */
  ghost predicate BuiltUpTo(slots: seq<Dashboard>, height: Id -> nat, p: nat, k: nat, start: seq<seq<nat>>, now: seq<seq<nat>>)
    requires Arena(slots, height) && p < |slots| && k <= |Kids(slots, p)|
  {
    && |start| == |slots| && |now| == |slots|
    && now[p] == Kids(slots, p)
    && forall s :: 0 <= s < |slots| && s != p ==>
         now[s] == if VisitsAll(slots, height, Kids(slots, p)[..k], s, height(slots[p].id)) > 0 then Kids(slots, s) else start[s]
  }

  /** Building one more child of `p` replaces the lists of the slots it reaches and leaves `p`'s. */
  lemma BuildChildAt(slots: seq<Dashboard>, height: Id -> nat, p: nat, k: nat, s: nat,
                     start: seq<nat>, before: seq<nat>, after: seq<nat>)
    requires Arena(slots, height) && p < |slots| && k < |Kids(slots, p)| && s < |slots| && s != p
    requires Kids(slots, p)[k] < |slots|
    requires before == if VisitsAll(slots, height, Kids(slots, p)[..k], s, height(slots[p].id)) > 0 then Kids(slots, s) else start
    requires after == if Visits(slots, height, Kids(slots, p)[k], s) > 0 then Kids(slots, s) else before
    ensures after == if VisitsAll(slots, height, Kids(slots, p)[..k + 1], s, height(slots[p].id)) > 0 then Kids(slots, s) else start
  {
    var kids := Kids(slots, p);
    var c := kids[k];
    assert c in kids;
    KidsBelow(slots, height, p);
    BelowPrefix(slots, height, kids, height(slots[p].id), k);
    var bound := height(slots[p].id);
    SliceSnoc(kids, k);
    VisitsAllSnoc(slots, height, kids[..k], c, s, bound);
  }

  /** A prefix one longer is the prefix with the next element appended. */
  lemma SliceSnoc(xs: seq<nat>, k: nat)
    requires k < |xs|
    ensures xs[..k + 1] == xs[..k] + [xs[k]]
  {
  }

  /** `BuildFrom` keeps the invariant `BuiltUpTo` at every step. */
  lemma {:induction false} BuildFromBuilt(slots: seq<Dashboard>, height: Id -> nat, p: nat, k: nat, start: seq<seq<nat>>)
    requires Arena(slots, height) && p < |slots| && k <= |Kids(slots, p)| && |start| == |slots|
    ensures BuiltUpTo(slots, height, p, k, start, BuildFrom(slots, height, p, k, start[p := Kids(slots, p)]))
    decreases height(slots[p].id), 0, k, 1
  {
    if k == 0 {
      BuiltUpToStart(slots, height, p, start);
    } else {
      BuildStep(slots, height, p, k, start);
    }
  }

  /** Before any child is built, only `p` holds its children. */
  lemma BuiltUpToStart(slots: seq<Dashboard>, height: Id -> nat, p: nat, start: seq<seq<nat>>)
    requires Arena(slots, height) && p < |slots| && |start| == |slots|
    ensures BuiltUpTo(slots, height, p, 0, start, start[p := Kids(slots, p)])
  {
    assert Kids(slots, p)[..0] == [];
  }

  /** Building child `k - 1` of `p` on top of the first `k - 1` gives the invariant for `k`. */
  lemma {:induction false} BuildStep(slots: seq<Dashboard>, height: Id -> nat, p: nat, k: nat, start: seq<seq<nat>>)
    requires Arena(slots, height) && p < |slots| && 0 < k <= |Kids(slots, p)| && |start| == |slots|
    ensures BuiltUpTo(slots, height, p, k, start, BuildFrom(slots, height, p, k, start[p := Kids(slots, p)]))
    decreases height(slots[p].id), 0, k, 0
  {
    var kids := Kids(slots, p);
    var c := kids[k - 1];
    KidBelow(slots, height, p, c);
    var before := BuildFrom(slots, height, p, k - 1, start[p := kids]);
    var after := Built(slots, height, c, before);
    assert BuildFrom(slots, height, p, k, start[p := kids]) == after;
    BuildFromBuilt(slots, height, p, k - 1, start);
    BuiltReplaces(slots, height, c, before);
    BuiltUpToNext(slots, height, p, k, start, before, after);
  }

  /** The invariant for `k - 1` and the effect of building child `k - 1` give the invariant for `k`. */
  lemma BuiltUpToNext(slots: seq<Dashboard>, height: Id -> nat, p: nat, k: nat, start: seq<seq<nat>>,
                      before: seq<seq<nat>>, after: seq<seq<nat>>)
    requires Arena(slots, height) && p < |slots| && 0 < k <= |Kids(slots, p)| && |start| == |slots|
    requires Kids(slots, p)[k - 1] < |slots|
    requires BuiltUpTo(slots, height, p, k - 1, start, before)
    requires ReplacedOnVisit(slots, height, Kids(slots, p)[k - 1], before, after)
    ensures BuiltUpTo(slots, height, p, k, start, after)
  {
    var kids := Kids(slots, p);
    var j := k - 1;
    var c := kids[j];
    assert c in kids;
    forall s | 0 <= s < |slots| && s != p
      ensures after[s] == if VisitsAll(slots, height, kids[..k], s, height(slots[p].id)) > 0 then Kids(slots, s) else start[s]
    {
      assert j + 1 == k;
      BuildChildAt(slots, height, p, j, s, start[s], before[s], after[s]);
    }
    ChildNeverVisitsParent(slots, height, p, c);
  }

  /**
   * What `buildHierarchyTree` from `p` does: every slot it visits ends
   * with exactly its own children; every other slot keeps its list.
   */
  lemma {:induction false} BuiltReplaces(slots: seq<Dashboard>, height: Id -> nat, p: nat, start: seq<seq<nat>>)
    requires Arena(slots, height) && p < |slots| && |start| == |slots|
    ensures ReplacedOnVisit(slots, height, p, start, Built(slots, height, p, start))
    decreases height(slots[p].id), 1, 0, 0
  {
    var kids := Kids(slots, p);
    BuildFromBuilt(slots, height, p, |kids|, start);
    assert kids[..|kids|] == kids;
    VisitsSelf(slots, height, p);
  }

  /**
   * `buildHierarchyTree(parent, input)`: set the parent's `children` to the
   * scanned dashboards whose `parentId` equals its id, in list order, then
   * build each of them.
   */
  method BuildHierarchyTree(slots: seq<Dashboard>, kids: array<seq<nat>>, p: nat, ghost height: Id -> nat)
    requires Arena(slots, height) && kids.Length == |slots| && p < |slots|
    modifies kids
    ensures kids[..] == Built(slots, height, p, old(kids[..]))
    decreases height(slots[p].id)
  {
    var children := Kids(slots, p);
    kids[p] := children;
    assert kids[..] == old(kids[..])[p := children];
    var k := 0;
    while k < |children|
      invariant 0 <= k <= |children|
      invariant kids[..] == BuildFrom(slots, height, p, k, old(kids[..])[p := children])
    {
      BuildFromNext(slots, height, p, k, old(kids[..])[p := children]);
      BuildHierarchyTree(slots, kids, children[k], height);
      k := k + 1;
    }
  }

  /** Building child `k` of `p` is the next step of `BuildFrom`; the child sits below `p`. */
  lemma BuildFromNext(slots: seq<Dashboard>, height: Id -> nat, p: nat, k: nat, start: seq<seq<nat>>)
    requires Arena(slots, height) && p < |slots| && k < |Kids(slots, p)| && |start| == |slots|
    ensures Kids(slots, p)[k] < |slots| - 1 && height(slots[Kids(slots, p)[k]].id) < height(slots[p].id)
    ensures BuildFrom(slots, height, p, k + 1, start) == Built(slots, height, Kids(slots, p)[k], BuildFrom(slots, height, p, k, start))
  {
    KidBelow(slots, height, p, Kids(slots, p)[k]);
  }

  /** One empty child list per slot. */
  function NoChildren(n: nat): (r: seq<seq<nat>>)
    ensures |r| == n && forall i :: 0 <= i < n ==> r[i] == []
  {
    seq(n, _ => [])
  }

  /**
   * Started at the root from empty child lists, on the output of
   * `graphLookup`, the two builders produce the same lists: each slot's
   * children are exactly the scanned dashboards whose `parentId` is its id.
   */
  lemma BuildersAgree(slots: seq<Dashboard>, height: Id -> nat)
    requires Arena(slots, height) && Grounded(slots) && UniqueSlots(slots)
    ensures forall s :: 0 <= s < |slots| ==>
      Recursed(slots, height, Root(slots), NoChildren(|slots|))[s] == Kids(slots, s)
    ensures Built(slots, height, Root(slots), NoChildren(|slots|)) == Recursed(slots, height, Root(slots), NoChildren(|slots|))
  {
    var empty := NoChildren(|slots|);
    RecursedFromRoot(slots, height);
    BuiltFromRoot(slots, height);
    assert Built(slots, height, Root(slots), empty) == Recursed(slots, height, Root(slots), empty);
  }

  /** From the root and empty lists, `recursiveHierarchy` gives every slot exactly its own children. */
  lemma RecursedFromRoot(slots: seq<Dashboard>, height: Id -> nat)
    requires Arena(slots, height) && Grounded(slots) && UniqueSlots(slots)
    ensures forall s :: 0 <= s < |slots| ==>
      Recursed(slots, height, Root(slots), NoChildren(|slots|))[s] == Kids(slots, s)
  {
    var r := Recursed(slots, height, Root(slots), NoChildren(|slots|));
    VisitedOnce(slots, height);
    RecursedAppends(slots, height, Root(slots), NoChildren(|slots|));
    forall s | 0 <= s < |slots|
      ensures r[s] == Kids(slots, s)
    {
      assert Visits(slots, height, Root(slots), s) == 1;
      RepeatOnce(Kids(slots, s));
    }
  }

  /** From the root and empty lists, `buildHierarchyTree` gives every slot exactly its own children. */
  lemma BuiltFromRoot(slots: seq<Dashboard>, height: Id -> nat)
    requires Arena(slots, height) && Grounded(slots) && UniqueSlots(slots)
    ensures forall s :: 0 <= s < |slots| ==>
      Built(slots, height, Root(slots), NoChildren(|slots|))[s] == Kids(slots, s)
  {
    var b := Built(slots, height, Root(slots), NoChildren(|slots|));
    VisitedOnce(slots, height);
    BuiltReplaces(slots, height, Root(slots), NoChildren(|slots|));
    forall s | 0 <= s < |slots|
      ensures b[s] == Kids(slots, s)
    {
      assert Visits(slots, height, Root(slots), s) == 1;
    }
  }

  /** One copy of a list after the empty list is the list. */
  lemma RepeatOnce(xs: seq<nat>)
    ensures [] + Repeat(xs, 1) == xs
  {
    assert Repeat(xs, 1) == [] + xs;
  }

  /**
   * A clone of the root with a fresh, empty `children` list, then
   * `recursiveHierarchy` from it over the scanned dashboards, whose own
   * lists start empty: every slot ends with exactly its own children.
   */
  method HierarchyFromRoot(slots: seq<Dashboard>, ghost height: Id -> nat) returns (children: seq<seq<nat>>)
    requires Arena(slots, height) && Grounded(slots) && UniqueSlots(slots)
    ensures |children| == |slots|
    ensures forall s :: 0 <= s < |slots| ==> children[s] == Kids(slots, s)
  {
    var kids := new seq<nat>[|slots|](_ => []);
    assert kids[..] == NoChildren(|slots|);
    RecursiveHierarchy(slots, kids, Root(slots), height);
    children := kids[..];
    BuildersAgree(slots, height);
  }
}

=== FILE: query.dfy ===
/**
 * The collection operations the services ask of MongoDB, read over a
 * collection held as a sequence in natural (insertion) order: `find` with a
 * filter, `skip`/`limit`, `first`, `replaceOne`, `deleteOne` and
 * `deleteMany`.
 */
module Query {
  import opened Common

  /** `find(filter)`: the documents that match, in collection order. */
  function Select<T(!new)>(s: seq<T>, p: T -> bool): (r: seq<T>)
    ensures |r| <= |s|
    ensures forall x :: x in r <==> x in s && p(x)
  {
    if s == [] then [] else (if p(s[0]) then [s[0]] else []) + Select(s[1..], p)
  }

  /** Filtering a concatenation filters each part, so the relative order of the matches is kept. */
  lemma {:induction false} SelectAppend<T(!new)>(a: seq<T>, b: seq<T>, p: T -> bool)
    ensures Select(a + b, p) == Select(a, p) + Select(b, p)
  {
    if a == [] {
      assert a + b == b;
    } else {
      assert (a + b)[1..] == a[1..] + b;
      SelectAppend(a[1..], b, p);
    }
  }

  /** A filter that every document passes returns the collection unchanged. */
  lemma {:induction false} SelectEverything<T(!new)>(s: seq<T>, p: T -> bool)
    requires forall x :: x in s ==> p(x)
    ensures Select(s, p) == s
  {
    if s != [] {
      SelectEverything(s[1..], p);
    }
  }

  /** Two filters that agree on every document of the collection select the same documents. */
  lemma {:induction false} SelectCongruent<T(!new)>(s: seq<T>, p: T -> bool, q: T -> bool)
    requires forall x :: x in s ==> p(x) == q(x)
    ensures Select(s, p) == Select(s, q)
  {
    if s != [] {
      SelectCongruent(s[1..], p, q);
    }
  }

  /** A filter no document passes selects nothing. */
  lemma {:induction false} SelectNone<T(!new)>(s: seq<T>, p: T -> bool)
    requires forall x :: x in s ==> !p(x)
    ensures Select(s, p) == []
  {
    if s != [] {
      SelectNone(s[1..], p);
    }
  }

  /** Filtering twice is filtering once with the conjunction. */
  lemma {:induction false} SelectSelect<T(!new)>(s: seq<T>, p: T -> bool, q: T -> bool, pq: T -> bool)
    requires forall x :: pq(x) == (p(x) && q(x))
    ensures Select(Select(s, p), q) == Select(s, pq)
  {
    if s != [] {
      var head := if p(s[0]) then [s[0]] else [];
      assert Select(s, p) == head + Select(s[1..], p);
      SelectAppend(head, Select(s[1..], p), q);
      SelectSelect(s[1..], p, q, pq);
      assert Select(head, q) == if pq(s[0]) then [s[0]] else [] by {
        if p(s[0]) {
          assert head[1..] == [];
        }
      }
    }
  }

  /** No two documents share a key (a unique index, `_id` in particular). */
  predicate UniqueBy<T>(s: seq<T>, key: T -> string)
  {
    forall i, j :: 0 <= i < j < |s| ==> key(s[i]) != key(s[j])
  }

  /** Some document has key `k`. */
  predicate HasKey<T>(s: seq<T>, key: T -> string, k: string)
  {
    exists i :: 0 <= i < |s| && key(s[i]) == k
  }

  /** Under a unique key, two documents of the collection with the same key are the same document. */
  lemma KeyDetermines<T>(s: seq<T>, key: T -> string, x: T, y: T)
    requires UniqueBy(s, key) && x in s && y in s && key(x) == key(y)
    ensures x == y
  {
    var i :| 0 <= i < |s| && s[i] == x;
    var j :| 0 <= j < |s| && s[j] == y;
    assert key(s[i]) == key(s[j]);
  }

  /** Appending a document whose key is new keeps keys unique. */
  lemma UniqueAppend<T>(s: seq<T>, key: T -> string, x: T)
    requires UniqueBy(s, key) && !HasKey(s, key, key(x))
    ensures UniqueBy(s + [x], key)
  {
    forall i, j | 0 <= i < j < |s + [x]|
      ensures key((s + [x])[i]) != key((s + [x])[j])
    {
      if j == |s| {
        assert (s + [x])[i] == s[i];
      }
    }
  }

  /** A filter keeps keys unique. */
  lemma {:induction false} UniqueSelect<T(!new)>(s: seq<T>, key: T -> string, p: T -> bool)
    requires UniqueBy(s, key)
    ensures UniqueBy(Select(s, p), key)
  {
    if s != [] {
      UniqueSelect(s[1..], key, p);
      var rest := Select(s[1..], p);
      if p(s[0]) {
        forall j | 0 <= j < |rest|
          ensures key(s[0]) != key(rest[j])
        {
          assert rest[j] in s[1..];
          var k :| 0 <= k < |s[1..]| && s[1..][k] == rest[j];
          assert s[k + 1] == rest[j];
        }
        assert Select(s, p) == [s[0]] + rest;
      }
    }
  }

  /** The keys of a filtered collection are keys of the collection. */
  lemma SelectKeys<T(!new)>(s: seq<T>, key: T -> string, p: T -> bool, k: string)
    requires HasKey(Select(s, p), key, k)
    ensures HasKey(s, key, k)
  {
    var i :| 0 <= i < |Select(s, p)| && key(Select(s, p)[i]) == k;
    assert Select(s, p)[i] in s;
  }

  /**
   * `.skip(skip).limit(limit)` on a find: drop the first `skip` documents,
   * then keep at most `limit` of the rest; a limit of 0 means no limit.
   */
  function Page<T>(s: seq<T>, skip: nat, limit: nat): (r: seq<T>)
    ensures skip >= |s| ==> r == []
    ensures skip < |s| ==> |r| == if limit == 0 || limit > |s| - skip then |s| - skip else limit
    ensures forall k :: 0 <= k < |r| ==> skip + k < |s| && r[k] == s[skip + k]
  {
    if skip >= |s| then []
    else if limit == 0 || limit > |s| - skip then s[skip..]
    else s[skip..skip + limit]
  }

  /** A page never holds more than `limit` documents (when a limit is set). */
  lemma PageBound<T>(s: seq<T>, skip: nat, limit: nat)
    requires limit > 0
    ensures |Page(s, skip, limit)| <= limit
  {
  }

  /** Every document inside the window `skip .. skip + limit` is on the page, at its offset from `skip`. */
  lemma PageWindow<T>(s: seq<T>, skip: nat, limit: nat, i: nat)
    requires skip <= i < |s| && (limit == 0 || i < skip + limit)
    ensures i - skip < |Page(s, skip, limit)| && Page(s, skip, limit)[i - skip] == s[i]
  {
    var k := i - skip;
    assert skip + k == i;
  }

  /**
   * The positions from `i` on of the documents of `s` matching `p`, in
   * increasing order: the places `Select` takes its documents from.
   */
  function Positions<T>(s: seq<T>, p: T -> bool, i: nat): (r: seq<nat>)
    requires i <= |s|
    ensures forall k :: 0 <= k < |r| ==> i <= r[k] < |s| && p(s[r[k]])
    ensures forall j, k :: 0 <= j < k < |r| ==> r[j] < r[k]
    decreases |s| - i
  {
    if i == |s| then []
    else (if p(s[i]) then [i] else []) + Positions(s, p, i + 1)
  }

  /** `Select` keeps the matching documents in collection order: its `k`-th result sits at the `k`-th matching position. */
  lemma {:induction false} SelectPositions<T(!new)>(s: seq<T>, p: T -> bool, i: nat)
    requires i <= |s|
    ensures |Positions(s, p, i)| == |Select(s[i..], p)|
    ensures forall k :: 0 <= k < |Select(s[i..], p)| ==> Select(s[i..], p)[k] == s[Positions(s, p, i)[k]]
    decreases |s| - i
  {
    if i < |s| {
      SelectPositions(s, p, i + 1);
      assert s[i..][1..] == s[i + 1..];
      assert s[i..][0] == s[i];
    }
  }

  /** `find(filter).first()`: the first matching document, or null. */
  function First<T(!new)>(s: seq<T>, p: T -> bool): (r: Option<T>)
    ensures r.None? <==> forall x :: x in s ==> !p(x)
    ensures r.Some? ==> r.value in s && p(r.value)
    ensures r.Some? ==> exists k :: 0 <= k < |s| && s[k] == r.value && forall j :: 0 <= j < k ==> !p(s[j])
  {
    if s == [] then None
    else if p(s[0]) then Some(s[0])
    else
      var r := First(s[1..], p);
      assert r.Some? ==> exists k :: 1 <= k < |s| && s[k] == r.value && forall j :: 0 <= j < k ==> !p(s[j]) by {
        if r.Some? {
          var k :| 0 <= k < |s[1..]| && s[1..][k] == r.value && forall j :: 0 <= j < k ==> !p(s[1..][j]);
          assert s[k + 1] == r.value;
          assert forall j :: 0 <= j < k + 1 ==> !p(s[j]) by {
            forall j | 0 <= j < k + 1 ensures !p(s[j]) {
              if j > 0 { assert s[j] == s[1..][j - 1]; }
            }
          }
        }
      }
      r
  }

  /** `replaceOne(filter, x)`: the first matching document is replaced by `x` in place. */
  function ReplaceFirst<T(!new)>(s: seq<T>, p: T -> bool, x: T): (r: seq<T>)
    ensures |r| == |s|
    ensures forall k :: 0 <= k < |s| && r[k] != s[k] ==> r[k] == x && p(s[k])
    ensures (exists y :: y in s && p(y)) ==> x in r
    ensures (forall y :: y in s ==> !p(y)) ==> r == s
  {
    if s == [] then []
    else if p(s[0]) then [x] + s[1..]
    else [s[0]] + ReplaceFirst(s[1..], p, x)
  }

  /** `deleteOne(filter)`: the first matching document is removed. */
  function RemoveFirst<T(!new)>(s: seq<T>, p: T -> bool): (r: seq<T>)
    ensures (forall y :: y in s ==> !p(y)) ==> r == s
    ensures (exists y :: y in s && p(y)) ==> |r| == |s| - 1
    ensures forall y :: y in r ==> y in s
    ensures forall y :: y in s && !p(y) ==> y in r
  {
    if s == [] then []
    else if p(s[0]) then s[1..]
    else [s[0]] + RemoveFirst(s[1..], p)
  }

  /** The filter `eq(<key>, k)`. */
  function KeyIs<T>(key: T -> string, k: string): T -> bool
  {
    (x: T) => key(x) == k
  }

  /** The filter `ne(<key>, k)`. */
  function KeyIsNot<T>(key: T -> string, k: string): T -> bool
  {
    (x: T) => key(x) != k
  }

  /** A suffix of a collection with unique keys has unique keys. */
  lemma UniqueTail<T>(s: seq<T>, key: T -> string)
    requires s != [] && UniqueBy(s, key)
    ensures UniqueBy(s[1..], key)
    ensures forall j :: 0 <= j < |s[1..]| ==> key(s[1..][j]) != key(s[0])
  {
    forall i, j | 0 <= i < j < |s[1..]|
      ensures key(s[1..][i]) != key(s[1..][j])
    {
      assert s[1..][i] == s[i + 1] && s[1..][j] == s[j + 1];
    }
  }

  /**
   * Under a unique key, `replaceOne(eq(key, key(x)), x)` puts `x` exactly
   * where a document with its key was, leaves every other document alone
   * and keeps the keys unique.
   */
  lemma {:induction false} ReplaceByKey<T(!new)>(s: seq<T>, key: T -> string, x: T)
    requires UniqueBy(s, key)
    ensures forall i :: 0 <= i < |s| ==>
      ReplaceFirst(s, KeyIs(key, key(x)), x)[i] == if key(s[i]) == key(x) then x else s[i]
    ensures UniqueBy(ReplaceFirst(s, KeyIs(key, key(x)), x), key)
  {
    var r := ReplaceFirst(s, KeyIs(key, key(x)), x);
    if s != [] {
      UniqueTail(s, key);
      if key(s[0]) != key(x) {
        ReplaceByKey(s[1..], key, x);
        assert r == [s[0]] + ReplaceFirst(s[1..], KeyIs(key, key(x)), x);
      }
      assert forall i :: 0 <= i < |s| ==> key(r[i]) == key(s[i]);
    }
  }

  /** Under a unique key, `deleteOne(eq(key, k))` removes just the document with key `k`, keeping the order of the rest. */
  lemma {:induction false} RemoveByKey<T(!new)>(s: seq<T>, key: T -> string, k: string)
    requires UniqueBy(s, key)
    ensures RemoveFirst(s, KeyIs(key, k)) == Select(s, KeyIsNot(key, k))
  {
    if s != [] {
      UniqueTail(s, key);
      if key(s[0]) == k {
        assert forall y :: y in s[1..] ==> KeyIsNot(key, k)(y);
        SelectEverything(s[1..], KeyIsNot(key, k));
      } else {
        RemoveByKey(s[1..], key, k);
      }
    }
  }

  /** `find(eq(key, k)).first()` finds a document exactly when one has key `k`. */
  lemma FindByKey<T(!new)>(s: seq<T>, key: T -> string, k: string)
    ensures First(s, KeyIs(key, k)).Some? <==> HasKey(s, key, k)
    ensures First(s, KeyIs(key, k)).Some? ==> key(First(s, KeyIs(key, k)).value) == k
  {
    var r := First(s, KeyIs(key, k));
    if HasKey(s, key, k) {
      var i :| 0 <= i < |s| && key(s[i]) == k;
      assert s[i] in s;
    }
  }
}

=== FILE: requests.dfy ===
/** The login request body and its constraints. */
module Requests {
  import opened Common
  import opened Validation

  datatype AuthUserRequest = AuthUserRequest(username: Option<string>, password: Option<string>)

  function AuthUserRequestViolations(q: AuthUserRequest): seq<Violation>
  {
    NotEmpty("username", q.username, "Username cannot be empty!")
    + MinSize("username", q.username, 5, "Username should have at least 5 characters!")
    + NotEmpty("password", q.password, "Password cannot be empty!")
    + MinSize("password", q.password, 5, "Password should have at least 5 characters!")
  }

  /** A request is valid exactly when both fields are present with at least 5 UTF-16 code units. */
  lemma AuthUserRequestValidity(q: AuthUserRequest)
    ensures AuthUserRequestViolations(q) == [] <==>
      q.username.Some? && Utf16Length(q.username.value) >= 5 && q.password.Some? && Utf16Length(q.password.value) >= 5
  {
  }

  /** Each field draws its own messages: emptiness, then length. */
  lemma AuthUserRequestMessages(q: AuthUserRequest)
    requires q.password.Some? && Utf16Length(q.password.value) >= 5
    ensures q.username.None? ==> AuthUserRequestViolations(q) == [Violation("username", "Username cannot be empty!")]
    ensures q.username.Some? && 0 < Utf16Length(q.username.value) < 5 ==>
      AuthUserRequestViolations(q) == [Violation("username", "Username should have at least 5 characters!")]
  {
  }

  /** The password rules mirror the username rules. */
  lemma AuthUserRequestPasswordMessages(q: AuthUserRequest)
    requires q.username.Some? && Utf16Length(q.username.value) >= 5
    ensures q.password.None? ==> AuthUserRequestViolations(q) == [Violation("password", "Password cannot be empty!")]
    ensures q.password.Some? && 0 < Utf16Length(q.password.value) < 5 ==>
      AuthUserRequestViolations(q) == [Violation("password", "Password should have at least 5 characters!")]
  {
  }

  /** Five characters is enough for both fields. */
  lemma FiveCharactersAccepted(u: string, p: string)
    requires |u| == 5 && |p| == 5
    ensures AuthUserRequestViolations(AuthUserRequest(Some(u), Some(p))) == []
  {
  }
}

=== FILE: roles.dfy ===
/** The Role record and the constraint on its name. */
module Roles {
  import opened Common
  import opened Validation

  datatype Role = Role(id: Id, name: Option<string>, readACL: seq<string>, writeACL: seq<string>)

  /** `@NotEmpty` then `@Size(min = 5)` on `name`, with the messages as declared. */
  function RoleViolations(r: Role): seq<Violation>
  {
    NotEmpty("name", r.name, "cannot be empty!")
    + MinSize("name", r.name, 5, "should have at least 2 characters")
  }

  /** A role is valid exactly when its name has at least 5 UTF-16 code units. */
  lemma RoleValidity(r: Role)
    ensures RoleViolations(r) == [] <==> r.name.Some? && Utf16Length(r.name.value) >= 5
  {
  }

  /**
   * A name of 2 to 4 characters is refused, and the only complaint is the
   * size message, which speaks of 2 characters.
   */
  lemma ShortRoleNameRefused(r: Role)
    requires r.name.Some? && 2 <= Utf16Length(r.name.value) <= 4
    ensures RoleViolations(r) == [Violation("name", "should have at least 2 characters")]
  {
  }

  /** A missing name draws only the emptiness message; an empty one draws both. */
  lemma MissingRoleName(r: Role)
    ensures r.name.None? ==> RoleViolations(r) == [Violation("name", "cannot be empty!")]
    ensures r.name == Some("") ==>
      RoleViolations(r) == [Violation("name", "cannot be empty!"), Violation("name", "should have at least 2 characters")]
  {
  }
}

=== FILE: store.dfy ===
/**
 * The MongoDB database the services share, held in memory: one sequence
 * per collection, in natural order, each with its unique index on `_id`.
 */
module Store {
  import opened Common
  import opened Query
  import opened Users
  import opened Contents
  import opened Dashboards

  class Database {
    /** The "dashboards" collection. */
    var dashboards: seq<Dashboard>
    /** The "dashboardsSmall" collection, which `hierarchy2` and dashboard `delete` read. */
    var dashboardsSmall: seq<Dashboard>
    /** The "dashboardsContent" collection. */
    var contents: seq<Content>
    /** The "users" collection. */
    var users: seq<User>

    /** The unique index on `_id` of every collection. */
    ghost predicate Valid()
      reads this
    {
      && UniqueBy(dashboards, DashboardKey)
      && UniqueBy(dashboardsSmall, DashboardKey)
      && UniqueBy(contents, ContentKey)
      && UniqueBy(users, UserKey)
    }

    /** An empty database. */
    constructor ()
      ensures dashboards == [] && dashboardsSmall == [] && contents == [] && users == []
      ensures Valid()
    {
      dashboards := [];
      dashboardsSmall := [];
      contents := [];
      users := [];
    }
  }

  /**
   * `find(eq("_id", id)).first()` followed by the permission check of the
   * update and delete operations: NOT_FOUND when no document has the id,
   * then FORBIDDEN when the document found fails `writable`; otherwise
   * that document.
   */
  function FindWritable<T(!new)>(store: seq<T>, key: T -> string, id: string, writable: T -> bool): (r: Result<T>)
    ensures r == Failure(NotFound) <==> !HasKey(store, key, id)
    ensures r.Failure? ==> r.status == NotFound || r.status == Forbidden
    ensures r.Success? ==> r.value in store && key(r.value) == id && writable(r.value)
    ensures UniqueBy(store, key) ==> (r.Success? <==> exists x :: x in store && key(x) == id && writable(x))
  {
    FindByKey(store, key, id);
    match First(store, KeyIs(key, id))
    case None => Failure(NotFound)
    case Some(x) =>
      assert UniqueBy(store, key) ==> forall y :: y in store && key(y) == id ==> y == x by {
        if UniqueBy(store, key) {
          forall y | y in store && key(y) == id ensures y == x {
            KeyDetermines(store, key, x, y);
          }
        }
      }
      if writable(x) then Success(x) else Failure(Forbidden)
  }

  /** NOT_FOUND is decided before, and regardless of, the permission check. */
  lemma MissingBeforeForbidden<T(!new)>(store: seq<T>, key: T -> string, id: string, writable: T -> bool, other: T -> bool)
    requires FindWritable(store, key, id, writable) == Failure(NotFound)
    ensures FindWritable(store, key, id, other) == Failure(NotFound)
  {
  }
}

=== FILE: tokens.dfy ===
/**
 * Token lookup: `ServiceUtils.extractIdFrom`, `getUserFrom(mongoDB, id)`
 * and `verifyTokenFor`, chained by the authenticated action.  Decoding the
 * payload's bytes and parsing its JSON for "iss" is the parameter
 * `issuerOf`; the HMAC256 verifier is the parameter `verify`.  Java's
 * `String.split` and the acceptance rule of the basic Base64 decoder are
 * written out.
 */
module Tokens {
  import opened Common
  import opened Query
  import opened Users

  /** The segments of `s` between occurrences of `c`, empty ones included. */
  function SplitOn(s: string, c: char): (r: seq<string>)
    ensures |r| >= 1
    ensures forall k :: 0 <= k < |r| ==> c !in r[k]
    decreases |s|
  {
    if s == [] then [[]]
    else
      var rest := SplitOn(s[1..], c);
      if s[0] == c then [[]] + rest
      else
        assert s[0] != c && c !in rest[0];
        [[s[0]] + rest[0]] + rest[1..]
  }

  /** Segments glued back with `c` between them. */
  function JoinOn(parts: seq<string>, c: char): string
    requires |parts| >= 1
    decreases |parts|
  {
    if |parts| == 1 then parts[0] else parts[0] + [c] + JoinOn(parts[1..], c)
  }

  /** Splitting loses nothing: joining the segments gives the text back. */
  lemma {:induction false} SplitJoin(s: string, c: char)
    ensures JoinOn(SplitOn(s, c), c) == s
    decreases |s|
  {
    if s != [] {
      var rest := SplitOn(s[1..], c);
      SplitJoin(s[1..], c);
      if s[0] == c {
        assert SplitOn(s, c) == [[]] + rest;
        assert ([[]] + rest)[1..] == rest;
      } else {
        var r := SplitOn(s, c);
        assert r == [[s[0]] + rest[0]] + rest[1..];
        assert r[1..] == rest[1..];
        if |rest| > 1 {
          assert JoinOn(rest, c) == rest[0] + [c] + JoinOn(rest[1..], c);
        }
        assert [s[0]] + s[1..] == s;
      }
    }
  }

  /** Text before the first `c` is the first segment; the rest is split on its own. */
  lemma {:induction false} SplitAfterFirst(a: string, c: char, b: string)
    requires c !in a
    ensures SplitOn(a + [c] + b, c) == [a] + SplitOn(b, c)
    decreases |a|
  {
    if a == [] {
      assert a + [c] + b == [c] + b;
      assert ([c] + b)[1..] == b;
    } else {
      assert (a + [c] + b)[1..] == a[1..] + [c] + b;
      SplitAfterFirst(a[1..], c, b);
      assert [a[0]] + a[1..] == a;
    }
  }

  /** Text without `c` is a single segment. */
  lemma {:induction false} SplitWithout(a: string, c: char)
    requires c !in a
    ensures SplitOn(a, c) == [a]
    decreases |a|
  {
    if a != [] {
      SplitWithout(a[1..], c);
      assert [a[0]] + a[1..] == a;
    }
  }

  /** The list without its trailing empty strings. */
  function DropTrailingEmpty(parts: seq<string>): (r: seq<string>)
    ensures r <= parts
    ensures r == [] || r[|r| - 1] != []
    ensures forall k :: |r| <= k < |parts| ==> parts[k] == []
    decreases |parts|
  {
    if parts == [] then []
    else if parts[|parts| - 1] == [] then DropTrailingEmpty(parts[..|parts| - 1])
    else parts
  }

  /**
   * `s.split("\\.")`: the text itself when it holds no '.', otherwise its
   * '.'-separated segments with trailing empty ones removed.
   */
  function JavaSplit(s: string): (r: seq<string>)
    ensures '.' !in s ==> r == [s]
    ensures '.' in s ==> r <= SplitOn(s, '.') && forall k :: |r| <= k < |SplitOn(s, '.')| ==> SplitOn(s, '.')[k] == []
    ensures '.' in s ==> r == [] || r[|r| - 1] != []
    ensures forall k :: 0 <= k < |r| ==> '.' !in r[k]
  {
    if '.' !in s then [s] else DropTrailingEmpty(SplitOn(s, '.'))
  }

  /** "a." loses its empty last segment: Java's `split` drops trailing empty strings. */
  lemma TrailingDotDropped()
    ensures SplitOn("a.", '.') == ["a", ""]
    ensures JavaSplit("a.") == ["a"]
  {
    SplitAfterFirst("a", '.', "");
    assert "a." == "a" + ['.'] + "";
  }

  /** A token `header.payload.signature` with a non-empty signature splits into exactly its three segments. */
  lemma ThreeSegments(header: string, payload: string, signature: string)
    requires '.' !in header && '.' !in payload && '.' !in signature && signature != []
    ensures JavaSplit(header + "." + payload + "." + signature) == [header, payload, signature]
  {
    var t := header + "." + payload + "." + signature;
    assert t == header + ['.'] + (payload + ['.'] + signature);
    assert t[|header|] == '.';
    SplitAfterFirst(header, '.', payload + ['.'] + signature);
    SplitAfterFirst(payload, '.', signature);
    SplitWithout(signature, '.');
    assert SplitOn(t, '.') == [header, payload, signature];
  }

  /** A character of the basic Base64 alphabet (table 1 of RFC 4648, section 4). */
  predicate IsBase64Char(ch: char)
  {
    ('A' <= ch <= 'Z') || ('a' <= ch <= 'z') || ('0' <= ch <= '9') || ch == '+' || ch == '/'
  }

  /** The text before the trailing '=' padding (at most two characters of it). */
  function Unpadded(s: string): (r: string)
    ensures r <= s && |s| - 2 <= |r|
    ensures forall i :: |r| <= i < |s| ==> s[i] == '='
  {
    if |s| >= 2 && s[|s| - 2] == '=' && s[|s| - 1] == '=' then s[..|s| - 2]
    else if |s| >= 1 && s[|s| - 1] == '=' then s[..|s| - 1]
    else s
  }

  /**
   * What `Base64.getDecoder().decode` accepts: alphabet characters, then
   * no padding (a final unit of one character is refused), "=" after a
   * final unit of three, or "==" after a final unit of two.
   */
  predicate IsBasicBase64(s: string)
    ensures IsBasicBase64(s) ==> |s| % 4 != 1
    ensures IsBasicBase64(s) ==> forall i :: 0 <= i < |s| ==> IsBase64Char(s[i]) || s[i] == '='
  {
    var body := Unpadded(s);
    && (forall i :: 0 <= i < |body| ==> IsBase64Char(body[i]))
    && (if |s| == |body| then |body| % 4 != 1
        else if |s| == |body| + 1 then |body| % 4 == 3
        else |body| % 4 == 2)
  }

  /**
   * The basic decoder refuses the URL-safe alphabet (RFC 4648, section 5):
   * a segment holding '-' or '_' never decodes.
   */
  lemma UrlSafeRefused(s: string, i: nat)
    requires i < |s| && (s[i] == '-' || s[i] == '_')
    ensures !IsBasicBase64(s)
  {
    var body := Unpadded(s);
    assert i < |body|;
    assert !IsBase64Char(body[i]);
  }

  /** Complete four-character units of the alphabet always decode. */
  lemma WholeUnitsAccepted(s: string)
    requires |s| % 4 == 0 && forall i :: 0 <= i < |s| ==> IsBase64Char(s[i])
    ensures IsBasicBase64(s)
  {
    if |s| >= 1 {
      assert s[|s| - 1] != '=';
    }
  }

  /** Why a lookup failed where no RequestException was thrown: the exception the code lets escape. */
  datatype Cause =
    | NullToken        // no "token" header: `token.split` on null
    | MissingSegment   // fewer than two segments: index 1 out of bounds
    | IllegalBase64    // the basic decoder refuses the second segment
    | NoIssuer         // the payload's JSON has no "iss"
    | IllegalObjectId  // `new ObjectId(id)` refuses the issuer
    | BadSignature     // the verifier refuses the token

  /** A failure: a RequestException with its status, or an exception no handler turns into one. */
  datatype Fault = Rejected(status: Status) | Unhandled(cause: Cause)

  /** The outcome of a step of the authentication chain. */
  datatype Attempt<+T> = Ok(value: T) | Err(fault: Fault)

  /**
   * `extractIdFrom(token)`: the issuer named in the token's second
   * '.'-separated segment, read with the basic Base64 decoder.
   */
  function ExtractIdFrom(token: Option<string>, issuerOf: string -> Option<string>): (r: Attempt<string>)
    ensures token.None? ==> r == Err(Unhandled(NullToken))
    ensures token.Some? && |JavaSplit(token.value)| < 2 ==> r == Err(Unhandled(MissingSegment))
    ensures token.Some? && |JavaSplit(token.value)| >= 2 ==>
      (r == Err(Unhandled(IllegalBase64)) <==> !IsBasicBase64(JavaSplit(token.value)[1]))
    ensures r.Ok? ==> token.Some? && |JavaSplit(token.value)| >= 2 && issuerOf(JavaSplit(token.value)[1]) == Some(r.value)
    ensures token.Some? && |JavaSplit(token.value)| >= 2 && IsBasicBase64(JavaSplit(token.value)[1]) ==>
      && (r.Ok? <==> issuerOf(JavaSplit(token.value)[1]).Some?)
      && (r.Err? ==> r.fault == Unhandled(NoIssuer))
    ensures r.Err? ==> r.fault.Unhandled?
  {
    if token.None? then Err(Unhandled(NullToken))
    else
      var parts := JavaSplit(token.value);
      if |parts| < 2 then Err(Unhandled(MissingSegment))
      else if !IsBasicBase64(parts[1]) then Err(Unhandled(IllegalBase64))
      else match issuerOf(parts[1])
        case None => Err(Unhandled(NoIssuer))
        case Some(iss) => Ok(iss)
  }

  /** Only the payload segment of a three-segment token is read: header and signature never matter. */
  lemma ExtractReadsOnlyPayload(h: string, p: string, s: string, h': string, s': string, issuerOf: string -> Option<string>)
    requires '.' !in h && '.' !in p && '.' !in s && s != []
    requires '.' !in h' && '.' !in s' && s' != []
    ensures ExtractIdFrom(Some(h + "." + p + "." + s), issuerOf) == ExtractIdFrom(Some(h' + "." + p + "." + s'), issuerOf)
  {
    ThreeSegments(h, p, s);
    ThreeSegments(h', p, s');
  }

  /** A token whose payload segment is written in the URL-safe alphabet fails to decode. */
  lemma UrlSafePayloadRefused(h: string, p: string, s: string, i: nat, issuerOf: string -> Option<string>)
    requires '.' !in h && '.' !in p && '.' !in s && s != []
    requires i < |p| && (p[i] == '-' || p[i] == '_')
    ensures ExtractIdFrom(Some(h + "." + p + "." + s), issuerOf) == Err(Unhandled(IllegalBase64))
  {
    ThreeSegments(h, p, s);
    UrlSafeRefused(p, i);
  }

  /**
   * `getUserFrom(mongoDB, id)`: the stored user whose `_id` is `id`;
   * NOT_FOUND when there is none.
   */
  function GetUserFrom(users: seq<User>, id: string): (r: Attempt<User>)
    ensures !IsValidObjectId(id) ==> r == Err(Unhandled(IllegalObjectId))
    ensures IsValidObjectId(id) ==>
      (r == Err(Rejected(NotFound)) <==> !HasKey(users, UserKey, ParseObjectId(id).value))
    ensures r.Ok? ==> r.value in users && Some(r.value.id) == ParseObjectId(id)
  {
    match ParseObjectId(id)
    case None => Err(Unhandled(IllegalObjectId))
    case Some(oid) =>
      FindByKey(users, UserKey, oid);
      match First(users, KeyIs(UserKey, oid))
      case None => Err(Rejected(NotFound))
      case Some(u) => Ok(u)
  }

  /** Under unique `_id`s, the user found is the one stored under that id. */
  lemma GetUserFromFindsOwner(users: seq<User>, u: User)
    requires UniqueBy(users, UserKey) && u in users && IsCanonicalId(u.id)
    ensures GetUserFrom(users, u.id) == Ok(u)
  {
    CanonicalIdRoundTrip(u.id);
    var i :| 0 <= i < |users| && users[i] == u;
    assert UserKey(users[i]) == u.id;
    KeyDetermines(users, UserKey, GetUserFrom(users, u.id).value, u);
  }

  /**
   * `verifyTokenFor(user, token)`: the verifier pinned to the user's id as
   * issuer; the same user on success.
   */
  function VerifyTokenFor(user: User, token: string, verify: (string, string) -> bool): (r: Attempt<User>)
    ensures r.Ok? <==> verify(user.id, token)
    ensures r.Ok? ==> r.value == user
    ensures r.Err? ==> r.fault == Unhandled(BadSignature)
  {
    if verify(user.id, token) then Ok(user) else Err(Unhandled(BadSignature))
  }

  /**
   * The authenticated action: the token header, then `extractIdFrom`,
   * `getUserFrom` and `verifyTokenFor` in turn, the first failure ending
   * the chain.  Every failure reaches the action wrapped in a
   * CompletionException, which it rethrows as it is.
   */
  function Authenticated(token: Option<string>, users: seq<User>, issuerOf: string -> Option<string>, verify: (string, string) -> bool): (r: Attempt<User>)
    ensures r.Ok? ==>
      && token.Some?
      && r.value in users
      && ExtractIdFrom(token, issuerOf).Ok?
      && Some(r.value.id) == ParseObjectId(ExtractIdFrom(token, issuerOf).value)
      && verify(r.value.id, token.value)
    ensures ExtractIdFrom(token, issuerOf).Err? ==> r == Err(ExtractIdFrom(token, issuerOf).fault)
    ensures ExtractIdFrom(token, issuerOf).Ok? ==>
      var found := GetUserFrom(users, ExtractIdFrom(token, issuerOf).value);
      && (found.Err? ==> r == Err(found.fault))
      && (found.Ok? ==> (r.Ok? <==> verify(found.value.id, token.value)))
      && (found.Ok? && r.Ok? ==> r.value == found.value)
      && (found.Ok? && r.Err? ==> r.fault == Unhandled(BadSignature))
  {
    match ExtractIdFrom(token, issuerOf)
    case Err(f) => Err(f)
    case Ok(id) =>
      match GetUserFrom(users, id)
      case Err(f) => Err(f)
      case Ok(user) => VerifyTokenFor(user, token.value, verify)
  }

  /**
   * A token that names a stored user and that the verifier accepts for
   * that user admits exactly that user.
   */
  lemma StoredVerifiedTokenAdmitted(token: Option<string>, users: seq<User>, u: User,
                                    issuerOf: string -> Option<string>, verify: (string, string) -> bool)
    requires UniqueBy(users, UserKey) && u in users && IsCanonicalId(u.id)
    requires token.Some? && ExtractIdFrom(token, issuerOf) == Ok(u.id) && verify(u.id, token.value)
    ensures Authenticated(token, users, issuerOf, verify) == Ok(u)
  {
    GetUserFromFindsOwner(users, u);
  }

  /**
   * The action's handler for JWTVerificationException is never reached: a
   * token the verifier refuses ends as an unhandled failure, not as
   * BAD_REQUEST, and no failure of the chain is BAD_REQUEST.
   */
  lemma RefusedTokenIsNotBadRequest(token: Option<string>, users: seq<User>, issuerOf: string -> Option<string>, verify: (string, string) -> bool)
    ensures Authenticated(token, users, issuerOf, verify) != Err(Rejected(BadRequest))
    ensures
      && ExtractIdFrom(token, issuerOf).Ok?
      && GetUserFrom(users, ExtractIdFrom(token, issuerOf).value).Ok?
      && !verify(GetUserFrom(users, ExtractIdFrom(token, issuerOf).value).value.id, token.value)
      ==> Authenticated(token, users, issuerOf, verify) == Err(Unhandled(BadSignature))
  {
    var r := Authenticated(token, users, issuerOf, verify);
    var e := ExtractIdFrom(token, issuerOf);
    if e.Ok? {
      var g := GetUserFrom(users, e.value);
      if g.Err? {
        assert g.fault == Unhandled(IllegalObjectId) || g.fault == Rejected(NotFound);
      }
    }
  }

  /** A token the verifier refuses for every stored user admits nobody. */
  lemma ForgedTokenAdmitsNobody(token: string, users: seq<User>, issuerOf: string -> Option<string>, verify: (string, string) -> bool)
    requires forall u :: u in users ==> !verify(u.id, token)
    ensures Authenticated(Some(token), users, issuerOf, verify).Err?
  {
  }
}

=== FILE: user_service.dfy ===
/**
 * UserService: seeding the "users" collection, listing it, and saving,
 * updating and deleting users.  Update and delete look the user up by the
 * `_id` of the incoming object and check write access against the
 * incoming object's own access lists, but write under the id in the
 * request path.
 */
module UserService {
  import opened Common
  import opened Query
  import opened Acl
  import opened Users
  import opened Store

  /**
   * A user as the "users" collection holds it: the class declares no
   * `email`, so none is written.
   */
  function AsStored(u: User): (r: User)
    ensures r.email.None? && r.(email := u.email) == u
  {
    u.(email := None)
  }

  /**
   * The collection after `setup(us)` over `store`: each user in turn is
   * inserted unless a user with its `_id` is already there (one seeded
   * earlier in the same call included).
   */
  function Seeded(store: seq<User>, us: seq<User>): (r: seq<User>)
    ensures |store| <= |r| <= |store| + |us|
    decreases |us|
  {
    if us == [] then store
    else Seeded(if HasKey(store, UserKey, us[0].id) then store else store + [AsStored(us[0])], us[1..])
  }

  /** A key present in a prefix is present in the whole. */
  lemma HasKeyOfPrefix(s: seq<User>, t: seq<User>, k: string)
    requires |s| <= |t| && t[..|s|] == s && HasKey(s, UserKey, k)
    ensures HasKey(t, UserKey, k)
  {
    var i :| 0 <= i < |s| && UserKey(s[i]) == k;
    assert t[i] == s[i];
  }

  /**
   * Seeding only appends, and afterwards every seeded id is present; what
   * it appends are stored forms of seeded users.
   */
  lemma {:induction false} SeededExtends(store: seq<User>, us: seq<User>)
    ensures var r := Seeded(store, us);
      && |store| <= |r| && r[..|store|] == store
      && (forall u :: u in us ==> HasKey(r, UserKey, u.id))
      && (forall x :: x in r ==> x in store || exists u :: u in us && x == AsStored(u))
    decreases |us|
  {
    if us != [] {
      var next := if HasKey(store, UserKey, us[0].id) then store else store + [AsStored(us[0])];
      SeededExtends(next, us[1..]);
      var r := Seeded(store, us);
      assert r == Seeded(next, us[1..]);
      assert r[..|store|] == next[..|next|][..|store|];
      assert HasKey(next, UserKey, us[0].id) by {
        if !HasKey(store, UserKey, us[0].id) {
          assert UserKey(next[|store|]) == us[0].id;
        }
      }
      HasKeyOfPrefix(next, r, us[0].id);
      forall u | u in us
        ensures HasKey(r, UserKey, u.id)
      {
        if u != us[0] {
          assert u in us[1..];
        }
      }
      forall x | x in r
        ensures x in store || exists u :: u in us && x == AsStored(u)
      {
        if x !in next {
          var u :| u in us[1..] && x == AsStored(u);
          assert u in us;
        } else if x !in store {
          assert x == AsStored(us[0]);
        }
      }
    }
  }

  /** Seeding users whose ids are all present already changes nothing. */
  lemma {:induction false} SeededNoop(store: seq<User>, us: seq<User>)
    requires forall u :: u in us ==> HasKey(store, UserKey, u.id)
    ensures Seeded(store, us) == store
    decreases |us|
  {
    if us != [] {
      assert us[0] in us;
      forall u | u in us[1..] ensures HasKey(store, UserKey, u.id) {
        assert u in us;
      }
      SeededNoop(store, us[1..]);
    }
  }

  /** `setup` is idempotent: seeding the same users twice gives the collection seeding them once gives. */
  lemma SeedingIdempotent(store: seq<User>, us: seq<User>)
    ensures Seeded(Seeded(store, us), us) == Seeded(store, us)
  {
    SeededExtends(store, us);
    SeededNoop(Seeded(store, us), us);
  }

  /** Seeding keeps `_id`s unique. */
  lemma {:induction false} SeededUnique(store: seq<User>, us: seq<User>)
    requires UniqueBy(store, UserKey)
    ensures UniqueBy(Seeded(store, us), UserKey)
    decreases |us|
  {
    if us != [] {
      if !HasKey(store, UserKey, us[0].id) {
        UniqueAppend(store, UserKey, AsStored(us[0]));
      }
      SeededUnique(if HasKey(store, UserKey, us[0].id) then store else store + [AsStored(us[0])], us[1..]);
    }
  }

  /**
   * `setup(users)`: for each user in turn, insert it unless its `_id` is
   * stored already; the incoming list is returned as it came.
   */
  method Setup(db: Database, us: seq<User>) returns (r: Result<seq<User>>)
    requires db.Valid()
    modifies db
    ensures db.Valid()
    ensures r == Success(us)
    ensures db.users == Seeded(old(db.users), us)
    ensures db.dashboards == old(db.dashboards) && db.dashboardsSmall == old(db.dashboardsSmall) && db.contents == old(db.contents)
  {
    var i := 0;
    while i < |us|
      invariant 0 <= i <= |us|
      invariant db.Valid()
      invariant Seeded(db.users, us[i..]) == Seeded(old(db.users), us)
      invariant db.dashboards == old(db.dashboards) && db.dashboardsSmall == old(db.dashboardsSmall) && db.contents == old(db.contents)
    {
      FindByKey(db.users, UserKey, us[i].id);
      assert us[i..][1..] == us[i + 1..];
      if First(db.users, KeyIs(UserKey, us[i].id)).None? {
        UniqueAppend(db.users, UserKey, AsStored(us[i]));
        db.users := db.users + [AsStored(us[i])];
      }
      i := i + 1;
    }
    assert us[i..] == [];
    return Success(us);
  }

  /** `getReadAccessFilterFor(user.getAccessIds())` as a filter on users. */
  function Readable(user: User): User -> bool
  {
    (u: User) => ReadMatch(AccessIds(user), u.readACL, u.writeACL)
  }

  /** `all(skip, limit, user)`: the users `user` may read, in collection order, `skip` then `limit`. */
  function All(users: seq<User>, skip: nat, limit: nat, user: User): (r: seq<User>)
    ensures |r| == |Page(Select(users, Readable(user)), skip, limit)|
    ensures forall k :: 0 <= k < |r| ==> skip + k < |Select(users, Readable(user))| && r[k] == Select(users, Readable(user))[skip + k]
    ensures limit > 0 ==> |r| <= limit
  {
    Page(Select(users, Readable(user)), skip, limit)
  }

  /**
   * Every user `user` may read that falls inside the window `skip ..
   * skip + limit` of the readable users is listed, at its offset from `skip`.
   */
  lemma AllWindow(users: seq<User>, skip: nat, limit: nat, user: User, i: nat)
    requires skip <= i < |Select(users, Readable(user))| && (limit == 0 || i < skip + limit)
    ensures i - skip < |All(users, skip, limit, user)|
    ensures All(users, skip, limit, user)[i - skip] == Select(users, Readable(user))[i]
  {
    PageWindow(Select(users, Readable(user)), skip, limit, i);
  }

  /** Everything `all` lists is a stored user that `user` may read by the per-record rule. */
  lemma AllReadable(users: seq<User>, skip: nat, limit: nat, user: User)
    ensures forall u :: u in All(users, skip, limit, user) ==> u in users && CanRead(user, u.readACL, u.writeACL)
  {
    var r := All(users, skip, limit, user);
    var found := Select(users, Readable(user));
    forall u | u in r
      ensures u in users && CanRead(user, u.readACL, u.writeACL)
    {
      var k :| 0 <= k < |r| && r[k] == u;
      assert found[skip + k] in found;
      ReadFilterIsPerRecordRule(user, u.readACL, u.writeACL);
    }
  }

  /**
   * The incoming user with its password replaced by what
   * `Hash.createPassword` returns for it; `createPassword` gives `None`
   * where the hash throws.
   */
  function Hashed(u: User, createPassword: Option<string> -> Option<string>): User
    requires createPassword(u.password).Some?
  {
    u.(password := createPassword(u.password))
  }

  /**
   * `save(user)`: hash the password, whatever it is (null included), and
   * insert.  A hash that throws is caught as INTERNAL_SERVER_ERROR; an
   * `_id` already stored violates the unique index (INTERNAL_SERVER_ERROR).
   * No access entry is added.
   */
  method Save(db: Database, u: User, createPassword: Option<string> -> Option<string>) returns (r: Result<User>)
    requires db.Valid()
    modifies db
    ensures db.Valid()
    ensures r.Failure? <==> createPassword(u.password).None? || HasKey(old(db.users), UserKey, u.id)
    ensures r.Failure? ==> r.status == InternalServerError && db.users == old(db.users)
    ensures r.Success? ==>
      && r.value == Hashed(u, createPassword)
      && db.users == old(db.users) + [AsStored(r.value)]
    ensures db.dashboards == old(db.dashboards) && db.dashboardsSmall == old(db.dashboardsSmall) && db.contents == old(db.contents)
  {
    if createPassword(u.password).None? {
      return Failure(InternalServerError);
    }
    var saved := Hashed(u, createPassword);
    FindByKey(db.users, UserKey, u.id);
    if First(db.users, KeyIs(UserKey, u.id)).Some? {
      return Failure(InternalServerError);
    }
    UniqueAppend(db.users, UserKey, AsStored(saved));
    db.users := db.users + [AsStored(saved)];
    return Success(saved);
  }

  /**
   * A user saved with both access lists empty is a public record: every
   * user may read it and write it.
   */
  lemma SavedWithoutAclIsPublic(u: User, createPassword: Option<string> -> Option<string>, other: User)
    requires createPassword(u.password).Some? && u.readACL == [] && u.writeACL == []
    ensures var s := AsStored(Hashed(u, createPassword));
      HasReadWriteAccessFor(other, s.readACL, s.writeACL) && CanRead(other, s.readACL, s.writeACL)
  {
  }

  /**
   * The checks of `update` and `delete`: NOT_FOUND for a path id that is
   * not an ObjectId, NOT_FOUND when no user has the incoming `_id`,
   * FORBIDDEN when `authUser` may not write the INCOMING object;
   * otherwise the stored user with the incoming `_id`.
   */
  function Checked(users: seq<User>, u: User, id: string, authUser: User): (r: Result<User>)
    ensures r.Failure? ==> r.status == NotFound || r.status == Forbidden
    ensures !IsValidObjectId(id) ==> r == Failure(NotFound)
    ensures IsValidObjectId(id) && !HasKey(users, UserKey, u.id) ==> r == Failure(NotFound)
    ensures IsValidObjectId(id) && HasKey(users, UserKey, u.id) ==>
      (r.Success? <==> HasReadWriteAccessFor(authUser, u.readACL, u.writeACL))
    ensures r.Success? ==> r.value in users && r.value.id == u.id
  {
    FindByKey(users, UserKey, u.id);
    if !IsValidObjectId(id) then Failure(NotFound)
    else match First(users, KeyIs(UserKey, u.id))
      case None => Failure(NotFound)
      case Some(found) =>
        if HasReadWriteAccessFor(authUser, u.readACL, u.writeACL) then Success(found) else Failure(Forbidden)
  }

  /**
   * The access check reads the incoming object, not the stored one: an
   * incoming object whose `writeACL` holds "*" passes for any caller,
   * even one the stored user's lists shut out.
   */
  lemma WildcardPayloadPassesCheck(users: seq<User>, u: User, id: string, authUser: User, stored: User)
    requires IsValidObjectId(id) && stored in users && stored.id == u.id
    requires !HasReadWriteAccessFor(authUser, stored.readACL, stored.writeACL)
    requires "*" in u.writeACL
    ensures Checked(users, u, id, authUser).Success?
  {
    var i :| 0 <= i < |users| && users[i] == stored;
    assert UserKey(users[i]) == u.id;
  }

  /** What `update` writes: the incoming user with the stored access entries appended to its own. */
  function Merged(u: User, stored: User): (r: User)
    ensures r.(readACL := u.readACL, writeACL := u.writeACL) == u
    ensures forall x :: x in r.readACL <==> x in u.readACL || x in stored.readACL
    ensures forall x :: x in r.writeACL <==> x in u.writeACL || x in stored.writeACL
    ensures |r.readACL| == |u.readACL| + |stored.readACL| && |r.writeACL| == |u.writeACL| + |stored.writeACL|
    ensures r.readACL[..|u.readACL|] == u.readACL && r.writeACL[..|u.writeACL|] == u.writeACL
  {
    u.(readACL := Appended(u.readACL, stored.readACL), writeACL := Appended(u.writeACL, stored.writeACL))
  }

  /**
   * `update(user, id, authUser)`: the checks, then `replaceOne` on the
   * PATH id with the merged user.  When the path id names another stored
   * user, the replacement would change that document's `_id`, which
   * MongoDB refuses (INTERNAL_SERVER_ERROR); when it names no user, nothing
   * is written and the merged user is still returned.  The password is
   * stored as it came, unhashed.
   */
  method Update(db: Database, u: User, id: string, authUser: User) returns (r: Result<User>)
    requires db.Valid()
    modifies db
    ensures db.Valid()
    ensures var check := Checked(old(db.users), u, id, authUser);
      && (check.Failure? ==> r == Failure(check.status) && db.users == old(db.users))
      && (check.Success? && HasKey(old(db.users), UserKey, ParseObjectId(id).value) && ParseObjectId(id).value != u.id ==>
            r == Failure(InternalServerError) && db.users == old(db.users))
      && (check.Success? && !(HasKey(old(db.users), UserKey, ParseObjectId(id).value) && ParseObjectId(id).value != u.id) ==>
            && r == Success(Merged(u, check.value))
            && db.users == ReplaceFirst(old(db.users), KeyIs(UserKey, ParseObjectId(id).value), AsStored(r.value)))
    ensures db.dashboards == old(db.dashboards) && db.dashboardsSmall == old(db.dashboardsSmall) && db.contents == old(db.contents)
  {
    var check := Checked(db.users, u, id, authUser);
    if check.Failure? {
      return Failure(check.status);
    }
    var target := ParseObjectId(id).value;
    var updated := Merged(u, check.value);
    FindByKey(db.users, UserKey, target);
    var hit := First(db.users, KeyIs(UserKey, target));
    if hit.Some? && target != u.id {
      return Failure(InternalServerError);
    }
    if hit.Some? {
      ReplaceByKey(db.users, UserKey, AsStored(updated));
    }
    db.users := ReplaceFirst(db.users, KeyIs(UserKey, target), AsStored(updated));
    return Success(updated);
  }

  /** When the path id names no stored user, the replacement matches nothing and the collection is unchanged. */
  lemma UpdateOfUnknownPathWritesNothing(users: seq<User>, target: Id, x: User)
    requires !HasKey(users, UserKey, target)
    ensures ReplaceFirst(users, KeyIs(UserKey, target), x) == users
  {
    FindByKey(users, UserKey, target);
  }

  /**
   * `delete(user, id, authUser)`: the checks, then `deleteOne` on the PATH
   * id; the incoming user is returned.
   */
  method Delete(db: Database, u: User, id: string, authUser: User) returns (r: Result<User>)
    requires db.Valid()
    modifies db
    ensures db.Valid()
    ensures var check := Checked(old(db.users), u, id, authUser);
      && (check.Failure? ==> r == Failure(check.status) && db.users == old(db.users))
      && (check.Success? ==>
            && r == Success(u)
            && db.users == RemoveFirst(old(db.users), KeyIs(UserKey, ParseObjectId(id).value))
            && db.users == Select(old(db.users), KeyIsNot(UserKey, ParseObjectId(id).value)))
    ensures db.dashboards == old(db.dashboards) && db.dashboardsSmall == old(db.dashboardsSmall) && db.contents == old(db.contents)
  {
    var check := Checked(db.users, u, id, authUser);
    if check.Failure? {
      return Failure(check.status);
    }
    var target := ParseObjectId(id).value;
    RemoveByKey(db.users, UserKey, target);
    UniqueSelect(db.users, UserKey, KeyIsNot(UserKey, target));
    db.users := RemoveFirst(db.users, KeyIs(UserKey, target));
    return Success(u);
  }

  /**
   * The check and the deletion look at different users: a caller allowed
   * to write the incoming user deletes whichever user the path names,
   * and the incoming user stays.
   */
  lemma DeleteCanRemoveAnotherUser(users: seq<User>, u: User, victim: User, authUser: User)
    requires UniqueBy(users, UserKey)
    requires u in users && victim in users && victim.id != u.id && IsCanonicalId(victim.id)
    requires HasReadWriteAccessFor(authUser, u.readACL, u.writeACL)
    ensures Checked(users, u, victim.id, authUser).Success?
    ensures ParseObjectId(victim.id) == Some(victim.id)
    ensures victim !in Select(users, KeyIsNot(UserKey, victim.id))
    ensures u in Select(users, KeyIsNot(UserKey, victim.id))
  {
    CanonicalIdRoundTrip(victim.id);
    var i :| 0 <= i < |users| && users[i] == u;
    assert UserKey(users[i]) == u.id;
  }
}

=== FILE: users.dfy ===
/**
 * The User record: its write-permission rule, the principal ids it reads
 * with, and the constraints on its credentials.
 */
module Users {
  import opened Common
  import opened Acl
  import opened Validation

  /**
   * A stored user.  `email` is a document key the class does not declare;
   * the login lookup matches on it.
   */
  datatype User = User(
    id: Id,
    username: Option<string>,
    password: Option<string>,
    email: Option<string>,
    roles: seq<string>,
    readACL: seq<string>,
    writeACL: seq<string>)

  /** The `_id` of a user, the key of its collection. */
  function UserKey(u: User): string
  {
    u.id
  }

  /** `getAccessIds`: the user's id, then its roles, then the wildcard "*". */
  function AccessIds(u: User): (r: seq<string>)
    ensures |r| == |u.roles| + 2
    ensures r[0] == u.id && r[|r| - 1] == "*"
    ensures r[1..|r| - 1] == u.roles
    ensures forall x :: x in r <==> x == u.id || x in u.roles || x == "*"
  {
    [u.id] + u.roles + ["*"]
  }

  /**
   * `hasReadWriteAccessFor(object)`, on the object's two access lists:
   * a record whose lists are both empty is writable by anyone; otherwise
   * only `writeACL` grants, through the user's id, the wildcard or a role.
   */
  predicate HasReadWriteAccessFor(u: User, readACL: seq<string>, writeACL: seq<string>)
    ensures u.id in writeACL || "*" in writeACL ==> HasReadWriteAccessFor(u, readACL, writeACL)
    ensures (exists x :: x in u.roles && x in writeACL) ==> HasReadWriteAccessFor(u, readACL, writeACL)
    ensures HasReadWriteAccessFor(u, readACL, writeACL) && writeACL == [] ==> readACL == []
  {
    || (|writeACL| == 0 && |readACL| == 0)
    || u.id in writeACL
    || "*" in writeACL
    || ContainElementsInCommon(writeACL, u.roles)
  }

  /** A record with both lists empty is writable by every user. */
  lemma PublicRecordWritable(u: User, readACL: seq<string>, writeACL: seq<string>)
    requires readACL == [] && writeACL == []
    ensures HasReadWriteAccessFor(u, readACL, writeACL)
  {
  }

  /** A record with an empty `writeACL` but a non-empty `readACL` is writable by nobody. */
  lemma ReadOnlyRecordRefused(u: User, readACL: seq<string>, writeACL: seq<string>)
    requires writeACL == [] && readACL != []
    ensures !HasReadWriteAccessFor(u, readACL, writeACL)
  {
  }

  /** The write rule is the public case or an intersection of `writeACL` with the access ids. */
  lemma WriteRuleByAccessIds(u: User, readACL: seq<string>, writeACL: seq<string>)
    ensures HasReadWriteAccessFor(u, readACL, writeACL) <==>
      (readACL == [] && writeACL == []) || ContainElementsInCommon(writeACL, AccessIds(u))
  {
  }

  /**
   * For a record that is not public, a `writeACL` that keeps every old
   * entry (any appended list, any new `readACL`) never revokes access.
   */
  lemma WriteAccessSurvivesGrowth(u: User, readACL: seq<string>, writeACL: seq<string>, readACL': seq<string>, writeACL': seq<string>)
    requires !(readACL == [] && writeACL == [])
    requires HasReadWriteAccessFor(u, readACL, writeACL)
    requires forall x :: x in writeACL ==> x in writeACL'
    ensures HasReadWriteAccessFor(u, readACL', writeACL')
  {
  }

  /** Whatever a user may write passes the read filter built from its access ids. */
  lemma WriteImpliesRead(u: User, readACL: seq<string>, writeACL: seq<string>)
    requires HasReadWriteAccessFor(u, readACL, writeACL)
    ensures ReadMatch(AccessIds(u), readACL, writeACL)
  {
    if !(readACL == [] && writeACL == []) {
      WriteRuleByAccessIds(u, readACL, writeACL);
    }
  }

  /** Principal `x` in an access list designates user `u`. */
  predicate Designates(u: User, x: string)
  {
    x == u.id || x in u.roles || x == "*"
  }

  /** The read rule stated per record: public, or some entry of either list designates the user. */
  predicate CanRead(u: User, readACL: seq<string>, writeACL: seq<string>)
  {
    || (readACL == [] && writeACL == [])
    || (exists x :: x in readACL && Designates(u, x))
    || (exists x :: x in writeACL && Designates(u, x))
  }

  /** The query filter of the services selects exactly the records the per-record rule admits. */
  lemma ReadFilterIsPerRecordRule(u: User, readACL: seq<string>, writeACL: seq<string>)
    ensures ReadMatch(AccessIds(u), readACL, writeACL) <==> CanRead(u, readACL, writeACL)
  {
  }

  /** The constraints on `username` and `password`, in declaration order. */
  function UserViolations(u: User): seq<Violation>
  {
    NotEmpty("username", u.username, "cannot be empty")
    + MinSize("username", u.username, 5, "should have at least 5 characters")
    + NotEmpty("password", u.password, "cannot be empty")
    + MinSize("password", u.password, 5, "should have at least 5 characters")
  }

  /** A user is valid exactly when both credentials are present with at least 5 UTF-16 code units. */
  lemma UserValidity(u: User)
    ensures UserViolations(u) == [] <==>
      u.username.Some? && Utf16Length(u.username.value) >= 5 && u.password.Some? && Utf16Length(u.password.value) >= 5
  {
  }

  /**
   * `@Size` counts UTF-16 code units: a username of three characters above
   * U+FFFF is six units long and passes the 5-character minimum.
   */
  lemma SupplementaryUsernameAccepted(u: User)
    requires u.username.Some? && |u.username.value| == 3
    requires forall i :: 0 <= i < |u.username.value| ==> u.username.value[i] as int >= 0x1_0000
    requires u.password.Some? && |u.password.value| >= 5
    ensures Utf16Length(u.username.value) == 6
    ensures UserViolations(u) == []
  {
    UserValidity(u);
  }
}

=== FILE: validation.dfy ===
/**
 * Bean-validation constraints and HibernateValidator's report: each model
 * lists the violations its annotations produce, and `Validate` renders them
 * as the string the validation action answers with.
 */
module Validation {
  import opened Common

  /** A constraint violation: the property path and the annotation's message. */
  datatype Violation = Violation(path: string, message: string)

  /** `@NotEmpty` on a string or a list: null and the empty value are violations. */
  function NotEmpty<T>(path: string, value: Option<seq<T>>, message: string): (r: seq<Violation>)
    ensures r == [] <==> value.Some? && value.value != []
    ensures r != [] ==> r == [Violation(path, message)]
  {
    if value.None? || value.value == [] then [Violation(path, message)] else []
  }

  /**
   * `CharSequence.length()` of a Java string: the number of UTF-16 code
   * units, one for a character of the Basic Multilingual Plane and two (a
   * surrogate pair) for a character above U+FFFF.
   */
  function Utf16Length(s: string): (r: nat)
    ensures |s| <= r <= 2 * |s|
    ensures (forall i :: 0 <= i < |s| ==> s[i] as int < 0x1_0000) ==> r == |s|
    ensures (forall i :: 0 <= i < |s| ==> s[i] as int >= 0x1_0000) ==> r == 2 * |s|
  {
    if s == [] then 0
    else (if s[0] as int < 0x1_0000 then 1 else 2) + Utf16Length(s[1..])
  }

  /** The code units of a concatenation are those of its parts. */
  lemma {:induction false} Utf16LengthAppend(a: string, b: string)
    ensures Utf16Length(a + b) == Utf16Length(a) + Utf16Length(b)
  {
    if a == [] {
      assert a + b == b;
    } else {
      assert (a + b)[0] == a[0] && (a + b)[1..] == a[1..] + b;
      Utf16LengthAppend(a[1..], b);
    }
  }

  /** `@Size(min = ...)` on a string: null is accepted, strings of fewer UTF-16 code units are violations. */
  function MinSize(path: string, value: Option<string>, min: nat, message: string): (r: seq<Violation>)
    ensures r == [] <==> value.None? || Utf16Length(value.value) >= min
    ensures r != [] ==> r == [Violation(path, message)]
  {
    if value.Some? && Utf16Length(value.value) < min then [Violation(path, message)] else []
  }

  /** `Strings.capitalize`: upper-cases the first character (ASCII letters), keeps the rest. */
  function Capitalize(s: string): (r: string)
    ensures |r| == |s|
    ensures |s| > 0 ==> r[1..] == s[1..]
    ensures |s| > 0 ==> ('a' <= s[0] <= 'z' ==> r[0] as int == s[0] as int - 32)
    ensures |s| > 0 ==> (!('a' <= s[0] <= 'z') ==> r[0] == s[0])
  {
    if s == [] then s
    else if 'a' <= s[0] <= 'z' then [(s[0] as int - 32) as char] + s[1..]
    else s
  }

  /** One entry of the report: capitalised path, a space, the message. */
  function Render(v: Violation): (r: string)
    ensures |r| == |v.path| + 1 + |v.message|
    ensures r[..|v.path|] == Capitalize(v.path) && r[|v.path|] == ' ' && r[|v.path| + 1..] == v.message
  {
    Capitalize(v.path) + " " + v.message
  }

  /** `Collectors.joining(sep)`: the entries in order, `sep` between neighbours. */
  function Join(entries: seq<string>, sep: string): (r: string)
    ensures entries == [] ==> r == ""
    ensures entries != [] ==> |entries[0]| <= |r| && r[..|entries[0]|] == entries[0]
  {
    if entries == [] then ""
    else if |entries| == 1 then entries[0]
    else entries[0] + sep + Join(entries[1..], sep)
  }

  function TotalLength(entries: seq<string>): nat
  {
    if entries == [] then 0 else |entries[0]| + TotalLength(entries[1..])
  }

  /** Joining k entries adds exactly k - 1 separators. */
  lemma {:induction false} JoinLength(entries: seq<string>, sep: string)
    requires entries != []
    ensures |Join(entries, sep)| == TotalLength(entries) + (|entries| - 1) * |sep|
  {
    if |entries| > 1 {
      JoinLength(entries[1..], sep);
    }
  }

  /** Joining one more entry after a non-empty list adds the separator and that entry at the end. */
  lemma {:induction false} JoinSnoc(entries: seq<string>, e: string, sep: string)
    requires entries != []
    ensures Join(entries + [e], sep) == Join(entries, sep) + sep + e
  {
    if |entries| == 1 {
      assert entries + [e] == [entries[0], e];
    } else {
      JoinSnoc(entries[1..], e, sep);
      assert (entries + [e])[1..] == entries[1..] + [e];
    }
  }

  /** The rendered entries of a list of violations, one per violation, in order. */
  function Entries(violations: seq<Violation>): (r: seq<string>)
    ensures |r| == |violations| && forall i :: 0 <= i < |r| ==> r[i] == Render(violations[i])
  {
    seq(|violations|, i requires 0 <= i < |violations| => Render(violations[i]))
  }

  /** `formatErrors`: every violation rendered, joined with ", ". */
  function FormatErrors(violations: seq<Violation>): (r: string)
    ensures violations != [] ==> |r| >= |violations| * 3 - 2
    ensures violations != [] ==> |Render(violations[0])| <= |r| && r[..|Render(violations[0])|] == Render(violations[0])
    ensures |violations| == 1 ==> r == Render(violations[0])
  {
    if violations == [] then ""
    else
      FormatLength(violations);
      Join(Entries(violations), ", ")
  }

  /** Each entry takes at least a character and each separator two. */
  lemma FormatLength(violations: seq<Violation>)
    requires violations != []
    ensures |Join(Entries(violations), ", ")| >= |violations| * 3 - 2
    ensures |violations| == 1 ==> Join(Entries(violations), ", ") == Render(violations[0])
  {
    var entries := Entries(violations);
    JoinLength(entries, ", ");
    EntriesLength(violations, entries);
    assert |", "| == 2;
  }

  lemma {:induction false} EntriesLength(violations: seq<Violation>, entries: seq<string>)
    requires |entries| == |violations|
    requires forall i :: 0 <= i < |violations| ==> entries[i] == Render(violations[i])
    ensures TotalLength(entries) >= |entries|
  {
    if entries != [] {
      EntriesLength(violations[1..], entries[1..]);
    }
  }

  /**
   * The report of a further violation is the report so far, ", ", and the
   * new entry: with `ValidateOne` this fixes the report of every list.
   */
  lemma FormatErrorsSnoc(violations: seq<Violation>, v: Violation)
    requires violations != []
    ensures FormatErrors(violations + [v]) == FormatErrors(violations) + ", " + Render(v)
  {
    assert Entries(violations + [v]) == Entries(violations) + [Render(v)];
    JoinSnoc(Entries(violations), Render(v), ", ");
  }

  /** A single violation is reported on its own, without separator. */
  lemma ValidateOne(v: Violation)
    ensures Validate([v]) == Capitalize(v.path) + " " + v.message
  {
    assert Entries([v]) == [Render(v)];
  }

  /**
   * `validate`: "" when there is no violation, otherwise the formatted
   * report, which is then never empty.
   */
  function Validate(violations: seq<Violation>): (r: string)
    ensures r == "" <==> violations == []
  {
    if |violations| == 0 then "" else FormatErrors(violations)
  }
}
